=== FILE: README.md ===
# DLLookup in Dafny

DLLookup is a Microsoft Teams app for distribution lists (DLs). A user keeps a list of favourite
DLs and can pin some of them. They can open a DL to see its members with their Teams presence,
pin members, and start a group chat with the members they check. The backend is ASP.NET Core. It
talks to Microsoft Graph, with JSON batching and `@odata.nextLink` paging, and keeps favourites,
pins and page sizes in Azure Table Storage. The client is React.

This project models the pure rules under those paths:

- the list and string helpers;
- the Graph batch-request builder and the way responses are decoded by request id;
- the presence cache partition, the normalisation of availabilities and the online count;
- the key discipline of the table repositories and of the controllers above them;
- the Graph paging loop, the per-part batch fold and the segmented table query;
- the favourites merge;
- the two client views: the members grid (pinned-first stable sort, search, paging window,
  checkboxes and select-all, presence merge, group-chat trimming) and the "add distribution
  list" dialog (sort, checkboxes, Add payload, search trigger).

Graph, the memory cache and Table Storage enter as values: a cache is a map, a table is a map from
(partition, row) to entity, and Graph is a function from a batch payload to its reply or a
sequence of pages. Client state that the source mutates in place becomes a value:

- member rows are held in one array and addressed by index ("handles");
- the master list, the shown list and the chat list are sequences of handles;
- shared row objects therefore stay shared, as they are in the source.

Modules, one per file: `Wrappers`, `Text`, `ListExtensions`, `StringExtensions`,
`DirectoryData`, `PeoplePresence`, `GraphBatchRequests`, `GraphCalls`, `TableStore`,
`PresenceRepository`, `Favorites`, `MemberPins`, `PageSize`, `StableSort`, `MembersView`,
`MemberSelection`, `AddListView`.

## Model

| member | source | states |
|---|---|---|
| ListExtensions.SplitList | Source/Microsoft.Teams.Apps.DLLookup/Helpers/Extensions/ListExtensions.cs:22-28 | The batches concatenate back to the list. Each batch is non-empty and holds at most `nSize` items, and all but the last hold exactly `nSize`. There are ceil(n / nSize) batches, none for an empty list. A non-positive size with a non-empty list is excluded. |
| ListExtensions.SplitListDefault | Source/Microsoft.Teams.Apps.DLLookup/Helpers/Extensions/ListExtensions.cs:22 | With no size given, the batches are of 40 and have the same shape and count guarantees. |
| ListExtensions.ChunksFlatten | Source/Microsoft.Teams.Apps.DLLookup/Helpers/Extensions/ListExtensions.cs:24-27 | The reference batching concatenates back to the source, in order. |
| ListExtensions.ChunksWellShaped | Source/Microsoft.Teams.Apps.DLLookup/Helpers/Extensions/ListExtensions.cs:26 | Every reference batch is non-empty and at most `size` long; all but the last are exactly `size`. |
| ListExtensions.ChunksCount | Source/Microsoft.Teams.Apps.DLLookup/Helpers/Extensions/ListExtensions.cs:24 | The number of reference batches is ceil(n / size). |
| ListExtensions.FindFirst | Source/Microsoft.Teams.Apps.DLLookup/Controllers/DistributionListsController.cs:112 | `List.Find`: `None` exactly when no element matches; otherwise the first element that matches. |
| StringExtensions.Truncate | Source/Microsoft.Teams.Apps.DLLookup/Helpers/Extensions/StringExtensions.cs:18-26 | Null and empty strings come back as they are, and so does any string no longer than the bound. Otherwise the result is the prefix of length min(length, bound). A negative bound on a non-empty string (which makes `Substring` throw) is excluded. |
| StringExtensions.TruncateIdempotent | Source/Microsoft.Teams.Apps.DLLookup/Helpers/Extensions/StringExtensions.cs:25 | Truncating twice with one bound equals truncating once. |
| DirectoryData.MatchesIgnoreCaseIsEqualsIgnoreCase | Source/Microsoft.Teams.Apps.DLLookup/Repositories/FavoriteDistributionListMemberDataRepository.cs:79 | An ordinal ignore-case comparison with a lower-case constant is equality after lower-casing; a null never matches. |
| PeoplePresence.AvailabilitySortOrder | Source/Microsoft.Teams.Apps.DLLookup/Models/PeoplePresenceData.cs:24-53 | The rank is at most 6. A null or empty availability gets 6. A rank below 6 means the lower-cased availability is the ranked name at that position. A rank of 6 means it is none of them. |
| PeoplePresence.SortOrderOfRanked | Source/Microsoft.Teams.Apps.DLLookup/Models/PeoplePresenceData.cs:31-49 | online, busy, donotdisturb, berightback, away and offline get 0 to 5 in any letter case. |
| PeoplePresence.SortOrderIgnoresCase | Source/Microsoft.Teams.Apps.DLLookup/Models/PeoplePresenceData.cs:29 | Availabilities that are equal ignoring case get the same rank. |
| GraphBatchRequests.RequestId | Source/Microsoft.Teams.Apps.DLLookup/Helpers/MSGraphBatchRequestCreator.cs:30-34 | A request id is the group id for query 0. For a later query k it is the group id followed by the decimal digits of k. |
| GraphBatchRequests.GroupRows | Source/Microsoft.Teams.Apps.DLLookup/Helpers/MSGraphBatchRequestCreator.cs:26-43 | There is one row per query, each with one request per group, in input order. |
| GraphBatchRequests.CreateBatchRequestPayloadForGroups | Source/Microsoft.Teams.Apps.DLLookup/Helpers/MSGraphBatchRequestCreator.cs:22-49 | The payload has exactly queries × groups requests, query-major. Each request's URL is the query with `{0}` replaced by the group id, and its method is the one given. |
| GraphBatchRequests.CreateBatchRequestPayloadForPresence | Source/Microsoft.Teams.Apps.DLLookup/Helpers/MSGraphBatchRequestCreator.cs:58-73 | There is one request per person, in order. The id is the user principal name; the URL is built from the directory id. |
| GraphBatchRequests.NatToStringInjective | Source/Microsoft.Teams.Apps.DLLookup/Helpers/MSGraphBatchRequestCreator.cs:33 | Different query indexes give different decimal suffixes. |
| GraphBatchRequests.RequestIdInjective | Source/Microsoft.Teams.Apps.DLLookup/Helpers/MSGraphBatchRequestCreator.cs:30-34 | Among group ids of one length, a request id determines both the group and the query index. |
| GraphBatchRequests.DecodeByIdIsUnambiguous | Source/Microsoft.Teams.Apps.DLLookup/Repositories/FavoriteDistributionListDataRepository.cs:117-118 | When all group ids have the same length (as GUIDs do), the request found under id `RequestId(g, k)` is the one built for group g and query k. |
| GraphBatchRequests.AmbiguousWithoutEqualLengths | Source/Microsoft.Teams.Apps.DLLookup/Helpers/MSGraphBatchRequestCreator.cs:30-34 | Without that condition the scheme is ambiguous: group "a" with query 1 and group "a1" with query 0 share an id. |
| GraphCalls.GetValue | Source/Microsoft.Teams.Apps.DLLookup/Helpers/ProtectedApiCallHelper.cs:366-384 | A property is found exactly when the JSON is present and has it. An empty JSON or a missing property gives the default (`None`). |
| GraphCalls.GetValueAfterSet | Source/Microsoft.Teams.Apps.DLLookup/Helpers/ProtectedApiCallHelper.cs:371-373 | Reading a property returns what it was set to; setting it leaves other properties unchanged. |
| GraphCalls.CallGraphApiOnBehalfOfUser | Source/Microsoft.Teams.Apps.DLLookup/Helpers/ProtectedApiCallHelper.cs:146-172 | The loop's result is the page fold `Paginate`. If the first page has no `value`, the result is empty after exactly one request. |
| GraphCalls.FollowLinksCollects | Source/Microsoft.Teams.Apps.DLLookup/Helpers/ProtectedApiCallHelper.cs:158-168 | Along a chain of `nextLink`s, the result concatenates each page's `value`, in page order. A page without `value` adds nothing but its link is still followed. |
| GraphCalls.PaginateConcatenates | Source/Microsoft.Teams.Apps.DLLookup/Helpers/ProtectedApiCallHelper.cs:155-168 | When the first page has a `value`, the whole result is the concatenation of the pages up to the one without `nextLink`. |
| GraphCalls.UnreadablePageFails | Source/Microsoft.Teams.Apps.DLLookup/Helpers/ProtectedApiCallHelper.cs:162 | A page that cannot be read fails the whole call; the catch then returns null. |
| GraphCalls.CallBatchWebApiOnBehalfOfUser | Source/Microsoft.Teams.Apps.DLLookup/Helpers/ProtectedApiCallHelper.cs:60-137 | The batch is sent exactly when the access token is non-empty. A failed or throttled batch, or an unsent one, gives an empty list. A successful one gives the folded part bodies. |
| GraphCalls.CollectedBodiesFromSuccessfulParts | Source/Microsoft.Teams.Apps.DLLookup/Helpers/ProtectedApiCallHelper.cs:102-105 | Every collected body comes from a successful HTTP part. |
| GraphCalls.CollectedBodiesAppend | Source/Microsoft.Teams.Apps.DLLookup/Helpers/ProtectedApiCallHelper.cs:91-120 | Before any 429, the fold over two runs of parts is the fold of each, concatenated. |
| GraphCalls.CollectedBodiesStopAtThrottle | Source/Microsoft.Teams.Apps.DLLookup/Helpers/ProtectedApiCallHelper.cs:106-110 | The first 429 part stops the fold; nothing after it is collected. |
| GraphCalls.CallGraphApiPost | Source/Microsoft.Teams.Apps.DLLookup/Helpers/ProtectedApiCallHelper.cs:271-296 | A success status gives the `responses` array; any other status gives the reply's text. |
| TableStore.CreateOrUpdate | Source/Microsoft.Teams.Apps.DLLookup.Repositories/BaseRepository.cs:53-58 | Insert-or-replace: the key then maps to the entity, and every other key is unchanged. |
| TableStore.Delete | Source/Microsoft.Teams.Apps.DLLookup.Repositories/BaseRepository.cs:65-70 | Deleting a missing key fails (the service refuses it). Otherwise only that key is removed. |
| TableStore.DeleteUndoesCreate | Source/Microsoft.Teams.Apps.DLLookup.Repositories/BaseRepository.cs:53-70 | Deleting a key just inserted restores the table. |
| TableStore.LookupKey | Source/Microsoft.Teams.Apps.DLLookup.Repositories/BaseRepository.cs:80 | A lookup lower-cases both keys. |
| TableStore.Get | Source/Microsoft.Teams.Apps.DLLookup.Repositories/BaseRepository.cs:78-85 | An entity is found exactly when it is stored under the lower-cased keys. |
| TableStore.GetMissesMixedCaseKeys | Source/Microsoft.Teams.Apps.DLLookup.Repositories/BaseRepository.cs:80 | An entity stored under a key with an upper-case letter is never found by `GetAsync`. |
| TableStore.GetFindsLowerCaseKeys | Source/Microsoft.Teams.Apps.DLLookup.Repositories/BaseRepository.cs:80 | An entity stored under lower-case keys is found by any spelling of them. |
| TableStore.PartitionFilter | Source/Microsoft.Teams.Apps.DLLookup.Repositories/BaseRepository.cs:109-116 | A partition that is null or all white space (the .NET `char.IsWhiteSpace` set, Unicode spaces included) falls back to the default partition key, which is never assigned (`None`). Otherwise the filter is the lower-cased partition. |
| TableStore.UnicodeSpacePartitionFallsBack | Source/Microsoft.Teams.Apps.DLLookup.Repositories/BaseRepository.cs:111-114 | A partition of a no-break and an ideographic space falls back to the default; a zero-width space, which .NET does not count as white space, is read as a partition. |
| TableStore.GetAll | Source/Microsoft.Teams.Apps.DLLookup.Repositories/BaseRepository.cs:93-101 | The result is exactly the stored keys in the lower-cased partition, and nothing for a blank partition. |
| TableStore.ExecuteQuery | Source/Microsoft.Teams.Apps.DLLookup.Repositories/BaseRepository.cs:125-147 | The result is the entities of the first `read` segments, in order. The loop went on after each earlier segment and stopped after the last one read: no continuation, cancelled, or `count` reached. With no count and no cancellation, it reads every segment. |
| PresenceRepository.PartitionIsExact | Source/Microsoft.Teams.Apps.DLLookup/Repositories/PresenceDataRepository.cs:62-78 | Every member lands either in the cache hits (with its cached record) or in the misses (with a fresh record), never both, and the two counts add up to the input. |
| PresenceRepository.NoMissesWhenAllCached | Source/Microsoft.Teams.Apps.DLLookup/Repositories/PresenceDataRepository.cs:80 | There are no misses exactly when every member is cached. |
| PresenceRepository.Normalise | Source/Microsoft.Teams.Apps.DLLookup/Repositories/PresenceDataRepository.cs:115 | `available` in any case becomes `Online`. Every other status is kept verbatim, and no result is `available` in any case. |
| PresenceRepository.ParsePresence | Source/Microsoft.Teams.Apps.DLLookup/Repositories/PresenceDataRepository.cs:109-123 | A response yields a record exactly when its id, body and availability are present. The record's UPN is the lower-cased response id; its availability is normalised. |
| PresenceRepository.ParseAllFromGraph | Source/Microsoft.Teams.Apps.DLLookup/Repositories/PresenceDataRepository.cs:107-137 | The records read are exactly the records of the readable responses, so an unreadable one is skipped without costing the others theirs. Every record read is well-formed. |
| PresenceRepository.FetchedFromGraph | Source/Microsoft.Teams.Apps.DLLookup/Repositories/PresenceDataRepository.cs:93-153 | Every record fetched across the batches is well-formed, whatever Graph answers. |
| PresenceRepository.CacheAll | Source/Microsoft.Teams.Apps.DLLookup/Repositories/PresenceDataRepository.cs:120 | Afterwards the cache holds exactly the old keys plus the fetched UPNs. Keys not fetched keep their records. |
| PresenceRepository.CacheAllKeepsLast | Source/Microsoft.Teams.Apps.DLLookup/Repositories/PresenceDataRepository.cs:120 | A UPN fetched more than once keeps its last record. |
| PresenceRepository.CacheAllHoldsWritten | Source/Microsoft.Teams.Apps.DLLookup/Repositories/PresenceDataRepository.cs:120 | Every UPN written is in the cache afterwards, holding one of the records written under that UPN. |
| PresenceRepository.CacheAllWellFormed | Source/Microsoft.Teams.Apps.DLLookup/Repositories/PresenceDataRepository.cs:116-120 | Caching well-formed records keeps the cache well-formed. |
| PresenceRepository.GetBatchUserPresence | Source/Microsoft.Teams.Apps.DLLookup/Repositories/PresenceDataRepository.cs:57-161 | Graph is called exactly when some member missed the cache. Misses are sent in order, in batches of 1 to 19 presence requests. The result starts with the cache hits in member order. When some member missed, the rest of the result is the records read from Graph's replies, batch by batch, and the new cache is the old one with those records written in turn. Every such record is cached under its UPN, holding a fetched record with that UPN. |
| PresenceRepository.FetchedHasBatch | Source/Microsoft.Teams.Apps.DLLookup/Repositories/PresenceDataRepository.cs:99-121 | A record read from the reply to any one batch is among the records fetched. |
| PresenceRepository.GetBatchUserPresenceReadsGraph | Source/Microsoft.Teams.Apps.DLLookup/Repositories/PresenceDataRepository.cs:99-121 | Whatever Graph answers, every sub-response the repository can read yields a returned record, and the cache then holds a record under that UPN. |
| PresenceRepository.FlattenPayloads | Source/Microsoft.Teams.Apps.DLLookup/Repositories/PresenceDataRepository.cs:91-97 | The batch payloads together are the presence payload of all misses. |
| PresenceRepository.CountOnlineAppend | Source/Microsoft.Teams.Apps.DLLookup/Repositories/PresenceDataRepository.cs:193-196 | The online count of two runs of records is the sum of their counts. |
| PresenceRepository.MembersList | Source/Microsoft.Teams.Apps.DLLookup/Repositories/PresenceDataRepository.cs:296-304 | Kept: exactly the members whose `userType` is `member` and whose type is `#microsoft.graph.user`, both ignoring case. |
| PresenceRepository.MembersListAppend | Source/Microsoft.Teams.Apps.DLLookup/Repositories/PresenceDataRepository.cs:303-304 | The `Where` keeps order and repeats: a single member is kept exactly when it counts, and the filter of a concatenation is the concatenation of the filters. |
| PresenceRepository.CountCachedWellFormed | Source/Microsoft.Teams.Apps.DLLookup/Repositories/PresenceDataRepository.cs:179-198 | Over a well-formed cache, the scan counts the cached records whose upper-cased availability is BUSY, DONOTDISTURB or ONLINE. |
| PresenceRepository.GetDistributionListMembersOnlineCount | Source/Microsoft.Teams.Apps.DLLookup/Repositories/PresenceDataRepository.cs:168-289 | A failed listing gives 0 and sends nothing. The cache changes only when Graph is called. |
| PresenceRepository.OnlineCountMatchesLookup | Source/Microsoft.Teams.Apps.DLLookup/Repositories/PresenceDataRepository.cs:168-289 | Over a well-formed cache, the online count equals the number of online records that the batch presence lookup returns for the listed users. Both calls send the same batches and leave the same cache. |
| Favorites.ToEntity | Source/Microsoft.Teams.Apps.DLLookup/Repositories/FavoriteDistributionListDataRepository.cs:50-55 | A stored favourite has the lower-cased UPN as partition, the group id unchanged as row, and `PinStatus` = `IsPinned`. |
| Favorites.CreateOrUpdateFavorite | Source/Microsoft.Teams.Apps.DLLookup/Repositories/FavoriteDistributionListDataRepository.cs:47-58 | The row is written under (lower-cased UPN, group id); nothing else changes. |
| Favorites.GroupPayloadSize | Source/Microsoft.Teams.Apps.DLLookup/Repositories/FavoriteDistributionListDataRepository.cs:96-104 | A batch of at most 5 groups with 2 queries has at most 10 sub-requests. |
| Favorites.DetailsIdIsSecondQueryId | Source/Microsoft.Teams.Apps.DLLookup/Repositories/FavoriteDistributionListDataRepository.cs:118 | The details id `group + '1'` is the id the builder gives the second query. |
| Favorites.CountMembers | Source/Microsoft.Teams.Apps.DLLookup/Repositories/FavoriteDistributionListDataRepository.cs:121-122 | The member count is at most the listing's length. |
| Favorites.CountMembersAppend | Source/Microsoft.Teams.Apps.DLLookup/Repositories/FavoriteDistributionListDataRepository.cs:121-122 | The count is additive over concatenation, and one entry counts 1 exactly when it is a group or has user type `member`. |
| Favorites.ResponseWithId | Source/Microsoft.Teams.Apps.DLLookup/Repositories/FavoriteDistributionListDataRepository.cs:117-118 | `responses.Find` by id: a response with that id, or none when no response has it. |
| Favorites.DecodeGroup | Source/Microsoft.Teams.Apps.DLLookup/Repositories/FavoriteDistributionListDataRepository.cs:117-125 | A group decodes exactly when both its listing and its details are present. Its entry is the details with `NoOfMembers` = the number of groups and `member` users in the listing. |
| Favorites.DecodeBatch | Source/Microsoft.Teams.Apps.DLLookup/Repositories/FavoriteDistributionListDataRepository.cs:113-132 | Each entry is a decoded group of the batch, and every group of the batch that decodes has its entry. |
| Favorites.DecodeBatchAppend | Source/Microsoft.Teams.Apps.DLLookup/Repositories/FavoriteDistributionListDataRepository.cs:113-132 | The batch is decoded group by group in group order: the entries of a concatenation are the two parts' entries in turn, and a single group gives its decoding or nothing. |
| Favorites.GetADGroupMemberCountBatch | Source/Microsoft.Teams.Apps.DLLookup/Repositories/FavoriteDistributionListDataRepository.cs:100-136 | The lookup fails exactly when some batch's call fails. Otherwise its entries are every batch's decoded groups, batch after batch, and a batch whose reply has no `responses` adds nothing. |
| Favorites.GetADGroupMemberCount | Source/Microsoft.Teams.Apps.DLLookup/Repositories/FavoriteDistributionListDataRepository.cs:93-137 | The ids are sent in batches of five. The lookup fails exactly when one of those calls fails; otherwise it holds each batch's decoded groups in order, no more entries than ids. |
| Favorites.FirstFailedCallIsReported | Source/Microsoft.Teams.Apps.DLLookup/Repositories/FavoriteDistributionListDataRepository.cs:110 | A batch call with a non-success status fails the lookup, and the first such batch's reply text is the failure. |
| Favorites.DecodedHasGroup | Source/Microsoft.Teams.Apps.DLLookup/Repositories/FavoriteDistributionListDataRepository.cs:110-125 | A group that the reply to its batch decodes has its entry in the lookup's answer. |
| Favorites.GroupBatchesCoverIds | Source/Microsoft.Teams.Apps.DLLookup/Repositories/FavoriteDistributionListDataRepository.cs:96 | Group ids go out in batches of 1 to 5 that cover them in order. |
| Favorites.MergeFavorites | Source/Microsoft.Teams.Apps.DLLookup/Controllers/DistributionListsController.cs:108-129 | An entry exists exactly when some stored favourite's group Graph returned, and it is built from the first matching group. There are no more entries than favourites. |
| Favorites.MergeFavoritesAppend | Source/Microsoft.Teams.Apps.DLLookup/Controllers/DistributionListsController.cs:108-129 | The merge goes favourite by favourite in stored order: a concatenation merges to the two parts' merges in turn, and one favourite gives its entry or, when its group is missing, nothing. |
| Favorites.MergeKeepsFoundRows | Source/Microsoft.Teams.Apps.DLLookup/Controllers/DistributionListsController.cs:108-123 | When Graph returned every group, the merge has one entry per favourite, in stored order. |
| Favorites.GetAllFavorites | Source/Microsoft.Teams.Apps.DLLookup/Controllers/DistributionListsController.cs:86-152 | No stored favourites give an empty list, and so does a failed Graph lookup. Otherwise the answer is the merge of the favourites with the lookup of their group ids. Each entry takes its id, `IsPinned` and lower-cased UPN from its favourite. |
| Favorites.CreateFavorites | Source/Microsoft.Teams.Apps.DLLookup/Controllers/DistributionListsController.cs:160-206 | Every item that did not fail is stored under the caller's partition, and nothing else is added. A group id holds the pin of its last successful item, and rows no successful item names keep their value. The answer is OK exactly when no item failed. |
| Favorites.CreateFromLastWins | Source/Microsoft.Teams.Apps.DLLookup/Controllers/DistributionListsController.cs:181-193 | From any point of the loop on, the last successful write of a group id decides its row. |
| Favorites.CreateFromUntouched | Source/Microsoft.Teams.Apps.DLLookup/Controllers/DistributionListsController.cs:181-193 | A row that no later successful write names keeps its value. |
| Favorites.CreateIgnoresBodyUpn | Source/Microsoft.Teams.Apps.DLLookup/Controllers/DistributionListsController.cs:174-177 | The UPN in the request body has no effect: the caller's claim replaces it. |
| Favorites.UpdateFavorite | Source/Microsoft.Teams.Apps.DLLookup/Controllers/DistributionListsController.cs:231-253 | The PUT writes the pin status under the caller's key and changes nothing else. |
| Favorites.DeleteFavorite | Source/Microsoft.Teams.Apps.DLLookup/Controllers/DistributionListsController.cs:279-310 | The row found under (caller, id) is removed; when there is none, nothing changes. The answer is OK either way. |
| Favorites.CreateThenDelete | Source/Microsoft.Teams.Apps.DLLookup/Controllers/DistributionListsController.cs:295-300 | Adding then deleting restores the table when the group id is lower-case. With an upper-case letter, the delete finds nothing. |
| MemberPins.ToEntity | Source/Microsoft.Teams.Apps.DLLookup/Repositories/FavoriteDistributionListMemberDataRepository.cs:42-47 | A pin row has the lower-cased UPN as partition and the lower-cased member id + list id as row, and keeps the list id as sent. |
| MemberPins.Pin | Source/Microsoft.Teams.Apps.DLLookup/Controllers/DistributionListMembersController.cs:96-118 | The pin is stored under the caller's key, whatever UPN the body holds. The row stored has the lower-cased caller, the lower-cased member id + list id and the list id. Nothing else changes. |
| MemberPins.Unpin | Source/Microsoft.Teams.Apps.DLLookup/Controllers/DistributionListMembersController.cs:136-168 | The pin found under (caller, member id + list id) is removed; a missing pin changes nothing. The answer is OK either way. |
| MemberPins.PinThenUnpin | Source/Microsoft.Teams.Apps.DLLookup/Controllers/DistributionListMembersController.cs:150-158 | Pinning then unpinning a member restores the table, whatever the ids' letter case. |
| MemberPins.UnpinMissingIsNoOp | Source/Microsoft.Teams.Apps.DLLookup/Controllers/DistributionListMembersController.cs:156-164 | Unpinning a member that is not pinned leaves the table as it was. |
| MemberPins.PinnedKeys | Source/Microsoft.Teams.Apps.DLLookup/Repositories/FavoriteDistributionListMemberDataRepository.cs:66 | Only rows in the caller's lower-cased partition are consulted; a blank caller consults none. |
| MemberPins.Mark | Source/Microsoft.Teams.Apps.DLLookup/Repositories/FavoriteDistributionListMemberDataRepository.cs:67-77 | A member is marked pinned exactly when it was already, or some row key equals member id + list id; a flag is never cleared. |
| MemberPins.MarkAndFilter | Source/Microsoft.Teams.Apps.DLLookup/Repositories/FavoriteDistributionListMemberDataRepository.cs:67-79 | Kept: the marked members that are groups (exact type) or `member` users (ignoring case). |
| MemberPins.MarkAndFilterAppend | Source/Microsoft.Teams.Apps.DLLookup/Repositories/FavoriteDistributionListMemberDataRepository.cs:67-79 | The filter keeps Graph's order and repeats: a concatenation gives the two parts' results in turn, and one member is kept, marked, exactly when it is a group or a `member` user. |
| MemberPins.ListMembers | Source/Microsoft.Teams.Apps.DLLookup/Controllers/DistributionListMembersController.cs:52-88 | The GET returns nothing when the listing failed. Otherwise it returns exactly the listed members that are groups or `member` users, each marked with the caller's pins. |
| MemberPins.ListMembersKeepsOrder | Source/Microsoft.Teams.Apps.DLLookup/Repositories/FavoriteDistributionListMemberDataRepository.cs:79 | The GET answers in Graph's order: a listing `a + b` gives the answer for `a`, then the answer for `b`. |
| MemberPins.PinShows | Source/Microsoft.Teams.Apps.DLLookup/Repositories/FavoriteDistributionListMemberDataRepository.cs:45-72 | A pin shows in the listing when the member id and list id are lower-case. |
| MemberPins.MixedCaseNeverMarked | Source/Microsoft.Teams.Apps.DLLookup/Repositories/FavoriteDistributionListMemberDataRepository.cs:45-72 | A member whose id + list id has an upper-case letter is never marked from a well-formed table. |
| PageSize.DefaultPartitionIsLowerCase | Source/Microsoft.Teams.Apps.DLLookup/Repositories/UserPageSizeChoiceDataRepository.cs:40 | The fixed partition "default" survives the lookup's lower-casing. |
| PageSize.GetChoice | Source/Microsoft.Teams.Apps.DLLookup.Repositories/UserPageSizeChoices/UserPageSizeChoiceTableRepository.cs:33-37 | The caller's row is found exactly when it is stored under ("default", lower-cased UPN). |
| PageSize.SaveChoice | Source/Microsoft.Teams.Apps.DLLookup/Repositories/UserPageSizeChoiceDataRepository.cs:35-59 | After a save the caller's row exists, whether or not it did before. |
| PageSize.SaveChoiceOnlyCaller | Source/Microsoft.Teams.Apps.DLLookup/Repositories/UserPageSizeChoiceDataRepository.cs:35-59 | The save is an upsert of the caller's row only. Every other row is unchanged, and a table whose rows sit under their own keys stays so. |
| PageSize.SaveThenGet | Source/Microsoft.Teams.Apps.DLLookup/Repositories/UserPageSizeChoiceDataRepository.cs:40-56 | After a save, the row holds "default" and the lower-cased UPN. The chosen page's size is the one given, and the other page's size is unchanged (0 for a new row). |
| PageSize.SaveIdempotent | Source/Microsoft.Teams.Apps.DLLookup/Repositories/UserPageSizeChoiceDataRepository.cs:49-58 | Saving the same choice twice equals saving it once. |
| PageSize.SavesCommute | Source/Microsoft.Teams.Apps.DLLookup/Repositories/UserPageSizeChoiceDataRepository.cs:49-56 | The two pages' sizes are independent: saving them in either order gives the same table. |
| StableSort.SortSorted | Source/Microsoft.Teams.Apps.DLLookup/ClientApp/src/components/DistributionListMembers/DistributionListMembers.tsx:313-322 | The `orderBy` model sorts by its key order. |
| StableSort.SortStable | Source/Microsoft.Teams.Apps.DLLookup/ClientApp/src/components/DistributionListMembers/DistributionListMembers.tsx:313-322 | The `orderBy` model is stable: rows with equivalent keys keep their order. |
| StableSort.SortOfEquivalentKeys | Source/Microsoft.Teams.Apps.DLLookup/ClientApp/src/components/DistributionListMembers/DistributionListMembers.tsx:317-318 | When no key is below another, the sort changes nothing. |
| StableSort.TextLessByCharacter | Source/Microsoft.Teams.Apps.DLLookup/ClientApp/src/components/DistributionListMembers/DistributionListMembers.tsx:313 | `StableSort.TextLess` is JavaScript's string `<`, which lodash `orderBy` uses. It compares UTF-16 code units. The empty string is below every other string. Strings whose first characters are equal are ordered by the rest. Otherwise the first characters decide: by code point when both are below U+10000 or both above; otherwise a character above U+FFFF sorts after U+0000–U+D7FF and before U+E000–U+FFFF. |
| StableSort.EmojiBeforeFullwidth | Source/Microsoft.Teams.Apps.DLLookup/ClientApp/src/components/DistributionListMembers/DistributionListMembers.tsx:313 | U+1F600 sorts before U+FF21, though its code point is higher, because its high surrogate U+D83D is lower. |
| StableSort.TextLessIsStrictWeakOrder | Source/Microsoft.Teams.Apps.DLLookup/ClientApp/src/components/DistributionListMembers/DistributionListMembers.tsx:313 | JavaScript's string `<`, on UTF-16 code units, is a strict weak order. |
| MembersView.LoadRow | Source/Microsoft.Teams.Apps.DLLookup/ClientApp/src/components/DistributionListMembers/DistributionListMembers.tsx:141-154 | A row is a group exactly when its type is `#microsoft.graph.group`. Its presence is "Not yet fetched" exactly when it is not a group, and it starts unselected. |
| MembersView.Load | Source/Microsoft.Teams.Apps.DLLookup/ClientApp/src/components/DistributionListMembers/DistributionListMembers.tsx:134-163 | The grid holds one row per member, and the chat list is empty. The master and shown lists are the same permutation of all rows: pinned rows first, each part ordered by presence, descending. |
| MembersView.PinnedFirstPartitions | Source/Microsoft.Teams.Apps.DLLookup/ClientApp/src/components/DistributionListMembers/DistributionListMembers.tsx:305-336 | Sorting pinned and unpinned rows separately and concatenating gives a permutation with every pinned row first. |
| MembersView.PinnedFirstSortsParts | Source/Microsoft.Teams.Apps.DLLookup/ClientApp/src/components/DistributionListMembers/DistributionListMembers.tsx:313-322 | Within the pinned part and within the unpinned part, rows are in key order. |
| MembersView.PinnedFirstStable | Source/Microsoft.Teams.Apps.DLLookup/ClientApp/src/components/DistributionListMembers/DistributionListMembers.tsx:313-322 | Within each part, rows with equivalent keys keep their order. |
| MembersView.SortColumnItems | Source/Microsoft.Teams.Apps.DLLookup/ClientApp/src/components/DistributionListMembers/DistributionListMembers.tsx:305-336 | Only the shown list changes. A null display name (name sort) or a null mail (mail sort) throws, and nothing changes. |
| MembersView.SortColumnItemsPinnedFirst | Source/Microsoft.Teams.Apps.DLLookup/ClientApp/src/components/DistributionListMembers/DistributionListMembers.tsx:305-336 | Any column sort keeps the grid well-formed and the shown rows a permutation, with pinned rows first; a throwing sort leaves the view unchanged. |
| MembersView.SortByNameOrders | Source/Microsoft.Teams.Apps.DLLookup/ClientApp/src/components/DistributionListMembers/DistributionListMembers.tsx:312-315 | The name sort orders each part by lower-cased display name, ascending or descending. |
| MembersView.SortByPresenceOrders | Source/Microsoft.Teams.Apps.DLLookup/ClientApp/src/components/DistributionListMembers/DistributionListMembers.tsx:320-323 | The presence sort orders each part by `sortOrder`, ascending or descending. |
| MembersView.MailSortOnlyPinsFirst | Source/Microsoft.Teams.Apps.DLLookup/ClientApp/src/components/DistributionListMembers/DistributionListMembers.tsx:316-319 | As written, the mail sort never reorders: it only moves pinned rows to the front. |
| MembersView.MailSortCounterexample | Source/Microsoft.Teams.Apps.DLLookup/ClientApp/src/components/DistributionListMembers/DistributionListMembers.tsx:316-319 | Sorting [bob@, ann@] ascending by mail keeps Bob first. |
| MembersView.CorrectedMailSortOrders | Source/Microsoft.Teams.Apps.DLLookup/ClientApp/src/components/DistributionListMembers/DistributionListMembers.tsx:316-319 | With the intended key, the mail sort keeps the grid well-formed and the rows a permutation, puts pinned rows first, and orders each part by lower-cased mail. |
| MembersView.Matching | Source/Microsoft.Teams.Apps.DLLookup/ClientApp/src/components/DistributionListMembers/DistributionListMembers.tsx:383 | Kept: exactly the shown rows whose lower-cased display name contains the lower-cased query. |
| MembersView.MatchingAppend | Source/Microsoft.Teams.Apps.DLLookup/ClientApp/src/components/DistributionListMembers/DistributionListMembers.tsx:383 | The filter keeps order and repeats: a concatenation filters to the two parts' results in turn, and one row stays exactly when its name matches. |
| MembersView.Search | Source/Microsoft.Teams.Apps.DLLookup/ClientApp/src/components/DistributionListMembers/DistributionListMembers.tsx:374-387 | An empty query restores the master list. Otherwise the shown list holds exactly the matching master rows, and the page resets to 0. A null display name throws and changes nothing. |
| MembersView.SearchKeepsOrder | Source/Microsoft.Teams.Apps.DLLookup/ClientApp/src/components/DistributionListMembers/DistributionListMembers.tsx:374-387 | A search shows matches in listing order: over a listing of two parts it shows the first part's matches, then the second's. |
| MembersView.MatchingKeepsOrder | Source/Microsoft.Teams.Apps.DLLookup/ClientApp/src/components/DistributionListMembers/DistributionListMembers.tsx:383 | When every row matches, the filter returns the list unchanged. |
| MembersView.WindowFrom | Source/Microsoft.Teams.Apps.DLLookup/ClientApp/src/components/DistributionListMembers/DistributionListMembers.tsx:587-591 | The window from `start` is at most `size` rows, those at start, start+1, …, and empty past the end. |
| MembersView.RenderedRows | Source/Microsoft.Teams.Apps.DLLookup/ClientApp/src/components/DistributionListMembers/DistributionListMembers.tsx:587-591 | The render loop yields exactly the rows at [page·size, min(page·size + size, length)). |
| MembersView.WindowIsChunk | Source/Microsoft.Teams.Apps.DLLookup/ClientApp/src/components/DistributionListMembers/DistributionListMembers.tsx:587-591 | Page p of the grid is the p-th batch of the shown list, or empty past the last batch. |
| MembersView.PresenceRequests | Source/Microsoft.Teams.Apps.DLLookup/ClientApp/src/components/DistributionListMembers/DistributionListMembers.tsx:169-179 | At most one request per row, and only for rows still "Not yet fetched", each carrying that row's UPN and id. |
| MembersView.PresenceRequestsCount | Source/Microsoft.Teams.Apps.DLLookup/ClientApp/src/components/DistributionListMembers/DistributionListMembers.tsx:169-179 | One request per waiting row. |
| MembersView.PresenceBatches | Source/Microsoft.Teams.Apps.DLLookup/ClientApp/src/components/DistributionListMembers/DistributionListMembers.tsx:181-184 | The requests go out in order, in batches of 1 to 40. |
| MembersView.LoadedGroupsNeverRequested | Source/Microsoft.Teams.Apps.DLLookup/ClientApp/src/components/DistributionListMembers/DistributionListMembers.tsx:148-171 | After loading, every request names a user member (never a group), and the rows waiting for presence are exactly the user members. |
| MembersView.RecordFor | Source/Microsoft.Teams.Apps.DLLookup/ClientApp/src/components/DistributionListMembers/DistributionListMembers.tsx:195 | The presence record whose UPN equals the row's ignoring case, if any. |
| MembersView.ApplyPresence | Source/Microsoft.Teams.Apps.DLLookup/ClientApp/src/components/DistributionListMembers/DistributionListMembers.tsx:194-202 | A row with a matching record takes its availability, sort order and id and nothing else. Other rows are unchanged. |
| MembersView.ApplyPresenceIdempotent | Source/Microsoft.Teams.Apps.DLLookup/ClientApp/src/components/DistributionListMembers/DistributionListMembers.tsx:194-202 | Merging the same reply twice is merging it once. |
| MembersView.ApplyPresenceCommutes | Source/Microsoft.Teams.Apps.DLLookup/ClientApp/src/components/DistributionListMembers/DistributionListMembers.tsx:188-224 | Replies about different users merge in either order to the same row. |
| MembersView.MergePresence | Source/Microsoft.Teams.Apps.DLLookup/ClientApp/src/components/DistributionListMembers/DistributionListMembers.tsx:188-224 | Every row in the master or shown list is merged with the reply; other rows, the master list and the chat list are unchanged. The grid is then re-sorted: the same shown rows, pinned first, each part by presence rank, ascending. |
| MembersView.PresenceSortFacts | Source/Microsoft.Teams.Apps.DLLookup/ClientApp/src/components/DistributionListMembers/DistributionListMembers.tsx:223 | The presence sort keeps the shown rows, puts pinned ones first and orders each part by rank, ascending. |
| MemberSelection.FindIndexByUpn | Source/Microsoft.Teams.Apps.DLLookup/ClientApp/src/components/DistributionListMembers/DistributionListMembers.tsx:400 | `findIndex`: the first chat entry with that UPN, or -1 when there is none. |
| MemberSelection.Splice1 | Source/Microsoft.Teams.Apps.DLLookup/ClientApp/src/components/DistributionListMembers/DistributionListMembers.tsx:400 | `splice(i, 1)` removes element i; -1 removes the last element; an index out of range removes nothing. |
| MemberSelection.CheckboxFold | Source/Microsoft.Teams.Apps.DLLookup/ClientApp/src/components/DistributionListMembers/DistributionListMembers.tsx:393-407 | Only shown rows with the clicked id change. Checking pushes the row onto the chat list; unchecking removes its first chat entry with the same UPN. |
| MemberSelection.CheckboxChanged | Source/Microsoft.Teams.Apps.DLLookup/ClientApp/src/components/DistributionListMembers/DistributionListMembers.tsx:390-412 | Only the checkbox and chat state change. The header is ticked exactly when every shown row is selected. |
| MemberSelection.CheckboxKeepsSync | Source/Microsoft.Teams.Apps.DLLookup/ClientApp/src/components/DistributionListMembers/DistributionListMembers.tsx:390-412 | Starting in sync, a click on a member row keeps the chat list equal to the checked non-group rows, without repeats. |
| MemberSelection.ToggleKeepsSync | Source/Microsoft.Teams.Apps.DLLookup/ClientApp/src/components/DistributionListMembers/DistributionListMembers.tsx:395-401 | One row's toggle keeps the chat list in sync. |
| MemberSelection.UncheckFindsRow | Source/Microsoft.Teams.Apps.DLLookup/ClientApp/src/components/DistributionListMembers/DistributionListMembers.tsx:400 | When UPNs are unique, unchecking finds exactly that row's chat entry. |
| MemberSelection.SelectAll | Source/Microsoft.Teams.Apps.DLLookup/ClientApp/src/components/DistributionListMembers/DistributionListMembers.tsx:415-437 | As written: the header takes the value. Ticking checks every shown user row and appends all of them to the chat list, in shown order, even rows already on it. Clearing unchecks every shown row, groups included, and empties the chat list. Rows not shown are untouched. |
| MemberSelection.PushAllAppends | Source/Microsoft.Teams.Apps.DLLookup/ClientApp/src/components/DistributionListMembers/DistributionListMembers.tsx:418-423 | Ticking appends the shown user rows to the chat list, in shown order, repeats included. |
| MemberSelection.SelectAllDuplicates | Source/Microsoft.Teams.Apps.DLLookup/ClientApp/src/components/DistributionListMembers/DistributionListMembers.tsx:415-437 | Check Ann, tick the header, then uncheck Ann: Ann stays in the chat list while unchecked, and the chat link names both users. |
| MemberSelection.AnnStillListed | Source/Microsoft.Teams.Apps.DLLookup/ClientApp/src/components/DistributionListMembers/DistributionListMembers.tsx:474-487 | In that state the group chat opens with Ann, who is unchecked. |
| MemberSelection.SelectAllForgetsHiddenRows | Source/Microsoft.Teams.Apps.DLLookup/ClientApp/src/components/DistributionListMembers/DistributionListMembers.tsx:428-432 | Check Bob, hide him with a search, then clear the header: the chat list empties while Bob stays checked. |
| MemberSelection.CorrectedSelectAll | Source/Microsoft.Teams.Apps.DLLookup/ClientApp/src/components/DistributionListMembers/DistributionListMembers.tsx:415-437 | Rows not shown are untouched. Shown member rows take the header's value. Shown group rows can only be cleared. |
| MemberSelection.CorrectedSelectAllKeepsSync | Source/Microsoft.Teams.Apps.DLLookup/ClientApp/src/components/DistributionListMembers/DistributionListMembers.tsx:415-437 | The corrected select-all keeps the chat list in sync. |
| MemberSelection.PushUnselectedKeepsSync | Source/Microsoft.Teams.Apps.DLLookup/ClientApp/src/components/DistributionListMembers/DistributionListMembers.tsx:418-423 | Pushing only rows not yet selected keeps the chat list in sync. |
| MemberSelection.WithoutDistinct | Source/Microsoft.Teams.Apps.DLLookup/ClientApp/src/components/DistributionListMembers/DistributionListMembers.tsx:432 | Removing the shown rows from a chat list without repeats leaves one without repeats. |
| MemberSelection.ViewUpdatesKeepSync | Source/Microsoft.Teams.Apps.DLLookup/ClientApp/src/components/DistributionListMembers/DistributionListMembers.tsx:305-387 | Search, any column sort and a presence merge keep the chat list in sync. |
| MemberSelection.ChatUsers | Source/Microsoft.Teams.Apps.DLLookup/ClientApp/src/components/DistributionListMembers/DistributionListMembers.tsx:475 | The UPN of each chat entry, in chat order. |
| MemberSelection.JoinCommaRoundTrip | Source/Microsoft.Teams.Apps.DLLookup/ClientApp/src/components/DistributionListMembers/DistributionListMembers.tsx:475 | Joining UPNs that contain no comma with "," and splitting at "," gives them back. |
| MemberSelection.GroupChat | Source/Microsoft.Teams.Apps.DLLookup/ClientApp/src/components/DistributionListMembers/DistributionListMembers.tsx:480-488 | At most 8 chat users open the chat link (the prefix followed by the joined UPNs). More than 8 open the warning dialog when it is not already open. |
| MemberSelection.OnlineOnly | Source/Microsoft.Teams.Apps.DLLookup/ClientApp/src/components/DistributionListMembers/DistributionListMembers.tsx:567 | Kept: exactly the chat entries whose presence is "Online". |
| MemberSelection.OnlineOnlyAppend | Source/Microsoft.Teams.Apps.DLLookup/ClientApp/src/components/DistributionListMembers/DistributionListMembers.tsx:567 | The online filter keeps order and repeats: a concatenation filters to the two parts' results in turn, and one entry stays exactly when it is online. |
| MemberSelection.AnswerDialog | Source/Microsoft.Teams.Apps.DLLookup/ClientApp/src/components/DistributionListMembers/DistributionListMembers.tsx:564-573 | After "YES", the chat list becomes the first 8 of its online users, in order (all of them when there are no more than 8), and the chat opens with them. Any other answer changes nothing. |
| MemberSelection.AnswerKeepsFewOnline | Source/Microsoft.Teams.Apps.DLLookup/ClientApp/src/components/DistributionListMembers/DistributionListMembers.tsx:567-570 | When at most 8 checked users are online, "YES" keeps all of them, in order. |
| AddListView.SearchKeyUp | Source/Microsoft.Teams.Apps.DLLookup/ClientApp/src/components/AddDistributionList/AddDistributionList.tsx:95-105 | The typed text becomes the query and the results are kept. Enter with non-empty text turns the loader on. A request goes out exactly when the query held before this key was non-empty too, and it carries that earlier query. |
| AddListView.SearchClick | Source/Microsoft.Teams.Apps.DLLookup/ClientApp/src/components/AddDistributionList/AddDistributionList.tsx:108-112 | The button searches exactly when the query is non-empty. |
| AddListView.TypeThenEnterSearches | Source/Microsoft.Teams.Apps.DLLookup/ClientApp/src/components/AddDistributionList/AddDistributionList.tsx:95-112 | Typing a query and then pressing Enter searches for it. |
| AddListView.LoadResults | Source/Microsoft.Teams.Apps.DLLookup/ClientApp/src/components/AddDistributionList/AddDistributionList.tsx:73-89 | One unselected row per result, with its id, name and mail; the loader stops. |
| AddListView.AsWrittenKey | Source/Microsoft.Teams.Apps.DLLookup/ClientApp/src/components/AddDistributionList/AddDistributionList.tsx:139-142 | The key as written is "" for any present value. |
| AddListView.IntendedKey | Source/Microsoft.Teams.Apps.DLLookup/ClientApp/src/components/AddDistributionList/AddDistributionList.tsx:139-142 | The intended key is the lower-cased value. |
| AddListView.SortColumnItems | Source/Microsoft.Teams.Apps.DLLookup/ClientApp/src/components/AddDistributionList/AddDistributionList.tsx:134-153 | The rows stay a permutation. A missing value in the sorted column throws and changes nothing. |
| AddListView.SortDataByColumn | Source/Microsoft.Teams.Apps.DLLookup/ClientApp/src/components/AddDistributionList/AddDistributionList.tsx:117-131 | A missing value changes nothing. Otherwise a column showing Down sorts descending and turns Up, a column showing Up sorts ascending and turns Down, and the other column's icon is set Down. The search query, loader and header checkbox are unchanged. |
| AddListView.ClickTwiceResetsIcons | Source/Microsoft.Teams.Apps.DLLookup/ClientApp/src/components/AddDistributionList/AddDistributionList.tsx:117-131 | Clicking a column twice sorts descending, then ascending, and ends with both icons down. |
| AddListView.SortNeverReorders | Source/Microsoft.Teams.Apps.DLLookup/ClientApp/src/components/AddDistributionList/AddDistributionList.tsx:139-142 | As written, sorting either column never changes the row order. |
| AddListView.NameSortCounterexample | Source/Microsoft.Teams.Apps.DLLookup/ClientApp/src/components/AddDistributionList/AddDistributionList.tsx:139 | Sorting [Beta, Alpha] ascending by name keeps Beta first. |
| AddListView.CorrectedSortColumnItems | Source/Microsoft.Teams.Apps.DLLookup/ClientApp/src/components/AddDistributionList/AddDistributionList.tsx:134-153 | With the intended key, the rows are a permutation sorted by the lower-cased column value, ascending or descending. |
| AddListView.CorrectedSortStable | Source/Microsoft.Teams.Apps.DLLookup/ClientApp/src/components/AddDistributionList/AddDistributionList.tsx:139-142 | The intended sort is stable. |
| AddListView.CheckBoxSelect | Source/Microsoft.Teams.Apps.DLLookup/ClientApp/src/components/AddDistributionList/AddDistributionList.tsx:157-178 | Only rows with the clicked id change. The header is ticked exactly when every row is selected. |
| AddListView.CheckThenUncheck | Source/Microsoft.Teams.Apps.DLLookup/ClientApp/src/components/AddDistributionList/AddDistributionList.tsx:162-166 | Checking and then unchecking a row with a unique id restores the rows. |
| AddListView.AllCheckBoxSelect | Source/Microsoft.Teams.Apps.DLLookup/ClientApp/src/components/AddDistributionList/AddDistributionList.tsx:181-193 | Every row takes the header's value, in the same order. |
| AddListView.AddPayload | Source/Microsoft.Teams.Apps.DLLookup/ClientApp/src/components/AddDistributionList/AddDistributionList.tsx:202-213 | The payload holds one unpinned {id} per selected row and nothing for unselected rows. |
| AddListView.AddPayloadAppend | Source/Microsoft.Teams.Apps.DLLookup/ClientApp/src/components/AddDistributionList/AddDistributionList.tsx:202-213 | The payload keeps grid order: a concatenation gives the two parts' payloads in turn, and one row gives its request exactly when it is selected. |
| AddListView.SelectAllThenAdd | Source/Microsoft.Teams.Apps.DLLookup/ClientApp/src/components/AddDistributionList/AddDistributionList.tsx:181-213 | After ticking the header, Add posts every row in order; after clearing it, nothing. |

## Left out

- HTTP, MSAL and token acquisition. The access token is only present or absent. The multipart parsing, the WWW-Authenticate reply and telemetry are not modelled. A Graph call is a function from the payload to its reply.
- JSON parsing (Newtonsoft, `dynamic`). A parsed object is a record of the optional properties the code reads, and `string.Format` is a plain `{0}` substitution.
- Memory-cache expiry (`CacheInterval`). It depends on time, so the cache is a map that never evicts.
- Asynchrony. `getAllUserPresenceAsync` fires requests without awaiting them, so each reply is one independent `MergePresence` step. `ApplyPresenceCommutes` states that replies about different users commute.
- Azure Table SDK internals: table creation, `TakeCount`, continuation tokens. The segments are an input to `ExecuteQuery`, and a cancellation token is a function of how many segments were read.
- The controllers' 401 paths for a missing UPN claim. They write a reply and then fall through into null dereferences.
- `GetDistributionListByQueryAsync`, `GetADGroupDetailsAsync`, `GetGroupInfo`, `CallGraphApiOnBehalfOfUserWithDirectJToken` and the presence controller. Each is a single Graph call without logic of its own.
- The favourites table read (`GetAllFavoriteDistributionListsAsync`) is a `GetAllAsync` over the caller's partition, which `TableStore.GetAll` states as a set of keys. `Favorites.GetAllFavorites` takes the rows it returns, in the table's order, as a parameter.
- `UserPageSizeChoiceTableEntity` is not part of this model. Its keys are taken as partition = `DefaultValue` and row = `UserPrincipalName`, matching the `GetAsync("default", upn)` lookup, and new sizes default to 0.
- Letter case. `ToLower`, `ToUpper` and `toLowerCase` are modelled on ASCII letters only; culture-sensitive and non-ASCII case mapping is not modelled. White space, by contrast, is the full .NET `char.IsWhiteSpace` set.
- MembersView.LoadRow: a member's `userPrincipalName` is a plain string on the server side, so every loaded row has one. Graph may leave it out for a nested group, and the client's `userPrincipalName != null` guard in the presence merge (DistributionListMembers.tsx lines 193 and 205) is then only modelled for present values. A row without a UPN, which that guard skips, is not modelled.
- The members grid's icon bookkeeping in `sortDataByColumn` (DistributionListMembers.tsx lines 278-302). The sort direction is a parameter of `MembersView.SortColumnItems`.
- `resetSorting` is modelled only as it runs on first load, with every icon down: presence, descending. It also runs after a pin change with other icons; that path and `pinStatusUpdate` are not modelled.
- The rest of the client: `getPageSize`/`setPageSize`, the page-size dropdown, `pageGoBack` and localStorage, `oneOnOneChat`, `escFunction`, `renderPresenceInfo`, `encodeURI` of the deep link, and the Teams task-module plumbing. The "dialog allowed" flag stands for `isOpenTaskModuleAllowed`.
- MemberSelection.AnswerDialog: the rows dropped from the chat list after "YES" stay checked. The model keeps that, as the source does, and the sync invariant is not claimed after a trimmed answer.
- AddListView.SearchKeyUp: React batches `setState`, so the Enter handler loads with the query from before the key was released. The model states this but does not list it as a finding, because it depends on React's batching.
- TableStore.GetAll: for a blank partition the model returns nothing. The source builds the filter from an unset default; the table SDK might turn that null into `PartitionKey eq ''`, which would match rows with an empty partition. The SDK is not part of this model.
- ListExtensions.SplitList: a size of 0 with a non-empty list loops forever in the source, and a negative size makes `GetRange` throw. Both are excluded by the precondition rather than modelled.

## Findings

| source | as written | input that shows it | evidently intended | confidence | as-written member | corrected member |
|---|---|---|---|---|---|---|
| Source/Microsoft.Teams.Apps.DLLookup/ClientApp/src/components/AddDistributionList/AddDistributionList.tsx:139-142 | The sort key is `x ? "" : x.toLowerCase()`: "" for every row with a value, and a throw for a row without one | Results [Beta, Alpha], name column clicked with the up icon (ascending): the order stays [Beta, Alpha] | The key is `x ? x.toLowerCase() : ""` | high, not executed | AddListView.NameSortCounterexample | AddListView.CorrectedSortColumnItems |
| Source/Microsoft.Teams.Apps.DLLookup/ClientApp/src/components/DistributionListMembers/DistributionListMembers.tsx:317-318 | The mail key is `mail ? "" : mail.toLowerCase()`: every member with a mail gets "", so the sort only moves pinned rows to the front | Unpinned [bob@contoso.com, ann@contoso.com], mail ascending: Bob stays first | The key is the lower-cased mail, "" when absent | high, not executed | MembersView.MailSortCounterexample | MembersView.CorrectedMailSortOrders |
| Source/Microsoft.Teams.Apps.DLLookup/ClientApp/src/components/DistributionListMembers/DistributionListMembers.tsx:415-437 | Ticking the header pushes every shown member onto the chat list, including rows already checked. Clearing it empties the whole chat list but unchecks only the shown rows | (1) Check Ann, tick the header, uncheck Ann: the chat list still holds Ann and the link names both users. (2) Check Bob, search so that he is hidden, clear the header: the chat list is empty while Bob stays checked | The chat list stays exactly the checked member rows: push only rows not yet selected; on clearing, remove only the shown rows | high, not executed | MemberSelection.SelectAllDuplicates | MemberSelection.CorrectedSelectAllKeepsSync |

=== FILE: add_list_view.dfy ===
/** The dialog that adds distribution lists to the user's favourites (`AddDistributionList.tsx`):
    the search box, the result grid with its two sortable columns and checkboxes, and the payload
    the Add button posts. */
module AddListView {
  import opened Wrappers
  import opened Text
  import opened DirectoryData
  import opened StableSort

  /** The two sort icons: `faSortAmountDown` and `faSortAmountUp`. */
  datatype SortIcon = Down | Up

  /** The sortable columns: the list's name and its alias (mail). */
  datatype ListColumn = NameColumn | AliasColumn

  /** A result row (`IADDistributionList`). */
  datatype ListRow = ListRow(id: string, displayName: Option<string>, mail: Option<string>, isSelected: bool)

  /** The dialog's state. */
  datatype AddState = AddState(
    results: seq<ListRow>,
    loader: bool,
    nameSortIcon: SortIcon,
    aliasSortIcon: SortIcon,
    searchQuery: string,
    isHeaderSelected: bool)

  /** What the Add button posts for each checked list (`IUserFavoriteDistributionList`). */
  datatype FavoriteRequest = FavoriteRequest(id: string, isPinned: bool)

  const Initial: AddState := AddState([], false, Down, Down, "", false)

  // ---------------------------------------------------------------------------------------
  // Searching

  /** A key released in the search box: the box's text becomes the query; Enter with a non-empty
      text starts a search (and shows the loader). The search reads the query the state held
      before this key, since the new one is not yet applied when the request is made; no request
      is sent when that query was empty. */
  function SearchKeyUp(s: AddState, text: string, enter: bool): (r: (AddState, Option<string>))
    ensures r.0.searchQuery == text && r.0.results == s.results
    ensures r.1.Some? <==> enter && |text| > 0 && |s.searchQuery| > 0
    ensures r.1.Some? ==> r.1.value == s.searchQuery
    ensures r.0.loader <==> s.loader || (enter && |text| > 0)
  {
    if enter && |text| > 0 then
      (s.(searchQuery := text, loader := true), if |s.searchQuery| > 0 then Some(s.searchQuery) else None)
    else (s.(searchQuery := text), None)
  }

  /** The Search button: a search for the stored query, when it is not empty. */
  function SearchClick(s: AddState): (r: (AddState, Option<string>))
    ensures |s.searchQuery| == 0 ==> r == (s, None)
    ensures |s.searchQuery| > 0 ==> r == (s.(loader := true), Some(s.searchQuery))
  {
    if |s.searchQuery| > 0 then (s.(loader := true), Some(s.searchQuery)) else (s, None)
  }

  /** Typing a text (its last key released) and then pressing Enter searches for that text. */
  lemma TypeThenEnterSearches(s: AddState, text: string)
    requires |text| > 0
    ensures var typed := SearchKeyUp(s, text, false).0;
            SearchKeyUp(typed, text, true).1 == Some(text)
  {
  }

  /** The search's answer: one unchecked row per list, in the order received. */
  function LoadResults(s: AddState, lists: seq<DistributionList>): (r: AddState)
    ensures |r.results| == |lists| && !r.loader
    ensures forall i :: 0 <= i < |lists| ==>
              r.results[i] == ListRow(lists[i].id, lists[i].displayName, lists[i].mail, false)
    ensures r == s.(results := r.results, loader := false)
  {
    s.(results := seq(|lists|, i requires 0 <= i < |lists| => ListRow(lists[i].id, lists[i].displayName, lists[i].mail, false)),
       loader := false)
  }

  // ---------------------------------------------------------------------------------------
  // Sorting

  /** The column's value of a row. */
  function Field(row: ListRow, column: ListColumn): Option<string> {
    match column
    case NameColumn => row.displayName
    case AliasColumn => row.mail
  }

  /** The sort key as written, `x ? "" : x.toLowerCase()`: the empty string for every value (a
      non-empty one by the first branch, the empty one lower-cased), and a throw (`None`) for a
      missing value. */
  function AsWrittenKey(field: Option<string>): (r: Option<string>)
    ensures r.None? <==> field.None?
    ensures r.Some? ==> r.value == ""
  {
    match field
    case None => None
    case Some(x) => if |x| > 0 then Some("") else Some(Lower(x))
  }

  /** The sort key evidently intended, `x ? x.toLowerCase() : ""`. */
  function IntendedKey(field: Option<string>): (r: string)
    ensures IsLowerCase(r)
    ensures field.Some? ==> r == Lower(field.value)
  {
    LowerIsLowerCase(field.GetOr(""));
    if field.Some? && |field.value| > 0 then Lower(field.value) else ""
  }

  predicate SomeFieldMissing(rows: seq<ListRow>, column: ListColumn) {
    exists i :: 0 <= i < |rows| && Field(rows[i], column).None?
  }

  function WrittenKeyOf(column: ListColumn): ListRow -> string {
    row => AsWrittenKey(Field(row, column)).GetOr("")
  }

  function IntendedKeyOf(column: ListColumn): ListRow -> string {
    row => IntendedKey(Field(row, column))
  }

  /** `sortColumnItems` as written: a missing value throws and nothing changes; otherwise the rows
      are sorted by the written key and the icons set. */
  function SortColumnItems(s: AddState, nameIcon: SortIcon, aliasIcon: SortIcon, column: ListColumn, ascending: bool): (r: AddState)
    ensures SomeFieldMissing(s.results, column) ==> r == s
    ensures !SomeFieldMissing(s.results, column) ==>
              r == s.(results := r.results, nameSortIcon := nameIcon, aliasSortIcon := aliasIcon)
    ensures multiset(r.results) == multiset(s.results)
  {
    if SomeFieldMissing(s.results, column) then s
    else
      SortPermutes(s.results, WrittenKeyOf(column), Direction(TextLess, ascending));
      s.(results := Sort(s.results, WrittenKeyOf(column), Direction(TextLess, ascending)),
            nameSortIcon := nameIcon, aliasSortIcon := aliasIcon)
  }

  /** `sortDataByColumn`, given the column clicked; the icon passed is that column's. A column
      showing Down is sorted descending, its icon turned Up and the other column's set Down;
      a column showing Up is sorted ascending and both icons set Down. */
  function SortDataByColumn(s: AddState, column: ListColumn): (r: AddState)
    ensures multiset(r.results) == multiset(s.results)
    ensures r.searchQuery == s.searchQuery && r.loader == s.loader && r.isHeaderSelected == s.isHeaderSelected
    ensures SomeFieldMissing(s.results, column) ==> r == s
    ensures !SomeFieldMissing(s.results, column) ==>
              var was := if column == NameColumn then s.nameSortIcon else s.aliasSortIcon;
              var now := if column == NameColumn then r.nameSortIcon else r.aliasSortIcon;
              var other := if column == NameColumn then r.aliasSortIcon else r.nameSortIcon;
              && now == (if was == Down then Up else Down)
              && other == Down
              && r.results == Sort(s.results, WrittenKeyOf(column), Direction(TextLess, was != Down))
  {
    var icon := if column == NameColumn then s.nameSortIcon else s.aliasSortIcon;
    if icon == Down then
      match column
      case NameColumn => SortColumnItems(s, Up, Down, NameColumn, false)
      case AliasColumn => SortColumnItems(s, Down, Up, AliasColumn, false)
    else SortColumnItems(s, Down, Down, column, true)
  }

  /** Clicking a column twice, its values all present, leaves both icons Down; the first click
      turns that column's icon Up. */
  lemma ClickTwiceResetsIcons(s: AddState, column: ListColumn)
    requires !SomeFieldMissing(s.results, column)
    requires s.nameSortIcon == Down && s.aliasSortIcon == Down
    ensures var once := SortDataByColumn(s, column);
            && (column == NameColumn ==> once.nameSortIcon == Up && once.aliasSortIcon == Down)
            && (column == AliasColumn ==> once.aliasSortIcon == Up && once.nameSortIcon == Down)
            && SortDataByColumn(once, column).nameSortIcon == Down
            && SortDataByColumn(once, column).aliasSortIcon == Down
  {
    SortNeverReorders(s, column);
  }

  /** As written, no click ever reorders the results: the key is the empty string for every row. */
  lemma SortNeverReorders(s: AddState, column: ListColumn)
    ensures SortDataByColumn(s, column).results == s.results
  {
    var key := WrittenKeyOf(column);
    if !SomeFieldMissing(s.results, column) {
      forall ascending: bool
        ensures Sort(s.results, key, Direction(TextLess, ascending)) == s.results
      {
        assert forall i :: 0 <= i < |s.results| ==> key(s.results[i]) == "";
        assert !Direction(TextLess, ascending)("", "");
        SortOfEquivalentKeys(s.results, key, Direction(TextLess, ascending));
      }
    }
  }

  /** Two results that the name sort, as written, leaves out of order. */
  const Beta: ListRow := ListRow("2", Some("Beta"), Some("beta@contoso.com"), false)
  const Alpha: ListRow := ListRow("1", Some("Alpha"), Some("alpha@contoso.com"), false)

  /** Sorting "Beta, Alpha" by name, ascending, as written, keeps "Beta" first. */
  lemma NameSortCounterexample()
    ensures var s := AddState([Beta, Alpha], false, Up, Down, "a", false);
            SortDataByColumn(s, NameColumn).results == [Beta, Alpha] && TextLess(Lower("alpha"), Lower("beta"))
  {
    var s := AddState([Beta, Alpha], false, Up, Down, "a", false);
    SortNeverReorders(s, NameColumn);
    assert Lower("alpha")[0] == 'a' && Lower("beta")[0] == 'b';
  }

  /** `sortColumnItems` with the intended key: the rows sorted by the column's value, lower-cased,
      ascending or descending; a missing value sorts as the empty string. */
  function CorrectedSortColumnItems(s: AddState, nameIcon: SortIcon, aliasIcon: SortIcon, column: ListColumn, ascending: bool): (r: AddState)
    ensures r == s.(results := r.results, nameSortIcon := nameIcon, aliasSortIcon := aliasIcon)
    ensures multiset(r.results) == multiset(s.results)
    ensures forall i, j :: 0 <= i < j < |r.results| ==>
              var a, b := IntendedKey(Field(r.results[i], column)), IntendedKey(Field(r.results[j], column));
              if ascending then !TextLess(b, a) else !TextLess(a, b)
  {
    var lt := Direction(TextLess, ascending);
    TextLessIsStrictWeakOrder();
    DirectionIsStrictWeakOrder(TextLess, ascending);
    SortSorted(s.results, IntendedKeyOf(column), lt);
    SortPermutes(s.results, IntendedKeyOf(column), lt);
    s.(results := Sort(s.results, IntendedKeyOf(column), lt), nameSortIcon := nameIcon, aliasSortIcon := aliasIcon)
  }

  /** The intended sort is stable: rows with the same lower-cased value keep their order. */
  lemma CorrectedSortStable(s: AddState, nameIcon: SortIcon, aliasIcon: SortIcon, column: ListColumn, ascending: bool, c: string)
    ensures var r := CorrectedSortColumnItems(s, nameIcon, aliasIcon, column, ascending);
            Class(r.results, IntendedKeyOf(column), Direction(TextLess, ascending), c) ==
            Class(s.results, IntendedKeyOf(column), Direction(TextLess, ascending), c)
  {
    TextLessIsStrictWeakOrder();
    DirectionIsStrictWeakOrder(TextLess, ascending);
    SortStable(s.results, IntendedKeyOf(column), Direction(TextLess, ascending), c);
  }

  // ---------------------------------------------------------------------------------------
  // Checkboxes and the Add button

  predicate AllChecked(rows: seq<ListRow>) {
    forall i :: 0 <= i < |rows| ==> rows[i].isSelected
  }

  /** `onCheckBoxSelect`: the rows with the clicked id take the box's value; the header box is
      ticked exactly when every row is checked. The order never changes. */
  function CheckBoxSelect(s: AddState, id: string, checked: bool): (r: AddState)
    ensures |r.results| == |s.results|
    ensures forall i :: 0 <= i < |s.results| ==>
              r.results[i] == (if s.results[i].id == id then s.results[i].(isSelected := checked) else s.results[i])
    ensures r.isHeaderSelected <==> AllChecked(r.results)
    ensures r == s.(results := r.results, isHeaderSelected := r.isHeaderSelected)
  {
    var rows := seq(|s.results|, i requires 0 <= i < |s.results| =>
      if s.results[i].id == id then s.results[i].(isSelected := checked) else s.results[i]);
    s.(results := rows, isHeaderSelected := AllChecked(rows))
  }

  /** `onAllCheckBoxSelect`: every row and the header take the box's value. */
  function AllCheckBoxSelect(s: AddState, checked: bool): (r: AddState)
    ensures |r.results| == |s.results|
    ensures forall i :: 0 <= i < |s.results| ==> r.results[i] == s.results[i].(isSelected := checked)
    ensures r.isHeaderSelected == checked
    ensures r == s.(results := r.results, isHeaderSelected := checked)
  {
    s.(results := seq(|s.results|, i requires 0 <= i < |s.results| => s.results[i].(isSelected := checked)),
       isHeaderSelected := checked)
  }

  /** The Add button's payload: one unpinned request per checked row, in grid order. */
  function AddPayload(rows: seq<ListRow>): (r: seq<FavoriteRequest>)
    ensures |r| <= |rows|
    ensures forall q :: q in r ==> !q.isPinned
    ensures forall q :: q in r <==> exists i :: 0 <= i < |rows| && rows[i].isSelected && q == FavoriteRequest(rows[i].id, false)
  {
    if |rows| == 0 then []
    else
      var rest := AddPayload(rows[1..]);
      assert forall i :: 1 <= i < |rows| ==> rows[i] == rows[1..][i - 1];
      (if rows[0].isSelected then [FavoriteRequest(rows[0].id, false)] else []) + rest
  }

  /** The payload goes row by row and keeps the grid's order: a concatenation gives the two parts'
      payloads in turn, and one row gives its unpinned request exactly when it is selected. */
  lemma {:induction false} AddPayloadAppend(a: seq<ListRow>, b: seq<ListRow>)
    ensures AddPayload(a + b) == AddPayload(a) + AddPayload(b)
    ensures forall row :: AddPayload([row]) == if row.isSelected then [FavoriteRequest(row.id, false)] else []
  {
    forall row
      ensures AddPayload([row]) == if row.isSelected then [FavoriteRequest(row.id, false)] else []
    {
      assert [row][1..] == [];
    }
    if |a| == 0 {
      assert a + b == b;
    } else {
      assert (a + b)[0] == a[0];
      assert (a + b)[1..] == a[1..] + b;
      AddPayloadAppend(a[1..], b);
    }
  }

  /** After ticking the header box, Add posts every result, in order; after clearing it, nothing. */
  lemma {:induction false} SelectAllThenAdd(rows: seq<ListRow>, checked: bool)
    ensures var all := seq(|rows|, i requires 0 <= i < |rows| => rows[i].(isSelected := checked));
            AddPayload(all) == (if checked then seq(|rows|, i requires 0 <= i < |rows| => FavoriteRequest(rows[i].id, false)) else [])
  {
    var all := seq(|rows|, i requires 0 <= i < |rows| => rows[i].(isSelected := checked));
    if |rows| > 0 {
      var tail := rows[1..];
      var tailAll := seq(|tail|, i requires 0 <= i < |tail| => tail[i].(isSelected := checked));
      var tailSent := seq(|tail|, i requires 0 <= i < |tail| => FavoriteRequest(tail[i].id, false));
      SelectAllThenAdd(tail, checked);
      assert all[1..] == tailAll;
      assert AddPayload(all) == (if checked then [FavoriteRequest(rows[0].id, false)] else []) + AddPayload(tailAll);
      if checked {
        var sent := seq(|rows|, i requires 0 <= i < |rows| => FavoriteRequest(rows[i].id, false));
        assert sent == [FavoriteRequest(rows[0].id, false)] + tailSent;
      }
    }
  }

  /** Checking a row and unchecking it again restores the rows, when its id names only that row. */
  lemma CheckThenUncheck(s: AddState, k: nat)
    requires k < |s.results| && !s.results[k].isSelected
    requires forall i :: 0 <= i < |s.results| && i != k ==> s.results[i].id != s.results[k].id
    ensures CheckBoxSelect(CheckBoxSelect(s, s.results[k].id, true), s.results[k].id, false).results == s.results
  {
  }
}

=== FILE: directory_data.dfy ===
/** The directory records the backend reads from Microsoft Graph replies: group members, group
    details, and the sub-responses of a JSON batch. Properties Graph may omit are `Option`s. */
module DirectoryData {
  import opened Wrappers
  import opened Text

  /** A member of a distribution list (`DistributionListMember`): a user or a nested group.
      `odataType` is `@odata.type`; `isPinned` is set by the backend, never by Graph. */
  datatype DistributionListMember = DistributionListMember(
    id: string,
    displayName: Option<string>,
    mail: Option<string>,
    jobTitle: Option<string>,
    userPrincipalName: string,
    userType: Option<string>,
    odataType: Option<string>,
    isPinned: bool)

  /** A distribution list as the backend returns it (`DistributionList`). */
  datatype DistributionList = DistributionList(
    id: string,
    displayName: Option<string>,
    mail: Option<string>,
    mailNickname: Option<string>,
    mailEnabled: Option<string>,
    isPinned: bool,
    userPrincipalName: Option<string>,
    noOfMembers: int)

  /** The body of one sub-response, as each reader of it sees it: the `availability` and `id`
      of a presence, the `value` array of a member listing, and the body read as group details. */
  datatype ResponseBody = ResponseBody(
    availability: Option<string>,
    id: Option<string>,
    value: Option<seq<DistributionListMember>>,
    asGroup: DistributionList)

  /** One sub-response of a JSON batch (`MSGraphBatchResponse`): the id of the sub-request it
      answers and its body. */
  datatype BatchResponse = BatchResponse(id: Option<string>, body: Option<ResponseBody>)

  /** `string.Equals(value, constant, StringComparison.OrdinalIgnoreCase)` for a lower-case
      constant: a null value equals nothing. */
  predicate MatchesIgnoreCase(value: Option<string>, lowerConstant: string) {
    value.Some? && Lower(value.value) == lowerConstant
  }

  /** Comparing the lowered value with a lower-case constant is the ignore-case comparison. */
  lemma MatchesIgnoreCaseIsEqualsIgnoreCase(value: string, lowerConstant: string)
    requires IsLowerCase(lowerConstant)
    ensures MatchesIgnoreCase(Some(value), lowerConstant) <==> EqualsIgnoreCase(value, lowerConstant)
  {
    LowerOfLowerCase(lowerConstant);
  }

  /** The `@odata.type` of a user and of a group, and the `userType` of a tenant member. */
  const UserType: string := "#microsoft.graph.user"
  const GroupType: string := "#microsoft.graph.group"
  const MemberUserType: string := "member"
}

=== FILE: favorites.dfy ===
/** A user's favourite distribution lists: `FavoriteDistributionListDataRepository` (the table
    rows, and the batched Graph lookup of each list's details and member count) and
    `DistributionListsController` (the merge the client sees, create, update and delete). The
    caller's user principal name is the claim of the request; Graph is a function from a batch
    payload to what `CallGraphApiPostOnBehalfOfUser` hands back. */
module Favorites {
  import opened Wrappers
  import opened Text
  import opened ListExtensions
  import opened GraphBatchRequests
  import opened DirectoryData
  import opened GraphCalls
  import opened TableStore

  /** A favourite row (`FavoriteDistributionListTableEntity`): partition key = the user, row key =
      the group id, and whether the user pinned it. */
  datatype FavoriteEntity = FavoriteEntity(userPrincipalName: string, groupId: string, pinStatus: bool)

  function EntityKey(e: FavoriteEntity): Key {
    Key(e.userPrincipalName, e.groupId)
  }

  /** The favourite lists table. */
  type FavoriteTable = Table<FavoriteEntity>

  /** Every row sits under its own keys, as the table service keeps it. */
  ghost predicate TableWellFormed(table: FavoriteTable) {
    forall k :: k in table ==> EntityKey(table[k]) == k
  }

  /** A favourite as the client sends and receives it (`FavoriteDistributionListData`). */
  datatype FavoriteData = FavoriteData(
    id: string,
    isPinned: bool,
    displayName: Option<string>,
    mail: Option<string>,
    noOfContacts: int,
    userPrincipalName: string)

  // ---------------------------------------------------------------------------------------
  // `CreateOrUpdateFavoriteDistributionListDataAsync`

  /** The row written for a favourite: the user lower-cased, the group id as given, the pin. */
  function ToEntity(data: FavoriteData): (e: FavoriteEntity)
    ensures IsLowerCase(e.userPrincipalName) && e.userPrincipalName == Lower(data.userPrincipalName)
    ensures e.groupId == data.id && e.pinStatus == data.isPinned
  {
    LowerIsLowerCase(data.userPrincipalName);
    FavoriteEntity(Lower(data.userPrincipalName), data.id, data.isPinned)
  }

  function CreateOrUpdateFavorite(table: FavoriteTable, data: FavoriteData): (r: FavoriteTable)
    ensures TableWellFormed(table) ==> TableWellFormed(r)
    ensures Key(Lower(data.userPrincipalName), data.id) in r
    ensures r[Key(Lower(data.userPrincipalName), data.id)] == ToEntity(data)
    ensures forall k :: k != Key(Lower(data.userPrincipalName), data.id) ==> (k in r <==> k in table)
    ensures forall k :: k != Key(Lower(data.userPrincipalName), data.id) && k in table ==> r[k] == table[k]
  {
    CreateOrUpdate(table, EntityKey(ToEntity(data)), ToEntity(data))
  }

  // ---------------------------------------------------------------------------------------
  // `GetADGroupMemberCountBatchAsync`

  /** Group ids go to Graph five at a time. */
  const GroupBatchSize: nat := 5

  /** The two queries per group: its member listing, then its details. */
  const GroupQueries: seq<string> := [
    "/groups/{0}/members?$select=displayName,mail,userType&$top=999",
    "/groups/{0}?$select=id,displayName,mail,mailNickname,mailEnabled"]

  /** The payload sent for one batch of group ids. */
  function GroupPayload(batch: seq<string>): seq<BatchRequest> {
    Flatten(GroupRows(GroupQueries, GetMethod, batch))
  }

  const GetMethod: string := "GET"

  /** A batch of at most five groups sends at most ten sub-requests. */
  lemma GroupPayloadSize(batch: seq<string>)
    requires |batch| <= GroupBatchSize
    ensures |GroupPayload(batch)| == 2 * |batch| <= 10
  {
    FlattenLength(GroupRows(GroupQueries, GetMethod, batch), |batch|);
  }

  /** The id the details response is looked up by (`group + '1'`) is the id the encoder gave the
      group's sub-request under the second query. */
  lemma DetailsIdIsSecondQueryId(group: string)
    ensures group + "1" == RequestId(group, 1)
  {
    assert NatToString(1) == "1";
  }

  /** A member counted in `NoOfMembers`: a nested group, or a user of the tenant. */
  predicate IsCountedMember(m: DistributionListMember) {
    MatchesIgnoreCase(m.odataType, GroupType) || MatchesIgnoreCase(m.userType, MemberUserType)
  }

  function CountMembers(members: seq<DistributionListMember>): (n: nat)
    ensures n <= |members|
  {
    if |members| == 0 then 0
    else (if IsCountedMember(members[0]) then 1 else 0) + CountMembers(members[1..])
  }

  /** `NoOfMembers` counts member by member: one member counts 1 exactly when it is a nested group
      or a user of the tenant, and the count of a concatenation is the sum of the counts. */
  lemma {:induction false} CountMembersAppend(a: seq<DistributionListMember>, b: seq<DistributionListMember>)
    ensures CountMembers(a + b) == CountMembers(a) + CountMembers(b)
    ensures forall m :: CountMembers([m]) == if IsCountedMember(m) then 1 else 0
  {
    forall m
      ensures CountMembers([m]) == if IsCountedMember(m) then 1 else 0
    {
      assert [m][1..] == [];
    }
    if |a| == 0 {
      assert a + b == b;
    } else {
      assert (a + b)[1..] == a[1..] + b;
      CountMembersAppend(a[1..], b);
    }
  }

  /** The first response with the given id (`responses.Find(s => s.Id == id)`). */
  function ResponseWithId(responses: seq<BatchResponse>, id: string): (r: Option<BatchResponse>)
    ensures r.Some? ==> r.value in responses && r.value.id == Some(id)
    ensures r.None? ==> forall i :: 0 <= i < |responses| ==> responses[i].id != Some(id)
  {
    FindFirst(responses, (s: BatchResponse) => s.id == Some(id))
  }

  /** The member listing of a group from its response: reading a missing response or a missing
      body throws (`None`); a body without `value` gives a null listing (`Some(None)`). */
  function MemberListing(responses: seq<BatchResponse>, group: string): Option<Option<seq<DistributionListMember>>> {
    var found := ResponseWithId(responses, group);
    if found.None? || found.value.body.None? then None
    else Some(found.value.body.value.value)
  }

  /** The details of a group from its second response: reading a missing response throws
      (`None`); a null body gives null details (`Some(None)`). */
  function GroupDetails(responses: seq<BatchResponse>, group: string): Option<Option<DistributionList>> {
    var found := ResponseWithId(responses, group + "1");
    if found.None? then None
    else if found.value.body.None? then Some(None)
    else Some(Some(found.value.body.value.asGroup))
  }

  /** One group's entry: its details with `NoOfMembers` set to the count of counted members, present
      only when both responses were read and both the listing and the details are non-null. */
  function DecodeGroup(responses: seq<BatchResponse>, group: string): (r: Option<DistributionList>)
    ensures r.Some? <==> MemberListing(responses, group).Some? && MemberListing(responses, group).value.Some?
                         && GroupDetails(responses, group).Some? && GroupDetails(responses, group).value.Some?
    ensures r.Some? ==>
              var details := GroupDetails(responses, group).value.value;
              var members := MemberListing(responses, group).value.value;
              r.value == details.(noOfMembers := CountMembers(members))
  {
    var listing := MemberListing(responses, group);
    var details := GroupDetails(responses, group);
    if listing.None? || listing.value.None? || details.None? || details.value.None? then None
    else Some(details.value.value.(noOfMembers := CountMembers(listing.value.value)))
  }

  /** Decodes one group from a batch's responses. */
  function Decoder(responses: seq<BatchResponse>): string -> Option<DistributionList> {
    g => DecodeGroup(responses, g)
  }

  /** The entries of one batch, in group order; groups whose decoding fails are left out. */
  function DecodeBatch(responses: seq<BatchResponse>, batch: seq<string>): (r: seq<DistributionList>)
    ensures |r| <= |batch|
    ensures forall d :: d in r ==> exists i :: 0 <= i < |batch| && DecodeGroup(responses, batch[i]) == Some(d)
    ensures forall i :: 0 <= i < |batch| && DecodeGroup(responses, batch[i]).Some? ==> DecodeGroup(responses, batch[i]).value in r
  {
    PresentFacts(Decoder(responses), batch);
    Present(Decoder(responses), batch)
  }

  /** The batch is decoded group by group, in group order: the entries of a concatenation are the
      entries of its two parts one after the other, so a group that fails costs no other group
      its entry. */
  lemma DecodeBatchAppend(responses: seq<BatchResponse>, a: seq<string>, b: seq<string>)
    ensures DecodeBatch(responses, a + b) == DecodeBatch(responses, a) + DecodeBatch(responses, b)
    ensures forall g :: DecodeBatch(responses, [g]) == if DecodeGroup(responses, g).Some? then [DecodeGroup(responses, g).value] else []
  {
    forall g
      ensures DecodeBatch(responses, [g]) == if DecodeGroup(responses, g).Some? then [DecodeGroup(responses, g).value] else []
    {
      PresentOne(Decoder(responses), g);
    }
    PresentConcat(Decoder(responses), a, b);
  }

  /** The entries a batch's reply contributes: its decoded groups when the reply has
      `responses`, nothing when it has none. */
  function BatchEntries(outcome: PostOutcome, batch: seq<string>): seq<DistributionList> {
    match outcome
    case Responses(Some(responses)) => DecodeBatch(responses, batch)
    case _ => []
  }

  /** Every batch's entries, batch after batch. */
  function Decoded(batches: seq<seq<string>>, graph: seq<BatchRequest> -> PostOutcome): seq<DistributionList> {
    Flatten(seq(|batches|, b requires 0 <= b < |batches| => BatchEntries(graph(GroupPayload(batches[b])), batches[b])))
  }

  lemma DecodedUnfolds(batches: seq<seq<string>>, graph: seq<BatchRequest> -> PostOutcome)
    requires |batches| > 0
    ensures Decoded(batches, graph) == BatchEntries(graph(GroupPayload(batches[0])), batches[0]) + Decoded(batches[1..], graph)
  {
    var all := seq(|batches|, b requires 0 <= b < |batches| => BatchEntries(graph(GroupPayload(batches[b])), batches[b]));
    var tail := seq(|batches| - 1, b requires 0 <= b < |batches| - 1 => BatchEntries(graph(GroupPayload(batches[1..][b])), batches[1..][b]));
    assert all[1..] == tail;
  }

  /** `GetADGroupMemberCountBatchAsync`: for each batch of five group ids, send the batch and
      decode each group; a batch whose reply has no `responses` adds nothing; a failed call throws
      out of the whole lookup (`Failure`). */
  function GetADGroupMemberCountBatch(batches: seq<seq<string>>, graph: seq<BatchRequest> -> PostOutcome): (r: Result<seq<DistributionList>, string>)
    ensures r.Success? ==> |r.value| <= |Flatten(batches)|
    ensures r.Failure? <==> exists b :: 0 <= b < |batches| && graph(GroupPayload(batches[b])).ErrorText?
    ensures r.Success? ==> r.value == Decoded(batches, graph)
  {
    if |batches| == 0 then Success([])
    else
      var outcome := graph(GroupPayload(batches[0]));
      var rest := GetADGroupMemberCountBatch(batches[1..], graph);
      assert forall b :: 1 <= b < |batches| ==> batches[b] == batches[1..][b - 1];
      DecodedUnfolds(batches, graph);
      match outcome
      case ErrorText(content) => Failure(content)
      case Responses(None) => rest
      case Responses(Some(responses)) =>
        if rest.Failure? then rest
        else Success(DecodeBatch(responses, batches[0]) + rest.value)
  }

  /** The lookup for a list of group ids, batched by five. */
  function GetADGroupMemberCount(groupIds: seq<string>, graph: seq<BatchRequest> -> PostOutcome): (r: Result<seq<DistributionList>, string>)
    ensures r.Success? ==> |r.value| <= |groupIds|
    ensures r.Failure? <==> exists b :: 0 <= b < |Chunks(groupIds, GroupBatchSize)| &&
                                        graph(GroupPayload(Chunks(groupIds, GroupBatchSize)[b])).ErrorText?
    ensures r.Success? ==> r.value == Decoded(Chunks(groupIds, GroupBatchSize), graph)
  {
    ChunksFlatten(groupIds, GroupBatchSize);
    GetADGroupMemberCountBatch(Chunks(groupIds, GroupBatchSize), graph)
  }

  /** A batch call answered with a non-success status fails the lookup, and the first such batch's
      reply text is the failure's. */
  lemma {:induction false} FirstFailedCallIsReported(batches: seq<seq<string>>, graph: seq<BatchRequest> -> PostOutcome, b: nat,
                                                     status: int, responses: Option<seq<BatchResponse>>, content: string)
    requires b < |batches|
    requires forall c :: 0 <= c < b ==> graph(GroupPayload(batches[c])).Responses?
    requires graph(GroupPayload(batches[b])) == CallGraphApiPost(status, responses, content) && !IsSuccessStatus(status)
    ensures GetADGroupMemberCountBatch(batches, graph) == Failure(content)
  {
    if b > 0 {
      assert graph(GroupPayload(batches[0])).Responses?;
      forall c | 0 <= c < b - 1
        ensures graph(GroupPayload(batches[1..][c])).Responses?
      {
        assert batches[1..][c] == batches[c + 1];
      }
      assert batches[1..][b - 1] == batches[b];
      FirstFailedCallIsReported(batches[1..], graph, b - 1, status, responses, content);
    }
  }

  /** A group the reply to its batch decodes has its entry in the lookup's answer. */
  lemma {:induction false} DecodedHasGroup(batches: seq<seq<string>>, graph: seq<BatchRequest> -> PostOutcome, b: nat, responses: seq<BatchResponse>, j: nat)
    requires b < |batches| && graph(GroupPayload(batches[b])) == Responses(Some(responses))
    requires j < |batches[b]| && DecodeGroup(responses, batches[b][j]).Some?
    ensures DecodeGroup(responses, batches[b][j]).value in Decoded(batches, graph)
  {
    DecodedUnfolds(batches, graph);
    if b > 0 {
      assert batches[1..][b - 1] == batches[b];
      DecodedHasGroup(batches[1..], graph, b - 1, responses, j);
    }
  }

  /** Every batch sent holds at most five groups, and the batches cover the group ids in order. */
  lemma GroupBatchesCoverIds(groupIds: seq<string>)
    ensures Flatten(Chunks(groupIds, GroupBatchSize)) == groupIds
    ensures forall b :: 0 <= b < |Chunks(groupIds, GroupBatchSize)| ==>
              0 < |Chunks(groupIds, GroupBatchSize)[b]| <= GroupBatchSize
  {
    ChunksFlatten(groupIds, GroupBatchSize);
    ChunksWellShaped(groupIds, GroupBatchSize);
  }

  // ---------------------------------------------------------------------------------------
  // `GetAllFavoriteDistributionListDataAsync`

  /** One favourite's entry: the row's user lower-cased, pin and group id, with the display name,
      mail and member count of the first Graph entry for that group. */
  function MergeEntry(e: FavoriteEntity, dl: DistributionList): FavoriteData {
    FavoriteData(e.groupId, e.pinStatus, dl.displayName, dl.mail, dl.noOfMembers, Lower(e.userPrincipalName))
  }

  /** The merge: one entry per row whose group Graph returned, in row order; a row whose group is
      missing is skipped (the null dereference is caught). */
  function MergeFavorites(rows: seq<FavoriteEntity>, output: seq<DistributionList>): (r: seq<FavoriteData>)
    ensures |r| <= |rows|
    ensures forall x :: x in r <==>
              exists i :: 0 <= i < |rows| &&
                var found := FindFirst(output, (dl: DistributionList) => dl.id == rows[i].groupId);
                found.Some? && x == MergeEntry(rows[i], found.value)
  {
    if |rows| == 0 then []
    else
      var found := FindFirst(output, (dl: DistributionList) => dl.id == rows[0].groupId);
      var rest := MergeFavorites(rows[1..], output);
      assert forall i :: 1 <= i < |rows| ==> rows[i] == rows[1..][i - 1];
      (if found.Some? then [MergeEntry(rows[0], found.value)] else []) + rest
  }

  /** One row's part of the merge. */
  function MergeOne(e: FavoriteEntity, output: seq<DistributionList>): seq<FavoriteData> {
    var found := FindFirst(output, (dl: DistributionList) => dl.id == e.groupId);
    if found.Some? then [MergeEntry(e, found.value)] else []
  }

  /** The merge goes row by row: a row gets its entry, built from the first Graph entry for its
      group, exactly when Graph returned that group, and rows keep their order. */
  lemma {:induction false} MergeFavoritesAppend(a: seq<FavoriteEntity>, b: seq<FavoriteEntity>, output: seq<DistributionList>)
    ensures MergeFavorites(a + b, output) == MergeFavorites(a, output) + MergeFavorites(b, output)
    ensures forall e :: MergeFavorites([e], output) == MergeOne(e, output)
  {
    forall e
      ensures MergeFavorites([e], output) == MergeOne(e, output)
    {
      MergeFavoritesSingle(e, output);
    }
    MergeFavoritesConcat(a, b, output);
  }

  lemma MergeFavoritesSingle(e: FavoriteEntity, output: seq<DistributionList>)
    ensures MergeFavorites([e], output) == MergeOne(e, output)
  {
    assert [e][1..] == [];
    assert MergeFavorites([], output) == [];
  }

  lemma {:induction false} MergeFavoritesConcat(a: seq<FavoriteEntity>, b: seq<FavoriteEntity>, output: seq<DistributionList>)
    ensures MergeFavorites(a + b, output) == MergeFavorites(a, output) + MergeFavorites(b, output)
  {
    if |a| == 0 {
      assert a + b == b;
    } else {
      assert (a + b)[0] == a[0];
      assert (a + b)[1..] == a[1..] + b;
      assert MergeFavorites(a + b, output) == MergeOne(a[0], output) + MergeFavorites(a[1..] + b, output);
      assert MergeFavorites(a, output) == MergeOne(a[0], output) + MergeFavorites(a[1..], output);
      MergeFavoritesConcat(a[1..], b, output);
    }
  }

  /** When Graph returned every row's group, the merge has one entry per row, in row order. */
  lemma {:induction false} MergeKeepsFoundRows(rows: seq<FavoriteEntity>, output: seq<DistributionList>)
    requires forall i :: 0 <= i < |rows| ==> exists j :: 0 <= j < |output| && output[j].id == rows[i].groupId
    ensures |MergeFavorites(rows, output)| == |rows|
    ensures forall i :: 0 <= i < |rows| ==> MergeFavorites(rows, output)[i].id == rows[i].groupId
  {
    if |rows| > 0 {
      var found := FindFirst(output, (dl: DistributionList) => dl.id == rows[0].groupId);
      var j :| 0 <= j < |output| && output[j].id == rows[0].groupId;
      assert found.Some?;
      assert forall i :: 1 <= i < |rows| ==> rows[i] == rows[1..][i - 1];
      MergeKeepsFoundRows(rows[1..], output);
    }
  }

  /** The group ids of the rows, in row order. */
  function GroupIds(rows: seq<FavoriteEntity>): (ids: seq<string>)
    ensures |ids| == |rows| && forall i :: 0 <= i < |rows| ==> ids[i] == rows[i].groupId
  {
    seq(|rows|, i requires 0 <= i < |rows| => rows[i].groupId)
  }

  /** `GetAllFavoriteDistributionListDataAsync` over the caller's rows: no rows give no entries and
      no Graph call; a failed Graph lookup gives no entries (the controller catches it);
      otherwise the merge. */
  function GetAllFavorites(rows: seq<FavoriteEntity>, graph: seq<BatchRequest> -> PostOutcome): (r: seq<FavoriteData>)
    ensures |rows| == 0 ==> r == []
    ensures |r| <= |rows|
    ensures forall x :: x in r ==> exists i :: 0 <= i < |rows| && x.id == rows[i].groupId && x.isPinned == rows[i].pinStatus
                                                && x.userPrincipalName == Lower(rows[i].userPrincipalName)
    ensures GetADGroupMemberCount(GroupIds(rows), graph).Failure? ==> r == []
    ensures |rows| > 0 && GetADGroupMemberCount(GroupIds(rows), graph).Success? ==>
              r == MergeFavorites(rows, Decoded(Chunks(GroupIds(rows), GroupBatchSize), graph))
  {
    if |rows| == 0 then []
    else
      var ids := GroupIds(rows);
      match GetADGroupMemberCount(ids, graph)
      case Failure(_) => []
      case Success(output) => MergeFavorites(rows, output)
  }

  // ---------------------------------------------------------------------------------------
  // `CreateFavoriteDistributionListDataAsync`, `UpdateFavoriteDistributionListData`,
  // `DeleteFavoriteDistributionListDataAsync`

  /** An item with the caller's user principal name put in place of whatever the body held. */
  function WithCaller(item: FavoriteData, caller: string): FavoriteData {
    item.(userPrincipalName := Lower(caller))
  }

  /** The POST: write every item for the caller in turn; the write of an index in `failing` throws
      and is skipped. The answer is OK only when no write failed. */
  function CreateFavorites(table: FavoriteTable, caller: string, items: seq<FavoriteData>, failing: set<nat>): (r: (FavoriteTable, bool))
    ensures r.1 <==> forall i :: 0 <= i < |items| ==> i !in failing
    ensures TableWellFormed(table) ==> TableWellFormed(r.0)
    ensures forall k :: k in table ==> k in r.0
    ensures forall i :: 0 <= i < |items| && i !in failing ==> Key(Lower(caller), items[i].id) in r.0
    ensures forall k :: k in r.0 ==> k in table || (k.partition == Lower(caller) && exists i :: 0 <= i < |items| && k.row == items[i].id)
    ensures forall i :: 0 <= i < |items| && LastWrite(items, failing, i) ==>
              r.0[Key(Lower(caller), items[i].id)] == FavoriteEntity(Lower(caller), items[i].id, items[i].isPinned)
    ensures forall k :: k in table && (forall i :: 0 <= i < |items| && i !in failing ==> k != Key(Lower(caller), items[i].id)) ==>
              r.0[k] == table[k]
  {
    CreateFromLastWins(table, caller, items, failing, 0);
    CreateFromUntouched(table, caller, items, failing, 0);
    CreateFromAnswer(table, caller, items, failing, 0);
    CreateFromWellFormed(table, caller, items, failing, 0);
    CreateFromKeeps(table, caller, items, failing, 0);
    CreateFromWrites(table, caller, items, failing, 0);
    CreateFromOnlyCaller(table, caller, items, failing, 0);
    CreateFrom(table, caller, items, failing, 0)
  }

  /** The written row of one item, under the caller's lower-cased key. */
  function Written(table: FavoriteTable, caller: string, item: FavoriteData, fails: bool): (r: FavoriteTable)
    ensures TableWellFormed(table) ==> TableWellFormed(r)
    ensures forall k :: k in table ==> k in r
    ensures !fails ==> Key(Lower(caller), item.id) in r
    ensures !fails ==> r[Key(Lower(caller), item.id)] == FavoriteEntity(Lower(caller), item.id, item.isPinned)
    ensures forall k :: k in r ==> k in table || k == Key(Lower(caller), item.id)
    ensures forall k :: k in table && (fails || k != Key(Lower(caller), item.id)) ==> r[k] == table[k]
  {
    LowerIdempotent(caller);
    if fails then table else CreateOrUpdateFavorite(table, WithCaller(item, caller))
  }

  /** The POST's loop from index `start` on. */
  function CreateFrom(table: FavoriteTable, caller: string, items: seq<FavoriteData>, failing: set<nat>, start: nat): (FavoriteTable, bool)
    requires start <= |items|
    decreases |items| - start
  {
    if start == |items| then (table, true)
    else
      var written := Written(table, caller, items[start], start in failing);
      var rest := CreateFrom(written, caller, items, failing, start + 1);
      (rest.0, rest.1 && start !in failing)
  }

  /** A row no later successful write touches keeps the value it has. */
  lemma {:induction false} CreateFromUntouched(table: FavoriteTable, caller: string, items: seq<FavoriteData>, failing: set<nat>, start: nat)
    requires start <= |items|
    ensures forall k :: k in table && (forall i :: start <= i < |items| && i !in failing ==> k != Key(Lower(caller), items[i].id)) ==>
              k in CreateFrom(table, caller, items, failing, start).0 && CreateFrom(table, caller, items, failing, start).0[k] == table[k]
    decreases |items| - start
  {
    if start < |items| {
      var written := Written(table, caller, items[start], start in failing);
      CreateFromUntouched(written, caller, items, failing, start + 1);
    }
  }

  /** Item `i` is written and no later item with its group id is. */
  ghost predicate LastWrite(items: seq<FavoriteData>, failing: set<nat>, i: nat)
    requires i < |items|
  {
    i !in failing && forall j :: i < j < |items| && j !in failing ==> items[j].id != items[i].id
  }

  /** The last successful write of a group id decides its row. */
  lemma {:induction false} CreateFromLastWins(table: FavoriteTable, caller: string, items: seq<FavoriteData>, failing: set<nat>, start: nat)
    requires start <= |items|
    ensures forall i :: start <= i < |items| && LastWrite(items, failing, i) ==>
              && Key(Lower(caller), items[i].id) in CreateFrom(table, caller, items, failing, start).0
              && CreateFrom(table, caller, items, failing, start).0[Key(Lower(caller), items[i].id)] == FavoriteEntity(Lower(caller), items[i].id, items[i].isPinned)
    decreases |items| - start
  {
    if start < |items| {
      var written := Written(table, caller, items[start], start in failing);
      var r := CreateFrom(written, caller, items, failing, start + 1).0;
      assert CreateFrom(table, caller, items, failing, start).0 == r;
      CreateFromLastWins(written, caller, items, failing, start + 1);
      forall i | start <= i < |items| && LastWrite(items, failing, i)
        ensures Key(Lower(caller), items[i].id) in r && r[Key(Lower(caller), items[i].id)] == FavoriteEntity(Lower(caller), items[i].id, items[i].isPinned)
      {
        if i == start {
          var k := Key(Lower(caller), items[start].id);
          CreateFromUntouched(written, caller, items, failing, start + 1);
          assert forall j :: start + 1 <= j < |items| && j !in failing ==> k != Key(Lower(caller), items[j].id);
          assert k in written;
        }
      }
    }
  }

  lemma {:induction false} CreateFromAnswer(table: FavoriteTable, caller: string, items: seq<FavoriteData>, failing: set<nat>, start: nat)
    requires start <= |items|
    ensures CreateFrom(table, caller, items, failing, start).1 <==> forall i :: start <= i < |items| ==> i !in failing
    decreases |items| - start
  {
    if start < |items| {
      CreateFromAnswer(Written(table, caller, items[start], start in failing), caller, items, failing, start + 1);
    }
  }

  lemma {:induction false} CreateFromWellFormed(table: FavoriteTable, caller: string, items: seq<FavoriteData>, failing: set<nat>, start: nat)
    requires start <= |items|
    ensures TableWellFormed(table) ==> TableWellFormed(CreateFrom(table, caller, items, failing, start).0)
    decreases |items| - start
  {
    if start < |items| {
      CreateFromWellFormed(Written(table, caller, items[start], start in failing), caller, items, failing, start + 1);
    }
  }

  lemma {:induction false} CreateFromKeeps(table: FavoriteTable, caller: string, items: seq<FavoriteData>, failing: set<nat>, start: nat)
    requires start <= |items|
    ensures forall k :: k in table ==> k in CreateFrom(table, caller, items, failing, start).0
    decreases |items| - start
  {
    if start < |items| {
      CreateFromKeeps(Written(table, caller, items[start], start in failing), caller, items, failing, start + 1);
    }
  }

  lemma {:induction false} CreateFromWrites(table: FavoriteTable, caller: string, items: seq<FavoriteData>, failing: set<nat>, start: nat)
    requires start <= |items|
    ensures forall i :: start <= i < |items| && i !in failing ==> Key(Lower(caller), items[i].id) in CreateFrom(table, caller, items, failing, start).0
    decreases |items| - start
  {
    if start < |items| {
      var written := Written(table, caller, items[start], start in failing);
      CreateFromWrites(written, caller, items, failing, start + 1);
      CreateFromKeeps(written, caller, items, failing, start + 1);
    }
  }

  lemma {:induction false} CreateFromOnlyCaller(table: FavoriteTable, caller: string, items: seq<FavoriteData>, failing: set<nat>, start: nat)
    requires start <= |items|
    ensures forall k :: k in CreateFrom(table, caller, items, failing, start).0 ==>
              k in table || (k.partition == Lower(caller) && exists i :: start <= i < |items| && k.row == items[i].id)
    decreases |items| - start
  {
    if start < |items| {
      CreateFromOnlyCaller(Written(table, caller, items[start], start in failing), caller, items, failing, start + 1);
    }
  }

  /** What the body says about the user is ignored: only the caller's claim decides the rows. */
  lemma CreateIgnoresBodyUpn(table: FavoriteTable, caller: string, items: seq<FavoriteData>, other: seq<FavoriteData>, failing: set<nat>)
    requires |items| == |other|
    requires forall i :: 0 <= i < |items| ==> items[i].id == other[i].id && items[i].isPinned == other[i].isPinned
    ensures CreateFavorites(table, caller, items, failing) == CreateFavorites(table, caller, other, failing)
  {
    CreateFromIgnoresBodyUpn(table, caller, items, other, failing, 0);
  }

  lemma {:induction false} CreateFromIgnoresBodyUpn(table: FavoriteTable, caller: string, items: seq<FavoriteData>, other: seq<FavoriteData>, failing: set<nat>, start: nat)
    requires start <= |items| == |other|
    requires forall i :: 0 <= i < |items| ==> items[i].id == other[i].id && items[i].isPinned == other[i].isPinned
    ensures CreateFrom(table, caller, items, failing, start) == CreateFrom(table, caller, other, failing, start)
    decreases |items| - start
  {
    if start < |items| {
      assert ToEntity(WithCaller(items[start], caller)) == ToEntity(WithCaller(other[start], caller));
      var written := Written(table, caller, items[start], start in failing);
      CreateFromIgnoresBodyUpn(written, caller, items, other, failing, start + 1);
    }
  }

  /** The PUT: write the item for the caller. */
  function UpdateFavorite(table: FavoriteTable, caller: string, item: FavoriteData): (r: FavoriteTable)
    ensures TableWellFormed(table) ==> TableWellFormed(r)
    ensures Key(Lower(caller), item.id) in r && r[Key(Lower(caller), item.id)].pinStatus == item.isPinned
    ensures forall k :: k != Key(Lower(caller), item.id) ==> (k in r <==> k in table)
    ensures forall k :: k != Key(Lower(caller), item.id) && k in table ==> r[k] == table[k]
  {
    LowerIdempotent(caller);
    CreateOrUpdateFavorite(table, WithCaller(item, caller))
  }

  /** The DELETE: look the row up by the caller and the item's id (both lower-cased by the
      lookup) and delete it when found. The answer is OK either way; it is an error only when the
      table service refuses the delete, which a well-formed table never makes it do. */
  function DeleteFavorite(table: FavoriteTable, caller: string, item: FavoriteData): (r: Result<FavoriteTable, string>)
    ensures TableWellFormed(table) ==> r.Success?
    ensures r.Success? && Get(table, Lower(caller), item.id).None? ==> r.value == table
    ensures TableWellFormed(table) && Get(table, Lower(caller), item.id).Some? ==>
              r.value == table - {LookupKey(Lower(caller), item.id)}
  {
    var found := Get(table, Lower(caller), item.id);
    if found.None? then Success(table)
    else match Delete(table, EntityKey(found.value))
      case None => Failure("the table service refused the delete")
      case Some(t) => Success(t)
  }

  /** Adding a favourite and then deleting it removes it exactly when its group id is in lower
      case: the row key is stored as given but looked up lower-cased. With an upper-case letter in
      the id the delete finds nothing, and still answers OK. */
  lemma CreateThenDelete(table: FavoriteTable, caller: string, item: FavoriteData)
    requires TableWellFormed(table)
    requires Key(Lower(caller), item.id) !in table
    requires LookupKey(Lower(caller), item.id) !in table
    ensures var created := UpdateFavorite(table, caller, item);
            && (IsLowerCase(item.id) ==> DeleteFavorite(created, caller, item) == Success(table))
            && (!IsLowerCase(item.id) ==> DeleteFavorite(created, caller, item) == Success(created))
  {
    var created := UpdateFavorite(table, caller, item);
    var key := Key(Lower(caller), item.id);
    LowerIdempotent(caller);
    LowerIsLowerCase(caller);
    if IsLowerCase(item.id) {
      LowerOfLowerCase(item.id);
      assert LookupKey(Lower(caller), item.id) == key;
      assert created - {key} == table;
    } else {
      assert LookupKey(Lower(caller), item.id) != key;
    }
  }
}

=== FILE: graph_batch.dfy ===
/** `MSGraphBatchRequestCreator`: the sub-requests of a Microsoft Graph JSON batch, and the
    id scheme by which the repositories later pick each sub-request's response. */
module GraphBatchRequests {
  import opened Wrappers
  import opened Text
  import opened PeoplePresence
  import opened ListExtensions

  /** One sub-request of a JSON batch. */
  datatype BatchRequest = BatchRequest(id: string, httpMethod: string, url: string)

  /** The id given to the sub-request for `groupId` under query number `queryIndex`:
      the bare group id for the first query, the group id followed by the query number after. */
  function RequestId(groupId: string, queryIndex: nat): (r: string)
    ensures queryIndex == 0 ==> r == groupId
    ensures queryIndex > 0 ==> |r| > |groupId| && r[..|groupId|] == groupId && r[|groupId|..] == NatToString(queryIndex)
  {
    if queryIndex > 0 then groupId + NatToString(queryIndex) else groupId
  }

  /** The sub-request for group `j` under query `k`. */
  function GroupRequest(queries: seq<string>, httpMethod: string, groupIds: seq<string>, k: nat, j: nat): BatchRequest
    requires k < |queries| && j < |groupIds|
  {
    BatchRequest(RequestId(groupIds[j], k), httpMethod, Format(queries[k], groupIds[j]))
  }

  /** The sub-requests as a table: row `k` holds query `k`'s sub-requests, one per group in
      input order. The payload is this table read row by row (query-major). */
  function GroupRows(queries: seq<string>, httpMethod: string, groupIds: seq<string>): (rows: seq<seq<BatchRequest>>)
    ensures |rows| == |queries|
    ensures forall k :: 0 <= k < |rows| ==> |rows[k]| == |groupIds|
  {
    seq(|queries|, k requires 0 <= k < |queries| =>
      seq(|groupIds|, j requires 0 <= j < |groupIds| => GroupRequest(queries, httpMethod, groupIds, k, j)))
  }

  /** `CreateBatchRequestPayloadForGroups`: one sub-request per (query, group) pair, all groups
      of the first query, then all groups of the second, and so on. */
  method CreateBatchRequestPayloadForGroups(queries: seq<string>, httpMethod: string, groupIds: seq<string>)
    returns (request: seq<BatchRequest>)
    ensures |request| == |queries| * |groupIds|
    ensures request == Flatten(GroupRows(queries, httpMethod, groupIds))
  {
    var n := |groupIds|;
    ghost var rows := GroupRows(queries, httpMethod, groupIds);
    request := [];
    var queryCount: nat := 0;
    while queryCount < |queries|
      invariant queryCount <= |queries|
      invariant |request| == queryCount * n
      invariant request == Flatten(rows[..queryCount])
    {
      var query := queries[queryCount];
      var g: nat := 0;
      while g < n
        invariant g <= n
        invariant request == Flatten(rows[..queryCount]) + rows[queryCount][..g]
      {
        var groupId := groupIds[g];
        var id := groupId;
        if queryCount > 0 {
          id := groupId + NatToString(queryCount);
        }
        RowPrefixStep(queries, httpMethod, groupIds, queryCount, g);
        request := request + [BatchRequest(id, httpMethod, Format(query, groupId))];
        g := g + 1;
      }
      FlattenPrefixStep(rows, queryCount, n);
      queryCount := queryCount + 1;
    }
    assert rows[..|queries|] == rows;
  }

  /** Row `k` of the table grows by group `g`'s sub-request. */
  lemma RowPrefixStep(queries: seq<string>, httpMethod: string, groupIds: seq<string>, k: nat, g: nat)
    requires k < |queries| && g < |groupIds|
    ensures var row := GroupRows(queries, httpMethod, groupIds)[k];
            row[..g + 1] == row[..g] + [BatchRequest(RequestId(groupIds[g], k), httpMethod, Format(queries[k], groupIds[g]))]
  {
  }

  /** Reading one more row of `n` sub-requests appends that row and `n` to the length. */
  lemma FlattenPrefixStep(rows: seq<seq<BatchRequest>>, k: nat, n: nat)
    requires k < |rows| && |rows[k]| == n
    ensures Flatten(rows[..k + 1]) == Flatten(rows[..k]) + rows[k][..n]
    ensures (k + 1) * n == k * n + n
  {
    assert rows[..k + 1] == rows[..k] + [rows[k]];
    FlattenAppend(rows[..k], [rows[k]]);
    assert Flatten([rows[k]]) == rows[k] + Flatten([rows[k]][1..]);
    assert rows[k][..n] == rows[k];
  }

  /** The sub-request asking for one member's presence. */
  function PresenceRequest(query: string, httpMethod: string, person: PeoplePresenceData): BatchRequest {
    BatchRequest(person.userPrincipalName, httpMethod, Format(query, person.id.GetOr("")))
  }

  /** The presence payload as a definition: one sub-request per member, in member order. */
  function PresencePayload(query: string, httpMethod: string, people: seq<PeoplePresenceData>): (r: seq<BatchRequest>)
    ensures |r| == |people|
  {
    seq(|people|, i requires 0 <= i < |people| => PresenceRequest(query, httpMethod, people[i]))
  }

  /** `CreateBatchRequestPayloadForPresence`: one sub-request per member, in input order, whose
      id is the member's user principal name and whose URL is built from the member's AAD id. */
  method CreateBatchRequestPayloadForPresence(query: string, httpMethod: string, people: seq<PeoplePresenceData>)
    returns (request: seq<BatchRequest>)
    ensures request == PresencePayload(query, httpMethod, people)
    ensures |request| == |people|
    ensures forall i :: 0 <= i < |people| ==>
              && request[i].id == people[i].userPrincipalName
              && request[i].httpMethod == httpMethod
              && request[i].url == Format(query, people[i].id.GetOr(""))
  {
    request := [];
    var i := 0;
    while i < |people|
      invariant i <= |people|
      invariant |request| == i
      invariant forall t :: 0 <= t < i ==>
                  && request[t].id == people[t].userPrincipalName
                  && request[t].httpMethod == httpMethod
                  && request[t].url == Format(query, people[t].id.GetOr(""))
    {
      var p := people[i];
      request := request + [BatchRequest(p.userPrincipalName, httpMethod, Format(query, p.id.GetOr("")))];
      i := i + 1;
    }
  }

  /** All group ids have the same length, as GUIDs do. Then the id of a sub-request names its group
      and query unambiguously; without it, "a" with query 1 and "a1" with query 0 share an id. */
  ghost predicate UnambiguousGroupIds(groupIds: seq<string>) {
    forall a, b :: 0 <= a < |groupIds| && 0 <= b < |groupIds| ==> |groupIds[a]| == |groupIds[b]|
  }

  lemma NatToStringInjective(x: nat, y: nat)
    requires NatToString(x) == NatToString(y)
    ensures x == y
    decreases x
  {
    var sx, sy := NatToString(x), NatToString(y);
    if x < 10 && y < 10 {
      assert sx[0] == DigitChar(x) && sy[0] == DigitChar(y);
      DigitCharInjective(x, y);
    } else if x >= 10 && y >= 10 {
      var px, py := NatToString(x / 10), NatToString(y / 10);
      assert sx == px + [DigitChar(x % 10)];
      assert sy == py + [DigitChar(y % 10)];
      assert px == sx[..|sx| - 1] && py == sy[..|sy| - 1];
      NatToStringInjective(x / 10, y / 10);
      assert sx[|sx| - 1] == DigitChar(x % 10) && sy[|sy| - 1] == DigitChar(y % 10);
      DigitCharInjective(x % 10, y % 10);
    } else if x < 10 {
      NatToStringLong(y);
    } else {
      NatToStringLong(x);
    }
  }

  lemma DigitCharInjective(a: nat, b: nat)
    requires a < 10 && b < 10 && DigitChar(a) == DigitChar(b)
    ensures a == b
  {
  }

  lemma NatToStringLong(x: nat)
    requires x >= 10
    ensures |NatToString(x)| >= 2
  {
  }

  /** With equal-length group ids, a request id determines the group and the query number. */
  lemma RequestIdInjective(g1: string, k1: nat, g2: string, k2: nat)
    requires |g1| == |g2|
    requires RequestId(g1, k1) == RequestId(g2, k2)
    ensures g1 == g2 && k1 == k2
  {
    var r := RequestId(g1, k1);
    if k1 > 0 && k2 > 0 {
      NatToStringInjective(k1, k2);
    }
  }

  /** Decoding is unambiguous: in a payload for equal-length group ids, every sub-request whose
      id is `RequestId(groupIds[j], k)` is the sub-request for group `j` under query `k`, so the
      response carrying that id answers exactly that sub-request. */
  lemma DecodeByIdIsUnambiguous(queries: seq<string>, httpMethod: string, groupIds: seq<string>, k: nat, j: nat, x: BatchRequest)
    requires UnambiguousGroupIds(groupIds)
    requires k < |queries| && j < |groupIds|
    requires x in Flatten(GroupRows(queries, httpMethod, groupIds))
    requires x.id == RequestId(groupIds[j], k)
    ensures x == BatchRequest(RequestId(groupIds[j], k), httpMethod, Format(queries[k], groupIds[j]))
  {
    var rows := GroupRows(queries, httpMethod, groupIds);
    FlattenMember(rows, x);
    var k', j' :| 0 <= k' < |rows| && 0 <= j' < |rows[k']| && rows[k'][j'] == x;
    RequestIdInjective(groupIds[j'], k', groupIds[j], k);
  }

  /** Without equal lengths the scheme is ambiguous: for groups "a" and "a1", the second query's
      sub-request for "a" and the first query's sub-request for "a1" share the id "a1". */
  lemma AmbiguousWithoutEqualLengths()
    ensures RequestId("a", 1) == RequestId("a1", 0)
  {
    assert NatToString(1) == "1";
  }
}

=== FILE: graph_calls.dfy ===
/** `ProtectedApiCallHelper`: the control flow of the Microsoft Graph calls, over the replies the
    service gives. HTTP, tokens and JSON parsing are outside the model: a reply is what the
    helper reads out of the response body. */
module GraphCalls {
  import opened Wrappers
  import opened Text
  import opened DirectoryData

  /** `GetValue(json, name)`: a property of a JSON object, or the default (`None`) when the text is
      null or empty (`json == None`) or the property is absent. */
  function GetValue<V>(json: Option<map<string, V>>, name: string): (r: Option<V>)
    ensures r.Some? <==> json.Some? && name in json.value
    ensures r.Some? ==> r.value == json.value[name]
  {
    if json.None? then None
    else if name in json.value then Some(json.value[name])
    else None
  }

  /** Setting a property and reading it back gives the value set; other properties read as before. */
  lemma GetValueAfterSet<V>(props: map<string, V>, name: string, v: V, other: string)
    ensures GetValue(Some(props[name := v]), name) == Some(v)
    ensures other != name ==> GetValue(Some(props[name := v]), other) == GetValue(Some(props), other)
  {
  }

  // ---------------------------------------------------------------------------------------
  // `@odata.nextLink` pagination in `CallGraphApiOnBehalfOfUser<T>`

  /** A reply to one page request: the page's `value` array and `@odata.nextLink` (each absent
      when the reply has no such property), or a body that cannot be parsed, which throws. */
  datatype Reply<T> = Page(value: Option<seq<T>>, nextLink: Option<string>) | Unreadable

  /** What a readable page adds to the result: its `value`, or nothing when it has none. */
  function Items<T>(p: Reply<T>): seq<T>
    requires p.Page?
  {
    p.value.GetOr([])
  }

  /** Prefix `acc` to a result that may be null. */
  function Prepend<T>(acc: seq<T>, rest: Option<seq<T>>): Option<seq<T>> {
    match rest
    case None => None
    case Some(more) => Some(acc + more)
  }

  lemma PrependPrepend<T>(acc: seq<T>, here: seq<T>, rest: Option<seq<T>>)
    ensures Prepend(acc, Prepend(here, rest)) == Prepend(acc + here, rest)
  {
    if rest.Some? {
      assert acc + (here + rest.value) == (acc + here) + rest.value;
    }
  }

  /** The items of the pages from `replies[i]` on, each page requested because the one before it
      carried a next link. A non-success status does not throw: the GET hands back the error
      body, which has no `value` and no next link, so it reads as `Page(None, None)`. Running out
      of replies (a transport failure) or an unparseable body throws, and the catch makes the
      whole result null (`None`). */
  function FollowLinks<T>(replies: seq<Reply<T>>, i: nat): Option<seq<T>>
    decreases |replies| - i
  {
    if i >= |replies| then None
    else match replies[i]
      case Unreadable => None
      case Page(_, next) =>
        if next.None? then Some(Items(replies[i]))
        else Prepend(Items(replies[i]), FollowLinks(replies, i + 1))
  }

  /** The paginated result as a definition: nothing when the first page has no `value`,
      otherwise the first page's items followed by those of every page the links reach. */
  function Paginate<T>(replies: seq<Reply<T>>): Option<seq<T>> {
    if |replies| == 0 || replies[0].Unreadable? then None
    else if replies[0].value.None? then Some([])
    else if replies[0].nextLink.None? then Some(replies[0].value.value)
    else Prepend(replies[0].value.value, FollowLinks(replies, 1))
  }

  /** `CallGraphApiOnBehalfOfUser<T>`: request the first page, then follow next links until a page
      has none, collecting every page's `value`. `replies[i]` is the reply to the `i`-th request;
      `requests` counts the requests sent. */
  method CallGraphApiOnBehalfOfUser<T>(replies: seq<Reply<T>>) returns (members: Option<seq<T>>, requests: nat)
    ensures members == Paginate(replies)
    ensures 1 <= requests
    ensures |replies| > 0 && replies[0].Page? && replies[0].value.None? ==> members == Some([]) && requests == 1
  {
    requests := 1;
    if |replies| == 0 || replies[0].Unreadable? {
      return None, requests;
    }
    if replies[0].value.None? {
      return Some([]), requests;
    }
    var acc := replies[0].value.value;
    var next := replies[0].nextLink;
    var i: nat := 1;
    while next.Some?
      invariant 1 <= i <= |replies| + 1
      invariant next.Some? ==> i <= |replies|
      invariant Paginate(replies) == if next.Some? then Prepend(acc, FollowLinks(replies, i)) else Some(acc)
      decreases |replies| - i + 1, next.Some?
    {
      requests := requests + 1;
      if i == |replies| || replies[i].Unreadable? {
        return None, requests;
      }
      PrependPrepend(acc, Items(replies[i]), FollowLinks(replies, i + 1));
      next := replies[i].nextLink;
      if replies[i].value.Some? {
        acc := acc + replies[i].value.value;
      } else {
        assert acc + Items(replies[i]) == acc;
      }
      i := i + 1;
    }
    members := Some(acc);
  }

  /** The pages a next-link chain visits: every page before `last` links onward, `last` does not. */
  ghost predicate ChainEndsAt<T>(replies: seq<Reply<T>>, last: nat) {
    && last < |replies|
    && (forall i :: 0 <= i <= last ==> replies[i].Page?)
    && (forall i :: 0 <= i < last ==> replies[i].nextLink.Some?)
    && replies[last].nextLink.None?
  }

  /** The items of readable pages, in page order. */
  function AllItems<T>(pages: seq<Reply<T>>): seq<T>
    requires forall i :: 0 <= i < |pages| ==> pages[i].Page?
  {
    if |pages| == 0 then [] else Items(pages[0]) + AllItems(pages[1..])
  }

  lemma {:induction false} FollowLinksCollects<T>(replies: seq<Reply<T>>, i: nat, last: nat)
    requires ChainEndsAt(replies, last)
    requires i <= last
    ensures FollowLinks(replies, i) == Some(AllItems(replies[i..last + 1]))
    decreases last - i
  {
    assert replies[i..last + 1][0] == replies[i];
    if i < last {
      assert replies[i..last + 1][1..] == replies[i + 1..last + 1];
      FollowLinksCollects(replies, i + 1, last);
    } else {
      assert replies[i..last + 1][1..] == [];
      assert Items(replies[i]) + [] == Items(replies[i]);
    }
  }

  /** When the first page has a `value` and the chain of links ends, the result is the
      concatenation of the `value` arrays of all pages of the chain, in page order; a later page
      without `value` adds nothing but its link is still followed. */
  lemma PaginateConcatenates<T>(replies: seq<Reply<T>>, last: nat)
    requires ChainEndsAt(replies, last)
    requires replies[0].value.Some?
    ensures Paginate(replies) == Some(AllItems(replies[..last + 1]))
  {
    assert replies[..last + 1][0] == replies[0];
    if last == 0 {
      assert replies[..last + 1][1..] == [];
      assert Items(replies[0]) + [] == Items(replies[0]);
    } else {
      assert replies[..last + 1][1..] == replies[1..last + 1];
      FollowLinksCollects(replies, 1, last);
    }
  }

  /** A reply that cannot be read anywhere along the chain makes the whole result null. */
  lemma {:induction false} UnreadablePageFails<T>(replies: seq<Reply<T>>, i: nat, bad: nat)
    requires i <= bad < |replies|
    requires forall t :: i <= t < bad ==> replies[t].Page? && replies[t].nextLink.Some?
    requires replies[bad].Unreadable?
    ensures FollowLinks(replies, i) == None
    decreases bad - i
  {
    if i < bad {
      UnreadablePageFails(replies, i + 1, bad);
    }
  }

  // ---------------------------------------------------------------------------------------
  // The per-part status fold in `CallBatchWebApiOnBehalfOfUserAsync`

  /** HTTP 429, "too many requests". */
  const TooManyRequests: int := 429

  /** `IsSuccessStatusCode`: a status in 200..299. */
  predicate IsSuccessStatus(status: int) {
    200 <= status <= 299
  }

  /** One part of a multipart batch reply: its media type, and the status and parsed body of the
      HTTP response it carries. */
  datatype Part<T> = Part(mediaType: string, status: int, body: T)

  /** The reply to the multipart batch request: its own status and its parts. */
  datatype MultipartReply<T> = MultipartReply(status: int, parts: seq<Part<T>>)

  /** The media type of a part that carries an HTTP response, in lower case. */
  const HttpMediaType: string := "application/http"

  /** Only parts whose media type is `application/http` ignoring case are read: the constant is in
      lower case, so comparing the lowered media type with it is the ignore-case comparison. */
  predicate IsHttpPart<T>(p: Part<T>) {
    Lower(p.mediaType) == HttpMediaType
  }

  /** A read part whose response succeeded: its body is collected. */
  predicate Collected<T>(p: Part<T>) {
    IsHttpPart(p) && IsSuccessStatus(p.status)
  }

  /** A read part throttled with 429: reading stops there. */
  predicate Throttled<T>(p: Part<T>) {
    IsHttpPart(p) && p.status == TooManyRequests
  }

  /** The fold as a definition: the bodies of the successful parts up to the first throttled one. */
  function CollectedBodies<T>(parts: seq<Part<T>>): seq<T> {
    if |parts| == 0 then []
    else if Collected(parts[0]) then [parts[0].body] + CollectedBodies(parts[1..])
    else if Throttled(parts[0]) then []
    else CollectedBodies(parts[1..])
  }

  /** `CallBatchWebApiOnBehalfOfUserAsync`: with no access token nothing is sent and the result is
      empty; a failed batch (429 or otherwise) gives an empty result; otherwise the bodies of the
      successful parts are collected in order until the first throttled part. */
  method CallBatchWebApiOnBehalfOfUser<T>(accessToken: Option<string>, reply: MultipartReply<T>)
    returns (results: seq<T>, sent: bool)
    ensures sent <==> accessToken.Some? && accessToken.value != ""
    ensures !sent || !IsSuccessStatus(reply.status) ==> results == []
    ensures sent && IsSuccessStatus(reply.status) ==> results == CollectedBodies(reply.parts)
  {
    results := [];
    sent := accessToken.Some? && accessToken.value != "";
    if !sent || !IsSuccessStatus(reply.status) {
      return;
    }
    var parts := reply.parts;
    var i := 0;
    while i < |parts|
      invariant i <= |parts|
      invariant CollectedBodies(parts) == results + CollectedBodies(parts[i..])
    {
      assert parts[i..][1..] == parts[i + 1..];
      var part := parts[i];
      if IsHttpPart(part) {
        if IsSuccessStatus(part.status) {
          results := results + [part.body];
        } else if part.status == TooManyRequests {
          break;
        }
      }
      i := i + 1;
    }
  }

  /** Every collected body comes from a successful `application/http` part, and there are no
      more of them than parts. */
  lemma {:induction false} CollectedBodiesFromSuccessfulParts<T>(parts: seq<Part<T>>)
    ensures |CollectedBodies(parts)| <= |parts|
    ensures forall x :: x in CollectedBodies(parts) ==>
              exists i :: 0 <= i < |parts| && Collected(parts[i]) && parts[i].body == x
  {
    if |parts| > 0 {
      CollectedBodiesFromSuccessfulParts(parts[1..]);
      forall x | x in CollectedBodies(parts)
        ensures exists i :: 0 <= i < |parts| && Collected(parts[i]) && parts[i].body == x
      {
        if !(Collected(parts[0]) && x == parts[0].body) {
          var i :| 0 <= i < |parts[1..]| && Collected(parts[1..][i]) && parts[1..][i].body == x;
          assert parts[i + 1] == parts[1..][i];
        }
      }
    }
  }

  /** Reading is sequential: parts before any throttled part contribute their successful bodies,
      and then the rest is read on. */
  lemma {:induction false} CollectedBodiesAppend<T>(a: seq<Part<T>>, b: seq<Part<T>>)
    requires forall i :: 0 <= i < |a| ==> !Throttled(a[i])
    ensures CollectedBodies(a + b) == CollectedBodies(a) + CollectedBodies(b)
  {
    if |a| == 0 {
      assert a + b == b;
    } else {
      assert (a + b)[1..] == a[1..] + b;
      CollectedBodiesAppend(a[1..], b);
    }
  }

  /** The first throttled part ends the reading: nothing after it is collected. */
  lemma CollectedBodiesStopAtThrottle<T>(parts: seq<Part<T>>, k: nat)
    requires k < |parts| && Throttled(parts[k])
    requires forall i :: 0 <= i < k ==> !Throttled(parts[i])
    ensures CollectedBodies(parts) == CollectedBodies(parts[..k])
  {
    var before, rest := parts[..k], parts[k..];
    assert forall i :: 0 <= i < |before| ==> before[i] == parts[i];
    assert rest[0] == parts[k];
    assert CollectedBodies(rest) == [];
    CollectedBodiesAppend(before, rest);
    assert before + rest == parts;
  }

  // ---------------------------------------------------------------------------------------
  // `CallGraphApiPostOnBehalfOfUser`

  /** What `CallGraphApiPostOnBehalfOfUser` hands back for a JSON batch: the `responses` property of
      a successful reply (null when the reply has none), or the text of a failed reply, which the
      callers then fail to use as a list of responses. */
  datatype PostOutcome = Responses(responses: Option<seq<BatchResponse>>) | ErrorText(content: string)

  /** `CallGraphApiPostOnBehalfOfUser` over the reply's status, `responses` property and text. */
  function CallGraphApiPost(status: int, responses: Option<seq<BatchResponse>>, content: string): (r: PostOutcome)
    ensures r.Responses? <==> IsSuccessStatus(status)
    ensures r.Responses? ==> r.responses == responses
    ensures r.ErrorText? ==> r.content == content
  {
    if IsSuccessStatus(status) then Responses(responses) else ErrorText(content)
  }
}

=== FILE: list_extensions.dfy ===
/** `ListExtensions.SplitList`: cut a list into consecutive batches of a fixed size.
    The backend calls it with 19 (presence batches) and 5 (group batches); the client's
    `chunk(..., 40)` behaves the same way. */
module ListExtensions {
  import opened Wrappers

  /** The batch size `SplitList` uses when the caller gives none. */
  const DefaultBatchSize: nat := 40

  /** Concatenation of a list of lists, in order. */
  function Flatten<T>(chunks: seq<seq<T>>): seq<T> {
    if |chunks| == 0 then [] else chunks[0] + Flatten(chunks[1..])
  }

  lemma FlattenAppend<T>(a: seq<seq<T>>, b: seq<seq<T>>)
    ensures Flatten(a + b) == Flatten(a) + Flatten(b)
  {
    if |a| > 0 {
      assert (a + b)[0] == a[0];
      assert (a + b)[1..] == a[1..] + b;
      FlattenAppend(a[1..], b);
    } else {
      assert a + b == b;
    }
  }

  /** Reference definition of the batches: a full batch of `size` elements while more than
      `size` remain, then the remainder as one last batch; nothing for an empty list. */
  function Chunks<T>(source: seq<T>, size: nat): seq<seq<T>>
    requires size > 0
    decreases |source|
  {
    if |source| == 0 then []
    else if |source| <= size then [source]
    else [source[..size]] + Chunks(source[size..], size)
  }

  /** Every batch is non-empty and holds at most `size` elements; all but the last hold exactly `size`. */
  ghost predicate WellShaped<T>(chunks: seq<seq<T>>, size: nat) {
    && (forall i :: 0 <= i < |chunks| ==> 0 < |chunks[i]| <= size)
    && (forall i :: 0 <= i < |chunks| - 1 ==> |chunks[i]| == size)
  }

  /** Number of batches for `n` elements: the ceiling of `n / size`. */
  function BatchCount(n: nat, size: nat): nat
    requires size > 0
  {
    (n + size - 1) / size
  }

  /** Concatenating the batches in order gives back the source list. */
  lemma {:induction false} ChunksFlatten<T>(source: seq<T>, size: nat)
    requires size > 0
    ensures Flatten(Chunks(source, size)) == source
    decreases |source|
  {
    if |source| == 0 {
    } else if |source| <= size {
      assert Flatten([source]) == source + Flatten([source][1..]);
    } else {
      var rest := Chunks(source[size..], size);
      ChunksFlatten(source[size..], size);
      assert Flatten([source[..size]] + rest) == source[..size] + Flatten(rest);
      assert source[..size] + source[size..] == source;
    }
  }

  lemma {:induction false} ChunksWellShaped<T>(source: seq<T>, size: nat)
    requires size > 0
    ensures WellShaped(Chunks(source, size), size)
    decreases |source|
  {
    if |source| > size {
      ChunksWellShaped(source[size..], size);
      var c := Chunks(source, size);
      var rest := Chunks(source[size..], size);
      assert c == [source[..size]] + rest;
      forall i | 0 <= i < |c|
        ensures 0 < |c[i]| <= size
      {
        if i > 0 { assert c[i] == rest[i - 1]; }
      }
      forall i | 0 <= i < |c| - 1
        ensures |c[i]| == size
      {
        if i > 0 { assert c[i] == rest[i - 1]; }
      }
    }
  }

  lemma DivAddOne(x: nat, d: nat)
    requires d > 0
    ensures (x + d) / d == x / d + 1
  {
    var q, r := x / d, x % d;
    assert x == q * d + r && 0 <= r < d;
    assert x + d == (q + 1) * d + r;
    DivUnique(x + d, d, q + 1, r);
  }

  lemma MulLe(a: nat, b: nat, d: nat)
    requires a <= b
    ensures a * d <= b * d
  {
    assert b * d == a * d + (b - a) * d;
  }

  lemma DivUnique(x: nat, d: nat, q: nat, r: nat)
    requires d > 0 && 0 <= r < d && x == q * d + r
    ensures x / d == q
  {
    var q', r' := x / d, x % d;
    assert x == q' * d + r' && r' < d;
    assert (q' + 1) * d == q' * d + d;
    assert (q + 1) * d == q * d + d;
    if q' < q {
      MulLe(q' + 1, q, d);
      assert false;
    } else if q' > q {
      MulLe(q + 1, q', d);
      assert false;
    }
  }

  lemma CeilStep(n: nat, size: nat)
    requires size > 0 && n > size
    ensures BatchCount(n, size) == 1 + BatchCount(n - size, size)
  {
    var m := n - size;
    assert n + size - 1 == (m + size - 1) + size;
    DivAddOne(m + size - 1, size);
  }

  lemma CeilSingle(n: nat, size: nat)
    requires 0 < n <= size
    ensures BatchCount(n, size) == 1
  {
    DivUnique(n + size - 1, size, 1, n - 1);
  }

  /** There are ceil(|source| / size) batches, so none for an empty source. */
  lemma {:induction false} ChunksCount<T>(source: seq<T>, size: nat)
    requires size > 0
    ensures |Chunks(source, size)| == BatchCount(|source|, size)
    decreases |source|
  {
    if |source| == 0 {
      DivUnique(size - 1, size, 0, size - 1);
    } else if |source| <= size {
      CeilSingle(|source|, size);
    } else {
      ChunksCount(source[size..], size);
      CeilStep(|source|, size);
    }
  }

  function Min(a: int, b: int): int {
    if a < b then a else b
  }

  /** One turn of the `SplitList` loop: the batch at `i` followed by the batches from `i + size`. */
  lemma ChunksStep<T>(source: seq<T>, i: nat, size: nat)
    requires size > 0 && i < |source|
    ensures Chunks(source[i..], size)
         == [source[i..i + Min(size, |source| - i)]] + Chunks(source[Min(i + size, |source|)..], size)
  {
    var rest := source[i..];
    if |rest| > size {
      assert rest[..size] == source[i..i + size];
      assert rest[size..] == source[i + size..];
    } else {
      assert rest == source[i..i + (|source| - i)];
      assert Chunks(source[|source|..], size) == [];
    }
  }

  /** The loop invariant of `SplitList` survives one turn. */
  lemma SplitListStep<T>(source: seq<T>, i: nat, size: nat, done: seq<seq<T>>)
    requires size > 0 && i < |source|
    requires done + Chunks(source[i..], size) == Chunks(source, size)
    ensures (done + [source[i..i + Min(size, |source| - i)]]) + Chunks(source[Min(i + size, |source|)..], size)
         == Chunks(source, size)
  {
    ChunksStep(source, i, size);
    var batch := [source[i..i + Min(size, |source| - i)]];
    var next := Chunks(source[Min(i + size, |source|)..], size);
    assert done + (batch + next) == (done + batch) + next;
  }

  /** `SplitList(source, nSize)`: the loop of the source, stepping `i` by `nSize` and taking
      `Min(nSize, Count - i)` elements at `i`. A non-positive size with a non-empty list makes the
      source loop forever (zero) or throw (negative), so such a call is excluded. */
  method SplitList<T>(source: seq<T>, nSize: int) returns (batches: seq<seq<T>>)
    requires nSize > 0 || |source| == 0
    ensures Flatten(batches) == source
    ensures nSize > 0 ==> WellShaped(batches, nSize)
    ensures |source| == 0 ==> batches == []
    ensures nSize > 0 ==> |batches| == BatchCount(|source|, nSize)
    ensures nSize > 0 ==> batches == Chunks(source, nSize)
  {
    batches := [];
    if |source| == 0 {
      return;
    }
    var n: nat := nSize;
    var i: nat := 0;
    while i < |source|
      invariant batches + Chunks(source[Min(i, |source|)..], n) == Chunks(source, n)
    {
      var take := Min(n, |source| - i);
      SplitListStep(source, i, n, batches);
      batches := batches + [source[i..i + take]];
      i := i + n;
    }
    SplitListDone(source, n, i, batches);
  }

  /** When the `SplitList` loop ends, the batches built are the reference batches. */
  lemma SplitListDone<T>(source: seq<T>, size: nat, i: nat, batches: seq<seq<T>>)
    requires size > 0 && i >= |source|
    requires batches + Chunks(source[Min(i, |source|)..], size) == Chunks(source, size)
    ensures batches == Chunks(source, size)
    ensures Flatten(batches) == source
    ensures WellShaped(batches, size)
    ensures |batches| == BatchCount(|source|, size)
  {
    assert source[Min(i, |source|)..] == [];
    assert batches + [] == batches;
    ChunksFlatten(source, size);
    ChunksWellShaped(source, size);
    ChunksCount(source, size);
  }

  /** `SplitList` with the default size. */
  method SplitListDefault<T>(source: seq<T>) returns (batches: seq<seq<T>>)
    ensures Flatten(batches) == source
    ensures WellShaped(batches, DefaultBatchSize)
    ensures |batches| == BatchCount(|source|, DefaultBatchSize)
  {
    batches := SplitList(source, DefaultBatchSize);
  }

  /** Every element of a flattened table sits in some row. */
  lemma {:induction false} FlattenMember<T>(rows: seq<seq<T>>, x: T)
    requires x in Flatten(rows)
    ensures exists k, j :: 0 <= k < |rows| && 0 <= j < |rows[k]| && rows[k][j] == x
  {
    if |rows| > 0 {
      if x in rows[0] {
        var j :| 0 <= j < |rows[0]| && rows[0][j] == x;
        assert rows[0][j] == x;
      } else {
        FlattenMember(rows[1..], x);
        var k, j :| 0 <= k < |rows[1..]| && 0 <= j < |rows[1..][k]| && rows[1..][k][j] == x;
        assert rows[k + 1][j] == x;
      }
    }
  }

  /** `List.Find(match)` / `Array.find`: the first element that matches, or null. */
  function FindFirst<R>(items: seq<R>, matches: R -> bool): (r: Option<R>)
    ensures r.None? <==> forall i :: 0 <= i < |items| ==> !matches(items[i])
    ensures r.Some? ==> matches(r.value) && r.value in items
    ensures r.Some? ==> exists i :: 0 <= i < |items| && items[i] == r.value &&
                          forall t :: 0 <= t < i ==> !matches(items[t])
  {
    if |items| == 0 then None
    else if matches(items[0]) then Some(items[0])
    else
      var rest := FindFirst(items[1..], matches);
      assert forall i :: 1 <= i < |items| ==> items[i] == items[1..][i - 1];
      rest
  }

  /** The elements of `xs` that satisfy `p`, in order (`Where`, `filter`). */
  function Filter<T>(p: T -> bool, xs: seq<T>): (r: seq<T>)
    ensures |r| <= |xs|
    ensures forall i :: 0 <= i < |r| ==> r[i] in xs && p(r[i])
    ensures forall i :: 0 <= i < |xs| && p(xs[i]) ==> xs[i] in r
  {
    if |xs| == 0 then []
    else
      assert forall i :: 1 <= i < |xs| ==> xs[i] == xs[1..][i - 1];
      (if p(xs[0]) then [xs[0]] else []) + Filter(p, xs[1..])
  }

  /** The filter goes element by element and keeps order and repeats: a concatenation filters to
      the two parts' results in turn, and one element stays exactly when it satisfies `p`. */
  lemma {:induction false} FilterAppend<T>(p: T -> bool, a: seq<T>, b: seq<T>)
    ensures Filter(p, a + b) == Filter(p, a) + Filter(p, b)
    ensures forall x :: Filter(p, [x]) == if p(x) then [x] else []
  {
    forall x
      ensures Filter(p, [x]) == if p(x) then [x] else []
    {
      assert [x][1..] == [];
    }
    FilterConcat(p, a, b);
  }

  /** A filter every element passes changes nothing. */
  lemma {:induction false} FilterKeepsAll<T>(p: T -> bool, xs: seq<T>)
    requires forall i :: 0 <= i < |xs| ==> p(xs[i])
    ensures Filter(p, xs) == xs
  {
    if |xs| > 0 {
      FilterKeepsAll(p, xs[1..]);
      assert xs == [xs[0]] + xs[1..];
    }
  }

  /** Filters whose tests agree on every element give the same result. */
  lemma {:induction false} FilterAgrees<T>(p: T -> bool, q: T -> bool, xs: seq<T>)
    requires forall i :: 0 <= i < |xs| ==> p(xs[i]) == q(xs[i])
    ensures Filter(p, xs) == Filter(q, xs)
  {
    if |xs| > 0 {
      FilterAgrees(p, q, xs[1..]);
    }
  }

  lemma {:induction false} FilterConcat<T>(p: T -> bool, a: seq<T>, b: seq<T>)
    ensures Filter(p, a + b) == Filter(p, a) + Filter(p, b)
  {
    if |a| == 0 {
      assert a + b == b;
    } else {
      assert (a + b)[0] == a[0];
      assert (a + b)[1..] == a[1..] + b;
      FilterConcat(p, a[1..], b);
    }
  }

  /** The present results of `f` over `xs`, in order; an element whose result is absent
      contributes nothing. */
  function Present<A, B>(f: A -> Option<B>, xs: seq<A>): seq<B> {
    if |xs| == 0 then [] else (if f(xs[0]).Some? then [f(xs[0]).value] else []) + Present(f, xs[1..])
  }

  lemma {:induction false} PresentFacts<A, B>(f: A -> Option<B>, xs: seq<A>)
    ensures |Present(f, xs)| <= |xs|
    ensures forall y :: y in Present(f, xs) ==> exists i :: 0 <= i < |xs| && f(xs[i]) == Some(y)
    ensures forall i :: 0 <= i < |xs| && f(xs[i]).Some? ==> f(xs[i]).value in Present(f, xs)
  {
    if |xs| > 0 {
      PresentFacts(f, xs[1..]);
      assert forall i :: 1 <= i < |xs| ==> xs[i] == xs[1..][i - 1];
    }
  }

  lemma PresentOne<A, B>(f: A -> Option<B>, x: A)
    ensures Present(f, [x]) == if f(x).Some? then [f(x).value] else []
  {
    assert [x][1..] == [];
  }

  lemma {:induction false} PresentConcat<A, B>(f: A -> Option<B>, a: seq<A>, b: seq<A>)
    ensures Present(f, a + b) == Present(f, a) + Present(f, b)
  {
    if |a| == 0 {
      assert a + b == b;
    } else {
      assert (a + b)[0] == a[0];
      assert (a + b)[1..] == a[1..] + b;
      PresentConcat(f, a[1..], b);
    }
  }

  /** A table whose rows all have length `n` flattens to `|rows| * n` elements. */
  lemma {:induction false} FlattenLength<T>(rows: seq<seq<T>>, n: nat)
    requires forall k :: 0 <= k < |rows| ==> |rows[k]| == n
    ensures |Flatten(rows)| == |rows| * n
  {
    if |rows| > 0 {
      FlattenLength(rows[1..], n);
      assert |rows| * n == n + (|rows| - 1) * n;
    }
  }
}

=== FILE: member_pins.dfy ===
/** Members a user pinned inside a distribution list: `FavoriteDistributionListMemberDataRepository`
    (the pin rows, and the member listing with each member's pin marked) and
    `DistributionListMembersController` (list, pin, unpin). */
module MemberPins {
  import opened Wrappers
  import opened Text
  import opened DirectoryData
  import opened TableStore
  import opened ListExtensions

  /** A pin row (`FavoriteDistributionListMemberTableEntity`): partition key = the user, row key =
      the pinned member's id followed by the list's id, both lower-cased at creation; the list
      id is also kept as sent. */
  datatype PinEntity = PinEntity(userPrincipalName: string, distributionListMemberId: string, distributionListId: string)

  function EntityKey(e: PinEntity): Key {
    Key(e.userPrincipalName, e.distributionListMemberId)
  }

  type PinTable = Table<PinEntity>

  /** Every row sits under its own keys, and those keys are in lower case, as every write makes
      them. */
  ghost predicate TableWellFormed(table: PinTable) {
    forall k :: k in table ==> EntityKey(table[k]) == k && IsLowerCase(k.partition) && IsLowerCase(k.row)
  }

  /** What the client sends to pin or unpin (`FavoriteDistributionListMemberData`). */
  datatype PinData = PinData(pinnedUserId: string, distributionListId: string, userPrincipalName: string)

  /** The row written for a pin (`CreateOrUpdateFavoriteDistributionListMemberDataAsync`). */
  function ToEntity(data: PinData): (e: PinEntity)
    ensures IsLowerCase(e.userPrincipalName) && IsLowerCase(e.distributionListMemberId)
    ensures e.userPrincipalName == Lower(data.userPrincipalName)
    ensures e.distributionListMemberId == Lower(data.pinnedUserId + data.distributionListId)
    ensures e.distributionListId == data.distributionListId
  {
    LowerIsLowerCase(data.userPrincipalName);
    LowerIsLowerCase(data.pinnedUserId + data.distributionListId);
    PinEntity(Lower(data.userPrincipalName), Lower(data.pinnedUserId + data.distributionListId), data.distributionListId)
  }

  /** The key a pin is stored under. */
  function PinKey(caller: string, data: PinData): Key {
    Key(Lower(caller), Lower(data.pinnedUserId + data.distributionListId))
  }

  /** The POST: store the pin for the caller, whatever user the body names. */
  function Pin(table: PinTable, caller: string, data: PinData): (r: PinTable)
    ensures TableWellFormed(table) ==> TableWellFormed(r)
    ensures PinKey(caller, data) in r
    ensures r[PinKey(caller, data)] == PinEntity(Lower(caller), Lower(data.pinnedUserId + data.distributionListId), data.distributionListId)
    ensures forall k :: k != PinKey(caller, data) ==> (k in r <==> k in table)
    ensures forall k :: k != PinKey(caller, data) && k in table ==> r[k] == table[k]
  {
    LowerIdempotent(caller);
    var e := ToEntity(data.(userPrincipalName := Lower(caller)));
    CreateOrUpdate(table, EntityKey(e), e)
  }

  /** The DELETE: look the pin up by the caller and member id + list id (lower-cased by the
      lookup), and delete it when found. The answer is OK either way; it is an error only when the
      table service refuses the delete, which a well-formed table never makes it do. */
  function Unpin(table: PinTable, caller: string, data: PinData): (r: Result<PinTable, string>)
    ensures TableWellFormed(table) ==> r.Success?
    ensures PinKey(caller, data) !in table ==> r == Success(table)
    ensures TableWellFormed(table) && PinKey(caller, data) in table ==> r.value == table - {PinKey(caller, data)}
  {
    LowerIdempotent(caller);
    var found := Get(table, Lower(caller), data.pinnedUserId + data.distributionListId);
    if found.None? then Success(table)
    else match Delete(table, EntityKey(found.value))
      case None => Failure("the table service refused the delete")
      case Some(t) => Success(t)
  }

  /** Pinning and then unpinning the same member restores the table: both sides lower-case the
      keys, so unlike a favourite list the round trip holds for every id. */
  lemma PinThenUnpin(table: PinTable, caller: string, data: PinData, other: PinData)
    requires TableWellFormed(table)
    requires PinKey(caller, data) !in table
    requires other.pinnedUserId == data.pinnedUserId && other.distributionListId == data.distributionListId
    ensures Unpin(Pin(table, caller, data), caller, other) == Success(table)
  {
    assert PinKey(caller, other) == PinKey(caller, data);
    assert Pin(table, caller, data) - {PinKey(caller, data)} == table;
  }

  // ---------------------------------------------------------------------------------------
  // `GetDistributionListMembersDataAsync`

  /** The row keys of the caller's pins (`GetAllAsync(userPrincipalName.ToLower())`). */
  function PinnedKeys(table: PinTable, caller: string): (r: set<string>)
    ensures IsBlank(caller) ==> r == {}
    ensures !IsBlank(caller) ==> forall row :: row in r <==> Key(Lower(caller), row) in table
  {
    LowerIdempotent(caller);
    LowerKeepsBlank(caller);
    set k | k in GetAll(table, Some(Lower(caller))) :: k.row
  }

  /** A member is marked pinned when one of the caller's rows has exactly the member's id followed
      by the list id as its key; a flag already set stays set. */
  function Mark(member: DistributionListMember, groupId: string, pinned: set<string>): (r: DistributionListMember)
    ensures r == member.(isPinned := r.isPinned)
    ensures r.isPinned <==> member.isPinned || member.id + groupId in pinned
  {
    if member.id + groupId in pinned then member.(isPinned := true) else member
  }

  /** The members the listing keeps: nested groups (exact `@odata.type`) and tenant members
      (`userType` ignoring case). */
  predicate IsListedMember(m: DistributionListMember) {
    m.odataType == Some(GroupType) || MatchesIgnoreCase(m.userType, MemberUserType)
  }

  /** What the listing makes of one member: the member marked when it is kept, else nothing. */
  function Keeper(groupId: string, pinned: set<string>): DistributionListMember -> Option<DistributionListMember> {
    m => if IsListedMember(m) then Some(Mark(m, groupId, pinned)) else None
  }

  /** Mark and filter a listing, keeping its order. */
  function MarkAndFilter(members: seq<DistributionListMember>, groupId: string, pinned: set<string>): (r: seq<DistributionListMember>)
    ensures |r| <= |members|
    ensures forall x :: x in r <==> exists i :: 0 <= i < |members| && IsListedMember(members[i]) && x == Mark(members[i], groupId, pinned)
  {
    PresentFacts(Keeper(groupId, pinned), members);
    Present(Keeper(groupId, pinned), members)
  }

  /** The filter keeps Graph's order and repeats: it works member by member, and a listing split
      in two is marked and filtered as the two halves one after the other. */
  lemma MarkAndFilterAppend(a: seq<DistributionListMember>, b: seq<DistributionListMember>, groupId: string, pinned: set<string>)
    ensures MarkAndFilter(a + b, groupId, pinned) == MarkAndFilter(a, groupId, pinned) + MarkAndFilter(b, groupId, pinned)
    ensures forall m :: MarkAndFilter([m], groupId, pinned) == if IsListedMember(m) then [Mark(m, groupId, pinned)] else []
  {
    forall m
      ensures MarkAndFilter([m], groupId, pinned) == if IsListedMember(m) then [Mark(m, groupId, pinned)] else []
    {
      PresentOne(Keeper(groupId, pinned), m);
    }
    PresentConcat(Keeper(groupId, pinned), a, b);
  }

  /** The GET: Graph's paginated member listing of the group (`None` when the helper failed and
      gave null, which makes the loop throw and the controller answer an empty list), each
      member marked with the caller's pins, then filtered. */
  function ListMembers(listing: Option<seq<DistributionListMember>>, groupId: string, table: PinTable, caller: string): (r: seq<DistributionListMember>)
    ensures listing.None? ==> r == []
    ensures listing.Some? ==> |r| <= |listing.value|
    ensures listing.Some? ==> forall x :: x in r <==>
              exists i :: 0 <= i < |listing.value| && IsListedMember(listing.value[i]) &&
                x == Mark(listing.value[i], groupId, PinnedKeys(table, caller))
  {
    if listing.None? then [] else MarkAndFilter(listing.value, groupId, PinnedKeys(table, caller))
  }

  /** The GET answers in Graph's order: a listing whose pages are `a` then `b` gives the kept
      members of `a`, marked, followed by those of `b`. */
  lemma ListMembersKeepsOrder(a: seq<DistributionListMember>, b: seq<DistributionListMember>, groupId: string, table: PinTable, caller: string)
    ensures ListMembers(Some(a + b), groupId, table, caller) ==
            ListMembers(Some(a), groupId, table, caller) + ListMembers(Some(b), groupId, table, caller)
  {
    MarkAndFilterAppend(a, b, groupId, PinnedKeys(table, caller));
  }

  /** A pin shows in the listing after it is made, when the member's id and the list id are in
      lower case: the row key is lowered when stored but compared as is when marking. */
  lemma PinShows(table: PinTable, caller: string, member: DistributionListMember, groupId: string, data: PinData)
    requires data.pinnedUserId == member.id && data.distributionListId == groupId
    requires !IsBlank(caller) && IsLowerCase(member.id + groupId)
    ensures Mark(member, groupId, PinnedKeys(Pin(table, caller, data), caller)).isPinned
  {
    LowerOfLowerCase(member.id + groupId);
    assert PinKey(caller, data) == Key(Lower(caller), member.id + groupId);
  }

  /** In a well-formed table no row key has an upper-case letter, so a member whose id and list id
      together have one is never marked from the table, pinned or not. */
  lemma MixedCaseNeverMarked(table: PinTable, caller: string, member: DistributionListMember, groupId: string)
    requires TableWellFormed(table)
    requires !IsLowerCase(member.id + groupId)
    ensures Mark(member, groupId, PinnedKeys(table, caller)).isPinned == member.isPinned
  {
  }

  /** Unpinning a member that is not pinned leaves the table as it was. */
  lemma UnpinMissingIsNoOp(table: PinTable, caller: string, data: PinData)
    requires PinKey(caller, data) !in table
    ensures Unpin(table, caller, data) == Success(table)
  {
  }
}

=== FILE: member_selection.dfy ===
/** The members page's selection for a group chat (`DistributionListMembers.tsx`): the row
    checkboxes, the select-all box, the list of members checked for the chat, and the chat link
    or the warning shown when too many are checked.

    The chat list holds row handles, in the order they were pushed. The intended invariant is
    `ChatInSync`: the chat list holds each checked user row once, and nothing else. */
module MemberSelection {
  import opened Wrappers
  import opened MembersView
  import opened ListExtensions

  /** A group chat takes at most eight users. */
  const GroupChatMembersLimit: nat := 8
  /** The answer of the warning dialog that trims the list and starts the chat. */
  const PositiveResponse: string := "YES"
  /** The availability kept when the list is trimmed. */
  const Online: string := "Online"
  const ChatLinkPrefix: string := "https://teams.microsoft.com/l/chat/0/0?users="

  /** The chat list refers to rows, holds each once, and holds exactly the checked user rows. */
  ghost predicate ChatInSync(v: View) {
    && ValidHandles(v.objects, v.chat)
    && Distinct(v.chat)
    && forall h: nat :: h < |v.objects| ==> (h in v.chat <==> v.objects[h].isSelected && !v.objects[h].isGroup)
  }

  /** Different user rows have different user principal names, as the directory guarantees. */
  ghost predicate UniqueUpns(objects: seq<Row>) {
    forall a, b :: 0 <= a < b < |objects| && !objects[a].isGroup && !objects[b].isGroup ==>
      objects[a].userPrincipalName != objects[b].userPrincipalName
  }

  // ---------------------------------------------------------------------------------------
  // JavaScript array helpers

  /** `findIndex(item => item.userPrincipalName === upn)`: the first position whose row has the
      name, or -1. */
  function FindIndexByUpn(objects: seq<Row>, chat: seq<nat>, upn: Option<string>): (r: int)
    ensures -1 <= r < |chat|
    ensures r == -1 <==> forall k :: 0 <= k < |chat| ==> !(chat[k] < |objects| && objects[chat[k]].userPrincipalName == upn)
    ensures r >= 0 ==> chat[r] < |objects| && objects[chat[r]].userPrincipalName == upn
    ensures r >= 0 ==> forall k :: 0 <= k < r ==> !(chat[k] < |objects| && objects[chat[k]].userPrincipalName == upn)
  {
    if |chat| == 0 then -1
    else if chat[0] < |objects| && objects[chat[0]].userPrincipalName == upn then 0
    else
      var k := FindIndexByUpn(objects, chat[1..], upn);
      if k == -1 then -1 else k + 1
  }

  /** `splice(start, 1)`: a negative start counts from the end (so -1 is the last element), and a
      start past the end removes nothing. */
  function Splice1(xs: seq<nat>, start: int): (r: seq<nat>)
    ensures start >= |xs| || start < -|xs| ==> r == xs
    ensures 0 <= start < |xs| ==> r == xs[..start] + xs[start + 1..]
    ensures -|xs| <= start < 0 ==> r == xs[..|xs| + start] + xs[|xs| + start + 1..]
  {
    var s := if start < 0 then (if |xs| + start < 0 then 0 else |xs| + start) else start;
    if s >= |xs| then xs
    else if start < -|xs| then xs
    else xs[..s] + xs[s + 1..]
  }

  /** Removing one position of a list without repeats removes exactly that element. */
  lemma RemoveAtDistinct(xs: seq<nat>, k: nat)
    requires Distinct(xs) && k < |xs|
    ensures var r := xs[..k] + xs[k + 1..];
            Distinct(r) && forall h :: h in r <==> h in xs && h != xs[k]
  {
    var r := xs[..k] + xs[k + 1..];
    forall i | 0 <= i < |r|
      ensures r[i] == (if i < k then xs[i] else xs[i + 1])
    {
    }
    forall h | h in xs && h != xs[k]
      ensures h in r
    {
      var i :| 0 <= i < |xs| && xs[i] == h;
      if i < k {
        assert r[i] == h;
      } else {
        assert r[i - 1] == h;
      }
    }
  }

  // ---------------------------------------------------------------------------------------
  // `checkboxChanged`

  /** One row's checkbox set to `checked`: a checked row is pushed on the chat list; an unchecked
      one is spliced out at the first position holding its user name. */
  function Toggle(objects: seq<Row>, chat: seq<nat>, h: nat, checked: bool): (r: (seq<Row>, seq<nat>))
    requires h < |objects|
    ensures r.0 == objects[h := objects[h].(isSelected := checked)]
    ensures checked ==> r.1 == chat + [h]
  {
    var objects' := objects[h := objects[h].(isSelected := checked)];
    if checked then (objects', chat + [h])
    else (objects', Splice1(chat, FindIndexByUpn(objects', chat, objects[h].userPrincipalName)))
  }

  /** The loop of `checkboxChanged` over the shown rows: every row with the clicked id is set. */
  function CheckboxFold(objects: seq<Row>, chat: seq<nat>, hs: seq<nat>, id: string, checked: bool): (r: (seq<Row>, seq<nat>))
    ensures |r.0| == |objects|
    ensures forall h :: 0 <= h < |objects| && (h !in hs || objects[h].id != id) ==> r.0[h] == objects[h]
    ensures forall h :: 0 <= h < |objects| && h in hs && objects[h].id == id ==>
              r.0[h] == objects[h].(isSelected := checked)
    decreases |hs|
  {
    if |hs| == 0 then (objects, chat)
    else
      var h := hs[0];
      var (o, c) := if h < |objects| && objects[h].id == id then Toggle(objects, chat, h, checked) else (objects, chat);
      assert forall x :: x in hs <==> x == h || x in hs[1..];
      assert |o| == |objects|;
      assert forall k :: 0 <= k < |objects| && (k != h || objects[k].id != id) ==> o[k] == objects[k];
      assert forall k :: 0 <= k < |objects| && k == h && objects[k].id == id ==> o[k] == objects[k].(isSelected := checked);
      CheckboxFold(o, c, hs[1..], id, checked)
  }

  /** Whether every shown row is checked, the value the select-all box takes. */
  predicate AllShownSelected(objects: seq<Row>, hs: seq<nat>) {
    forall i :: 0 <= i < |hs| ==> hs[i] < |objects| && objects[hs[i]].isSelected
  }

  /** `checkboxChanged`: set the rows with the clicked id, keep the chat list in step, and tick the
      select-all box exactly when every shown row is checked. Nothing else changes. */
  function CheckboxChanged(v: View, id: string, checked: bool): (r: View)
    requires WellFormed(v)
    ensures r.master == v.master && r.current == v.current && r.activePage == v.activePage
    ensures |r.objects| == |v.objects|
    ensures forall h :: 0 <= h < |v.objects| ==>
              r.objects[h] == (if h in v.current && v.objects[h].id == id then v.objects[h].(isSelected := checked) else v.objects[h])
    ensures r.isAllSelectChecked <==> AllShownSelected(r.objects, r.current)
  {
    var (objects, chat) := CheckboxFold(v.objects, v.chat, v.current, id, checked);
    v.(objects := objects, chat := chat, isAllSelectChecked := AllShownSelected(objects, v.current))
  }

  /** What a click on a shown, enabled checkbox sends: it flips the rows with that id, which are
      user rows (a group's checkbox is disabled). */
  ghost predicate ValidClick(objects: seq<Row>, hs: seq<nat>, id: string, checked: bool) {
    forall h :: h in hs && h < |objects| && objects[h].id == id ==>
      !objects[h].isGroup && objects[h].isSelected != checked
  }

  /** Unchecking a checked user row finds that very row on the chat list: no other user row
      has its name. */
  lemma UncheckFindsRow(v: View, h: nat)
    requires ChatInSync(v) && UniqueUpns(v.objects)
    requires h < |v.objects| && !v.objects[h].isGroup && v.objects[h].isSelected
    ensures var o := v.objects[h := v.objects[h].(isSelected := false)];
            var k := FindIndexByUpn(o, v.chat, v.objects[h].userPrincipalName);
            0 <= k < |v.chat| && v.chat[k] == h
  {
    var o := v.objects[h := v.objects[h].(isSelected := false)];
    var k := FindIndexByUpn(o, v.chat, v.objects[h].userPrincipalName);
    assert h in v.chat;
    var i :| 0 <= i < |v.chat| && v.chat[i] == h;
    assert o[h].userPrincipalName == v.objects[h].userPrincipalName;
    assert k >= 0;
    var x := v.chat[k];
    assert x in v.chat;
    assert o[x].userPrincipalName == v.objects[x].userPrincipalName;
  }

  /** The chat list after one row's checkbox: the row added or removed, everything else kept. */
  lemma ToggleChat(v: View, h: nat, checked: bool)
    requires ChatInSync(v) && UniqueUpns(v.objects)
    requires h < |v.objects| && !v.objects[h].isGroup && v.objects[h].isSelected != checked
    ensures var c := Toggle(v.objects, v.chat, h, checked).1;
            && Distinct(c)
            && forall x :: x in c <==> (x in v.chat && x != h) || (checked && x == h)
  {
    if checked {
      assert h !in v.chat;
    } else {
      UncheckFindsRow(v, h);
      var o := v.objects[h := v.objects[h].(isSelected := false)];
      var k := FindIndexByUpn(o, v.chat, v.objects[h].userPrincipalName);
      RemoveAtDistinct(v.chat, k);
    }
  }

  lemma ToggleKeepsSync(v: View, h: nat, checked: bool)
    requires ChatInSync(v) && UniqueUpns(v.objects)
    requires h < |v.objects| && !v.objects[h].isGroup && v.objects[h].isSelected != checked
    ensures var (o, c) := Toggle(v.objects, v.chat, h, checked);
            ChatInSync(v.(objects := o, chat := c)) && UniqueUpns(o)
  {
    var (o, c) := Toggle(v.objects, v.chat, h, checked);
    ToggleChat(v, h, checked);
    assert ValidHandles(o, c) by {
      forall i | 0 <= i < |c|
        ensures c[i] < |o|
      {
        assert c[i] in c;
      }
    }
  }

  lemma {:induction false} CheckboxFoldKeepsSync(v: View, hs: seq<nat>, id: string, checked: bool)
    requires ChatInSync(v) && UniqueUpns(v.objects)
    requires Distinct(hs) && ValidClick(v.objects, hs, id, checked)
    ensures var (o, c) := CheckboxFold(v.objects, v.chat, hs, id, checked);
            ChatInSync(v.(objects := o, chat := c)) && UniqueUpns(o)
    decreases |hs|
  {
    if |hs| > 0 {
      var h := hs[0];
      var rest := hs[1..];
      assert Distinct(rest);
      if h < |v.objects| && v.objects[h].id == id {
        var (o, c) := Toggle(v.objects, v.chat, h, checked);
        ToggleKeepsSync(v, h, checked);
        assert ValidClick(o, rest, id, checked) by {
          forall x | x in rest && x < |o| && o[x].id == id
            ensures !o[x].isGroup && o[x].isSelected != checked
          {
            assert x != h;
            assert x in hs;
          }
        }
        CheckboxFoldKeepsSync(v.(objects := o, chat := c), rest, id, checked);
      } else {
        assert ValidClick(v.objects, rest, id, checked);
        CheckboxFoldKeepsSync(v, rest, id, checked);
      }
    }
  }

  /** A click on a shown checkbox keeps the chat list in step with the checked rows. */
  lemma CheckboxKeepsSync(v: View, id: string, checked: bool)
    requires WellFormed(v) && ChatInSync(v) && UniqueUpns(v.objects)
    requires ValidClick(v.objects, v.current, id, checked)
    ensures ChatInSync(CheckboxChanged(v, id, checked))
  {
    CheckboxFoldKeepsSync(v, v.current, id, checked);
  }

  // ---------------------------------------------------------------------------------------
  // `selectAllCheckboxChanged`

  /** Whether a handle's row exists and is a user, not a nested group. */
  function IsUser(objects: seq<Row>): nat -> bool {
    (h: nat) => h < |objects| && !objects[h].isGroup
  }

  /** Ticking the select-all box as written: every shown user row is checked and pushed on the chat
      list, even one already on it. */
  function PushAll(objects: seq<Row>, chat: seq<nat>, hs: seq<nat>): (r: (seq<Row>, seq<nat>))
    ensures |r.0| == |objects|
    ensures forall h :: 0 <= h < |objects| ==>
              r.0[h] == (if h in hs && !objects[h].isGroup then objects[h].(isSelected := true) else objects[h])
    decreases |hs|
  {
    if |hs| == 0 then (objects, chat)
    else
      var h := hs[0];
      assert forall x :: x in hs <==> x == h || x in hs[1..];
      if h < |objects| && !objects[h].isGroup then
        PushAll(objects[h := objects[h].(isSelected := true)], chat + [h], hs[1..])
      else PushAll(objects, chat, hs[1..])
  }

  /** The chat list after ticking: the old list followed by every shown user row, in shown order,
      repeats included. */
  lemma {:induction false} PushAllAppends(objects: seq<Row>, chat: seq<nat>, hs: seq<nat>)
    ensures PushAll(objects, chat, hs).1 == chat + Filter(IsUser(objects), hs)
    decreases |hs|
  {
    if |hs| > 0 {
      var h := hs[0];
      var rest := Filter<nat>(IsUser(objects), hs[1..]);
      if h < |objects| && !objects[h].isGroup {
        var ticked := objects[h := objects[h].(isSelected := true)];
        assert Filter<nat>(IsUser(objects), hs) == [h] + rest;
        assert PushAll(objects, chat, hs) == PushAll(ticked, chat + [h], hs[1..]);
        PushAllAppends(ticked, chat + [h], hs[1..]);
        TickingKeepsUsers(objects, h, hs[1..]);
        assert (chat + [h]) + rest == chat + ([h] + rest);
      } else {
        assert Filter<nat>(IsUser(objects), hs) == rest;
        assert PushAll(objects, chat, hs) == PushAll(objects, chat, hs[1..]);
        PushAllAppends(objects, chat, hs[1..]);
      }
    }
  }

  /** Checking a row does not change which rows are users. */
  lemma TickingKeepsUsers(objects: seq<Row>, h: nat, hs: seq<nat>)
    requires h < |objects|
    ensures Filter(IsUser(objects[h := objects[h].(isSelected := true)]), hs) == Filter(IsUser(objects), hs)
  {
    var ticked := objects[h := objects[h].(isSelected := true)];
    forall i | 0 <= i < |hs|
      ensures IsUser(ticked)(hs[i]) == IsUser(objects)(hs[i])
    {
    }
    FilterAgrees(IsUser(ticked), IsUser(objects), hs);
  }


  /** Every shown row unchecked. */
  function ClearRows(objects: seq<Row>, hs: seq<nat>): (r: seq<Row>)
    ensures |r| == |objects|
    ensures forall h :: 0 <= h < |objects| ==>
              r[h] == (if h in hs then objects[h].(isSelected := false) else objects[h])
    decreases |hs|
  {
    if |hs| == 0 then objects
    else
      var h := hs[0];
      assert forall x :: x in hs <==> x == h || x in hs[1..];
      ClearRows(if h < |objects| then objects[h := objects[h].(isSelected := false)] else objects, hs[1..])
  }

  /** `selectAllCheckboxChanged` as written: ticking pushes every shown user row; clearing unchecks
      the shown rows and empties the whole chat list, rows hidden by a search included. */
  function SelectAll(v: View, checked: bool): (r: View)
    ensures r.master == v.master && r.current == v.current && r.activePage == v.activePage
    ensures r.isAllSelectChecked == checked
    ensures !checked ==> r.chat == []
    ensures checked ==> r.chat == v.chat + Filter(IsUser(v.objects), v.current)
    ensures |r.objects| == |v.objects|
    ensures forall h :: 0 <= h < |v.objects| ==>
              r.objects[h] == if h in v.current && (!checked || !v.objects[h].isGroup)
                              then v.objects[h].(isSelected := checked) else v.objects[h]
  {
    PushAllAppends(v.objects, v.chat, v.current);
    if checked then
      var (objects, chat) := PushAll(v.objects, v.chat, v.current);
      v.(objects := objects, chat := chat, isAllSelectChecked := true)
    else v.(objects := ClearRows(v.objects, v.current), chat := [], isAllSelectChecked := false)
  }

  /** Ticking the select-all box with the evident intent: only shown user rows not yet checked
      are checked and pushed. */
  function PushUnselected(objects: seq<Row>, chat: seq<nat>, hs: seq<nat>): (r: (seq<Row>, seq<nat>))
    ensures |r.0| == |objects|
    ensures forall h :: 0 <= h < |objects| ==>
              r.0[h] == (if h in hs && !objects[h].isGroup then objects[h].(isSelected := true) else objects[h])
    decreases |hs|
  {
    if |hs| == 0 then (objects, chat)
    else
      var h := hs[0];
      assert forall x :: x in hs <==> x == h || x in hs[1..];
      if h < |objects| && !objects[h].isGroup && !objects[h].isSelected then
        PushUnselected(objects[h := objects[h].(isSelected := true)], chat + [h], hs[1..])
      else if h < |objects| && !objects[h].isGroup then
        PushUnselected(objects[h := objects[h].(isSelected := true)], chat, hs[1..])
      else PushUnselected(objects, chat, hs[1..])
  }

  /** The chat list without the given rows, in order. */
  function Without(chat: seq<nat>, hs: seq<nat>): (r: seq<nat>)
    ensures |r| <= |chat|
    ensures forall x :: x in r <==> x in chat && x !in hs
  {
    if |chat| == 0 then []
    else
      assert forall x :: x in chat <==> x == chat[0] || x in chat[1..];
      (if chat[0] in hs then [] else [chat[0]]) + Without(chat[1..], hs)
  }

  lemma {:induction false} WithoutDistinct(chat: seq<nat>, hs: seq<nat>)
    requires Distinct(chat)
    ensures Distinct(Without(chat, hs))
  {
    if |chat| > 0 {
      assert Distinct(chat[1..]);
      WithoutDistinct(chat[1..], hs);
      assert chat[0] !in chat[1..];
    }
  }

  /** `selectAllCheckboxChanged` with the evident intent: ticking checks and pushes the shown user
      rows not yet on the chat list; clearing unchecks the shown rows and takes exactly those off
      the list, keeping rows a search hides. */
  function CorrectedSelectAll(v: View, checked: bool): (r: View)
    ensures r.master == v.master && r.current == v.current && r.activePage == v.activePage
    ensures r.isAllSelectChecked == checked
    ensures |r.objects| == |v.objects|
    ensures forall h :: 0 <= h < |v.objects| && h !in v.current ==> r.objects[h] == v.objects[h]
    ensures forall h :: 0 <= h < |v.objects| && h in v.current && !v.objects[h].isGroup ==>
              r.objects[h] == v.objects[h].(isSelected := checked)
    ensures forall h :: 0 <= h < |v.objects| && h in v.current && v.objects[h].isGroup ==>
              r.objects[h] == v.objects[h].(isSelected := checked && v.objects[h].isSelected)
  {
    if checked then
      var (objects, chat) := PushUnselected(v.objects, v.chat, v.current);
      v.(objects := objects, chat := chat, isAllSelectChecked := true)
    else v.(objects := ClearRows(v.objects, v.current), chat := Without(v.chat, v.current), isAllSelectChecked := false)
  }

  lemma {:induction false} PushUnselectedKeepsSync(v: View, hs: seq<nat>)
    requires ChatInSync(v) && Distinct(hs)
    ensures var (o, c) := PushUnselected(v.objects, v.chat, hs);
            ChatInSync(v.(objects := o, chat := c))
    decreases |hs|
  {
    if |hs| > 0 {
      var h := hs[0];
      assert Distinct(hs[1..]);
      if h < |v.objects| && !v.objects[h].isGroup && !v.objects[h].isSelected {
        assert h !in v.chat;
        PushUnselectedKeepsSync(v.(objects := v.objects[h := v.objects[h].(isSelected := true)], chat := v.chat + [h]), hs[1..]);
      } else if h < |v.objects| && !v.objects[h].isGroup {
        PushUnselectedKeepsSync(v.(objects := v.objects[h := v.objects[h].(isSelected := true)]), hs[1..]);
      } else {
        PushUnselectedKeepsSync(v, hs[1..]);
      }
    }
  }

  /** The corrected select-all keeps the chat list in step with the checked rows, both ways. */
  lemma CorrectedSelectAllKeepsSync(v: View, checked: bool)
    requires WellFormed(v) && ChatInSync(v)
    ensures ChatInSync(CorrectedSelectAll(v, checked))
  {
    if checked {
      PushUnselectedKeepsSync(v, v.current);
    } else {
      var r := CorrectedSelectAll(v, checked);
      WithoutDistinct(v.chat, v.current);
      assert ValidHandles(r.objects, r.chat) by {
        forall i | 0 <= i < |r.chat|
          ensures r.chat[i] < |r.objects|
        {
          assert r.chat[i] in v.chat;
        }
      }
    }
  }

  /** Two user rows that the select-all box desynchronises as written. */
  const RowA: Row := Row("a", Some("Ann"), "", Some("ann@contoso.com"), Some("ann@contoso.com"), false, NotYetFetched, false, false, InitialSortOrder, None)
  const RowB: Row := Row("b", Some("Bob"), "", Some("bob@contoso.com"), Some("bob@contoso.com"), false, NotYetFetched, false, false, InitialSortOrder, None)
  const TwoRows: View := View([RowA, RowB], [0, 1], [0, 1], [], 0, false)

  /** Ann checked; then the select-all box ticked; then Ann unchecked, as written. */
  const AnnChecked: View := View([RowA.(isSelected := true), RowB], [0, 1], [0, 1], [0], 0, false)
  const AllTicked: View := View([RowA.(isSelected := true), RowB.(isSelected := true)], [0, 1], [0, 1], [0, 0, 1], 0, true)
  const AnnUnchecked: View := View([RowA, RowB.(isSelected := true)], [0, 1], [0, 1], [0, 1], 0, false)

  lemma TwoRowsInSync()
    ensures WellFormed(TwoRows) && ChatInSync(TwoRows) && UniqueUpns(TwoRows.objects)
  {
    assert RowA.userPrincipalName != RowB.userPrincipalName;
  }

  lemma CheckAnn()
    ensures WellFormed(TwoRows)
    ensures CheckboxChanged(TwoRows, "a", true) == AnnChecked
  {
    TwoRowsInSync();
    var objects := [RowA.(isSelected := true), RowB];
    assert TwoRows.objects == [RowA, RowB];
    assert TwoRows.objects[0 := RowA.(isSelected := true)] == objects;
    var t := Toggle(TwoRows.objects, [], 0, true);
    assert t.0 == objects;
    assert t.1 == [0];
    assert t == (objects, [0]);
    assert CheckboxFold(objects, [0], [1], "a", true) == CheckboxFold(objects, [0], [], "a", true);
  }

  lemma SelectAllAfterAnn()
    ensures SelectAll(AnnChecked, true) == AllTicked
  {
    var objects := [RowA.(isSelected := true), RowB];
    var both := [RowA.(isSelected := true), RowB.(isSelected := true)];
    assert objects[0 := objects[0].(isSelected := true)] == objects;
    assert [0, 1][1..] == [1] && [1][1..] == [];
    assert [0] + [0] == [0, 0] && [0, 0] + [1] == [0, 0, 1];
    assert !objects[0].isGroup && !objects[1].isGroup;
    assert PushAll(objects, [0], [0, 1]) == PushAll(objects, [0, 0], [1]);
    assert objects[1 := objects[1].(isSelected := true)] == both;
    assert PushAll(objects, [0, 0], [1]) == PushAll(both, [0, 0, 1], []);
  }

  lemma UncheckAnn()
    ensures WellFormed(AllTicked)
    ensures CheckboxChanged(AllTicked, "a", false) == AnnUnchecked
  {
    AllTickedWellFormed();
    var objects := [RowA, RowB.(isSelected := true)];
    UncheckAnnFold();
    assert !objects[0].isSelected;
    assert !AllShownSelected(objects, [0, 1]);
  }

  lemma AllTickedWellFormed()
    ensures WellFormed(AllTicked)
  {
  }

  /** Unchecking Ann from the all-ticked view splices out the first copy of her and clears her box. */
  lemma UncheckAnnToggle()
    ensures Toggle(AllTicked.objects, [0, 0, 1], 0, false) == ([RowA, RowB.(isSelected := true)], [0, 1])
  {
    var objects := [RowA, RowB.(isSelected := true)];
    var both := AllTicked.objects;
    assert both[0 := both[0].(isSelected := false)] == objects;
    assert objects[0].userPrincipalName == RowA.userPrincipalName;
    assert FindIndexByUpn(objects, [0, 0, 1], RowA.userPrincipalName) == 0;
    assert Splice1([0, 0, 1], 0) == [0, 1];
  }

  lemma UncheckAnnFold()
    ensures CheckboxFold(AllTicked.objects, [0, 0, 1], [0, 1], "a", false) == ([RowA, RowB.(isSelected := true)], [0, 1])
  {
    var objects := [RowA, RowB.(isSelected := true)];
    var both := AllTicked.objects;
    UncheckAnnToggle();
    assert both[0].id == "a";
    assert CheckboxFold(both, [0, 0, 1], [0, 1], "a", false) == CheckboxFold(objects, [0, 1], [1], "a", false);
    assert objects[1].id != "a";
    assert CheckboxFold(objects, [0, 1], [1], "a", false) == CheckboxFold(objects, [0, 1], [], "a", false);
  }

  /** As written, checking Ann, ticking the select-all box and unchecking Ann leaves Ann on the chat
      list: the select-all box pushed her a second time and the uncheck removed one copy. The chat
      link then still names her. */
  lemma SelectAllDuplicates()
    ensures ChatInSync(TwoRows) && UniqueUpns(TwoRows.objects)
    ensures CheckboxChanged(TwoRows, "a", true) == AnnChecked
    ensures SelectAll(AnnChecked, true) == AllTicked
    ensures WellFormed(AllTicked) && CheckboxChanged(AllTicked, "a", false) == AnnUnchecked
    ensures !AnnUnchecked.objects[0].isSelected && 0 in AnnUnchecked.chat && !ChatInSync(AnnUnchecked)
    ensures GroupChat(AnnUnchecked.objects, AnnUnchecked.chat, true) == OpenChat(ChatLinkPrefix + "ann@contoso.com,bob@contoso.com")
  {
    TwoRowsInSync();
    CheckAnn();
    SelectAllAfterAnn();
    UncheckAnn();
    AnnStillListed();
  }

  lemma AnnStillListed()
    ensures !AnnUnchecked.objects[0].isSelected && 0 in AnnUnchecked.chat
    ensures GroupChat(AnnUnchecked.objects, AnnUnchecked.chat, true) == OpenChat(ChatLinkPrefix + "ann@contoso.com,bob@contoso.com")
  {
    var v3 := AnnUnchecked;
    assert 0 in v3.chat && !v3.objects[0].isSelected;
    var users := ChatUsers(v3.objects, v3.chat);
    assert users[0] == "ann@contoso.com" && users[1] == "bob@contoso.com";
    assert users == ["ann@contoso.com", "bob@contoso.com"];
    assert JoinComma(users) == "ann@contoso.com" + "," + JoinComma(users[1..]);
    assert users[1..] == ["bob@contoso.com"];
  }

  /** As written, clearing the select-all box while a search hides a checked row empties the chat
      list but leaves that row checked. */
  lemma SelectAllForgetsHiddenRows()
    ensures var v1 := CheckboxChanged(TwoRows, "b", true);
            var v2 := v1.(current := [0]);
            var v3 := SelectAll(v2, false);
            && ChatInSync(v2)
            && v3.objects[1].isSelected && v3.chat == []
            && !ChatInSync(v3)
  {
    CheckBob();
    BobHiddenInSync();
    ClearWhileBobHidden();
  }

  /** Bob checked; then a search hides him; then the select-all box cleared, as written. */
  const BobChecked: View := View([RowA, RowB.(isSelected := true)], [0, 1], [0, 1], [1], 0, false)
  const BobCleared: View := View([RowA, RowB.(isSelected := true)], [0, 1], [0], [], 0, false)

  lemma CheckBob()
    ensures WellFormed(TwoRows)
    ensures CheckboxChanged(TwoRows, "b", true) == BobChecked
  {
    TwoRowsInSync();
    var objects := [RowA, RowB.(isSelected := true)];
    assert TwoRows.objects == [RowA, RowB];
    assert TwoRows.objects[1 := RowB.(isSelected := true)] == objects;
    assert CheckboxFold(TwoRows.objects, [], [0, 1], "b", true) == CheckboxFold(TwoRows.objects, [], [1], "b", true);
    var t := Toggle(TwoRows.objects, [], 1, true);
    assert t.0 == objects && t.1 == [1];
    assert CheckboxFold(TwoRows.objects, [], [1], "b", true) == CheckboxFold(objects, [1], [], "b", true);
    assert !objects[0].isSelected;
  }

  lemma BobHiddenInSync()
    ensures ChatInSync(BobChecked.(current := [0]))
  {
    var v := BobChecked.(current := [0]);
    forall h: nat | h < |v.objects|
      ensures h in v.chat <==> v.objects[h].isSelected && !v.objects[h].isGroup
    {
      assert h == 0 || h == 1;
    }
  }

  lemma ClearWhileBobHidden()
    ensures SelectAll(BobChecked.(current := [0]), false) == BobCleared
    ensures BobCleared.objects[1].isSelected && BobCleared.chat == [] && !ChatInSync(BobCleared)
  {
    var objects := [RowA, RowB.(isSelected := true)];
    assert ClearRows(objects, [0]) == objects;
    assert 1 !in BobCleared.chat;
  }

  // ---------------------------------------------------------------------------------------
  // Other updates keep the selection

  /** Searching, sorting and merging presences change no checkbox and no chat list. */
  lemma ViewUpdatesKeepSync(v: View, query: string, column: SortColumn, ascending: bool, records: seq<PresenceRecord>)
    requires ChatInSync(v) && UniqueUpns(v.objects)
    ensures ChatInSync(Search(v, query))
    ensures ChatInSync(SortColumnItems(v, column, ascending))
    ensures ChatInSync(MergePresence(v, records)) && UniqueUpns(MergePresence(v, records).objects)
  {
    MergeKeepsSync(v, records);
  }

  lemma MergeKeepsSync(v: View, records: seq<PresenceRecord>)
    requires ChatInSync(v) && UniqueUpns(v.objects)
    ensures ChatInSync(MergePresence(v, records)) && UniqueUpns(MergePresence(v, records).objects)
  {
    var m := MergePresence(v, records);
    assert forall h :: 0 <= h < |v.objects| ==>
             m.objects[h].isSelected == v.objects[h].isSelected && m.objects[h].isGroup == v.objects[h].isGroup &&
             m.objects[h].userPrincipalName == v.objects[h].userPrincipalName;
  }

  // ---------------------------------------------------------------------------------------
  // `groupChatWithMembers` and the warning dialog

  /** What the chat button does. */
  datatype ChatAction =
    | OpenChat(link: string)       // a deep link to a chat with the listed users
    | ShowWarning(count: nat)      // the dialog saying how many were checked
    | NoAction

  /** The users' principal names, in list order; a missing name joins as the empty string. */
  function ChatUsers(objects: seq<Row>, chat: seq<nat>): (r: seq<string>)
    ensures |r| == |chat|
    ensures forall i :: 0 <= i < |chat| && chat[i] < |objects| ==> r[i] == objects[chat[i]].userPrincipalName.GetOr("")
  {
    if |chat| == 0 then []
    else [if chat[0] < |objects| then objects[chat[0]].userPrincipalName.GetOr("") else ""] + ChatUsers(objects, chat[1..])
  }

  /** `join(',')`. */
  function JoinComma(xs: seq<string>): string {
    if |xs| == 0 then ""
    else if |xs| == 1 then xs[0]
    else xs[0] + "," + JoinComma(xs[1..])
  }

  /** Splits at every comma: the reader's side of the user list in the link. */
  function SplitComma(s: string): (r: seq<string>)
    ensures |r| > 0
  {
    if |s| == 0 then [""]
    else
      var rest := SplitComma(s[1..]);
      if s[0] == ',' then [""] + rest
      else [[s[0]] + rest[0]] + rest[1..]
  }

  lemma {:induction false} SplitCommaAppend(a: string, s: string)
    requires forall i :: 0 <= i < |a| ==> a[i] != ','
    ensures SplitComma(a + s) == [a + SplitComma(s)[0]] + SplitComma(s)[1..]
  {
    var tail := SplitComma(s);
    if |a| > 0 {
      assert (a + s)[1..] == a[1..] + s;
      SplitCommaAppend(a[1..], s);
      var rest := SplitComma(a[1..] + s);
      assert rest == [a[1..] + tail[0]] + tail[1..];
      assert rest[0] == a[1..] + tail[0] && rest[1..] == tail[1..];
      assert [a[0]] + (a[1..] + tail[0]) == a + tail[0];
    } else {
      assert a + s == s;
      assert a + tail[0] == tail[0];
      assert tail == [tail[0]] + tail[1..];
    }
  }

  /** The user list in the link reads back as the users, when no name holds a comma. */
  lemma {:induction false} JoinCommaRoundTrip(xs: seq<string>)
    requires |xs| > 0
    requires forall k, i :: 0 <= k < |xs| && 0 <= i < |xs[k]| ==> xs[k][i] != ','
    ensures SplitComma(JoinComma(xs)) == xs
  {
    if |xs| == 1 {
      SplitCommaAppend(xs[0], "");
      assert xs[0] + "" == xs[0];
    } else {
      var joined := JoinComma(xs[1..]);
      JoinCommaRoundTrip(xs[1..]);
      assert ("," + joined)[1..] == joined;
      assert SplitComma("," + joined) == [""] + xs[1..];
      SplitCommaAppend(xs[0], "," + joined);
      assert xs[0] + ("," + joined) == xs[0] + "," + joined;
      assert xs[0] + "" == xs[0];
      assert xs == [xs[0]] + xs[1..];
    }
  }

  /** `groupChatWithMembers`: more than eight checked shows the warning dialog (unless one is
      already open); otherwise the chat opens with the checked users, in list order. */
  function GroupChat(objects: seq<Row>, chat: seq<nat>, dialogAllowed: bool): (r: ChatAction)
    ensures r.ShowWarning? <==> |chat| > GroupChatMembersLimit && dialogAllowed
    ensures r.ShowWarning? ==> r.count == |chat|
    ensures r.OpenChat? <==> |chat| <= GroupChatMembersLimit
    ensures r.OpenChat? ==> r.link == ChatLinkPrefix + JoinComma(ChatUsers(objects, chat))
  {
    if |chat| > GroupChatMembersLimit then (if dialogAllowed then ShowWarning(|chat|) else NoAction)
    else OpenChat(ChatLinkPrefix + JoinComma(ChatUsers(objects, chat)))
  }

  /** Whether a handle's row is online. */
  function IsOnline(objects: seq<Row>): nat -> bool {
    (h: nat) => h < |objects| && objects[h].presence == Online
  }

  /** The checked rows that are online, in order. */
  function OnlineOnly(objects: seq<Row>, chat: seq<nat>): (r: seq<nat>)
    ensures |r| <= |chat|
    ensures forall h :: h in r <==> h in chat && h < |objects| && objects[h].presence == Online
  {
    Filter(IsOnline(objects), chat)
  }

  /** The online filter goes entry by entry and keeps the chat list's order and repeats: a
      concatenation filters to the two parts' results in turn, and one entry stays exactly when
      its row is online. */
  lemma OnlineOnlyAppend(objects: seq<Row>, a: seq<nat>, b: seq<nat>)
    ensures OnlineOnly(objects, a + b) == OnlineOnly(objects, a) + OnlineOnly(objects, b)
    ensures forall h: nat :: OnlineOnly(objects, [h]) == if h < |objects| && objects[h].presence == Online then [h] else []
  {
    FilterAppend(IsOnline(objects), a, b);
  }

  /** The dialog's answer: "YES" keeps the online users, cut to the first eight, and starts the
      chat with them; any other answer changes nothing. The rows dropped stay checked. */
  function AnswerDialog(objects: seq<Row>, chat: seq<nat>, response: string): (r: (seq<nat>, ChatAction))
    ensures response != PositiveResponse ==> r == (chat, NoAction)
    ensures response == PositiveResponse ==>
              && |r.0| <= GroupChatMembersLimit
              && (forall h :: h in r.0 ==> h in chat && h < |objects| && objects[h].presence == Online)
              && r.0 == OnlineOnly(objects, chat)[..Min(|OnlineOnly(objects, chat)|, GroupChatMembersLimit)]
              && r.1 == OpenChat(ChatLinkPrefix + JoinComma(ChatUsers(objects, r.0)))
  {
    if response != PositiveResponse then (chat, NoAction)
    else
      var online := OnlineOnly(objects, chat);
      var kept := if |online| > GroupChatMembersLimit then online[..GroupChatMembersLimit] else online;
      assert forall h :: h in kept ==> h in online;
      (kept, GroupChat(objects, kept, true))
  }

  /** When at most eight of the checked users are online, "YES" keeps all of them, in order. */
  lemma {:induction false} AnswerKeepsFewOnline(objects: seq<Row>, chat: seq<nat>)
    requires |OnlineOnly(objects, chat)| <= GroupChatMembersLimit
    ensures AnswerDialog(objects, chat, PositiveResponse).0 == OnlineOnly(objects, chat)
  {
  }
}

=== FILE: members_view.dfy ===
/** The members page of the client (`DistributionListMembers.tsx`): the rows built from the
    backend's member listing, the pinned-first sort, the search box, the paging window, and the
    presence requests and their merge.

    The component's rows are JavaScript objects shared between its lists: a change made to a row
    through one list shows through every other. The model keeps that sharing: `objects[h]` is
    the row object with handle `h`, and `master` (the whole listing), `current` (what the grid
    shows) and the chat list hold handles. */
module MembersView {
  import opened Wrappers
  import opened Text
  import opened DirectoryData
  import opened ListExtensions
  import opened StableSort

  /** The presence a member row starts with until its presence arrives. */
  const NotYetFetched: string := "Not yet fetched"
  /** Presence requests are sent forty members at a time. */
  const PresenceBatchLimit: nat := 40
  /** The sort order a row starts with: below every real presence. */
  const InitialSortOrder: int := 10

  /** One row of the grid (`IDistributionListMember`). */
  datatype Row = Row(
    id: string,
    displayName: Option<string>,
    jobTitle: string,
    mail: Option<string>,
    userPrincipalName: Option<string>,
    isPinned: bool,
    presence: string,
    isSelected: bool,
    isGroup: bool,
    sortOrder: int,
    odataType: Option<string>)

  /** The component's state: the row objects by handle, the master and shown lists of handles,
      the handles checked for a group chat, the page shown and the select-all box. */
  datatype View = View(
    objects: seq<Row>,
    master: seq<nat>,
    current: seq<nat>,
    chat: seq<nat>,
    activePage: nat,
    isAllSelectChecked: bool)

  ghost predicate ValidHandles(objects: seq<Row>, hs: seq<nat>) {
    forall i :: 0 <= i < |hs| ==> hs[i] < |objects|
  }

  ghost predicate Distinct(hs: seq<nat>) {
    forall i, j :: 0 <= i < j < |hs| ==> hs[i] != hs[j]
  }

  /** Every list refers to existing rows, and the master and shown lists hold each row at most once. */
  ghost predicate WellFormed(v: View) {
    && ValidHandles(v.objects, v.master)
    && ValidHandles(v.objects, v.current)
    && ValidHandles(v.objects, v.chat)
    && Distinct(v.master)
    && Distinct(v.current)
  }

  // ---------------------------------------------------------------------------------------
  // `dataLoad`

  /** The row built for a member: a nested group (exact `@odata.type`) gets an empty presence and
      is never asked about; a user waits for its presence; a null job title shows as empty. */
  function LoadRow(m: DistributionListMember): (r: Row)
    ensures r.isGroup <==> m.odataType == Some(GroupType)
    ensures r.presence == NotYetFetched <==> !r.isGroup
    ensures !r.isSelected && r.isPinned == m.isPinned && r.id == m.id
    ensures r.userPrincipalName == Some(m.userPrincipalName)
  {
    var isGroup := m.odataType == Some(GroupType);
    Row(m.id, m.displayName, m.jobTitle.GetOr(""), m.mail, Some(m.userPrincipalName), m.isPinned,
        if isGroup then "" else NotYetFetched, false, isGroup, InitialSortOrder, m.odataType)
  }

  /** The handles 0 .. n-1 in order. */
  function Handles(n: nat): (r: seq<nat>)
    ensures |r| == n && forall i :: 0 <= i < n ==> r[i] == i
  {
    seq(n, i requires 0 <= i < n => i as nat)
  }

  /** The presence of a row, the key `resetSorting` orders by after a load. */
  function PresenceKey(objects: seq<Row>): nat -> string {
    (h: nat) => if h < |objects| then objects[h].presence else ""
  }

  /** The view after the member listing arrives: one row per member, ordered pinned first and each
      part by presence, descending (`resetSorting` with no column chosen); both lists show all. */
  function Load(members: seq<DistributionListMember>): (v: View)
    ensures |v.objects| == |members|
    ensures forall i :: 0 <= i < |members| ==> v.objects[i] == LoadRow(members[i])
    ensures v.master == v.current && v.chat == [] && v.activePage == 0 && !v.isAllSelectChecked
    ensures multiset(v.master) == multiset(Handles(|members|))
    ensures PinnedBeforeUnpinned(v.objects, v.master)
    ensures forall i, j :: 0 <= i < j < |v.master| && v.objects[v.master[i]].isPinned == v.objects[v.master[j]].isPinned ==>
              !TextLess(v.objects[v.master[i]].presence, v.objects[v.master[j]].presence)
  {
    var objects := seq(|members|, i requires 0 <= i < |members| => LoadRow(members[i]));
    var order := PinnedFirst(objects, Handles(|members|), PresenceKey(objects), Reversed(TextLess));
    PinnedFirstPermutes(objects, Handles(|members|), PresenceKey(objects), Reversed(TextLess));
    PinnedFirstPartitions(objects, Handles(|members|), PresenceKey(objects), Reversed(TextLess));
    TextLessIsStrictWeakOrder();
    ReversedIsStrictWeakOrder(TextLess);
    PinnedFirstSortsParts(objects, Handles(|members|), PresenceKey(objects), Reversed(TextLess));
    View(objects, order, order, [], 0, false)
  }

  // ---------------------------------------------------------------------------------------
  // Pinned first (`sortColumnItems`, `resetSorting`)

  /** The handles whose row has the given pin flag (`filter(e => e.isPinned === pinned)`), in order. */
  function PinnedOnly(objects: seq<Row>, hs: seq<nat>, pinned: bool): (r: seq<nat>)
    ensures |r| <= |hs|
    ensures forall h :: h in r <==> h in hs && h < |objects| && objects[h].isPinned == pinned
  {
    if |hs| == 0 then []
    else
      var rest := PinnedOnly(objects, hs[1..], pinned);
      assert forall i :: 1 <= i < |hs| ==> hs[i] == hs[1..][i - 1];
      (if hs[0] < |objects| && objects[hs[0]].isPinned == pinned then [hs[0]] else []) + rest
  }

  /** Pinned rows first, then the others, each part sorted by `key` under `lt`. */
  function PinnedFirst<K>(objects: seq<Row>, hs: seq<nat>, key: nat -> K, lt: (K, K) -> bool): (r: seq<nat>)
    ensures forall i :: 0 <= i < |r| ==> r[i] < |objects|
  {
    Part(objects, hs, key, lt, true) + Part(objects, hs, key, lt, false)
  }

  /** One part of the pinned-first order: the rows with the given pin flag, sorted. */
  function Part<K>(objects: seq<Row>, hs: seq<nat>, key: nat -> K, lt: (K, K) -> bool, pinned: bool): (r: seq<nat>)
    ensures multiset(r) == multiset(PinnedOnly(objects, hs, pinned))
    ensures forall i :: 0 <= i < |r| ==> r[i] < |objects| && objects[r[i]].isPinned == pinned
  {
    var p := PinnedOnly(objects, hs, pinned);
    var r := Sort<nat, K>(p, key, lt);
    SortPermutes<nat, K>(p, key, lt);
    PermutationMembers(r, p);
    r
  }

  /** Each element of a permutation of `b` is an element of `b`. */
  lemma PermutationMembers(a: seq<nat>, b: seq<nat>)
    requires multiset(a) == multiset(b)
    ensures forall i :: 0 <= i < |a| ==> a[i] in b
  {
    forall i | 0 <= i < |a|
      ensures a[i] in b
    {
      assert a[i] in multiset(a);
    }
  }

  lemma PinnedOnlyIndexed(objects: seq<Row>, hs: seq<nat>, pinned: bool)
    ensures var r := PinnedOnly(objects, hs, pinned);
            forall i :: 0 <= i < |r| ==> r[i] < |objects| && objects[r[i]].isPinned == pinned
  {
    var r := PinnedOnly(objects, hs, pinned);
    forall i | 0 <= i < |r|
      ensures r[i] < |objects| && objects[r[i]].isPinned == pinned
    {
      assert r[i] in r;
    }
  }

  lemma {:induction false} PinnedOnlySplits(objects: seq<Row>, hs: seq<nat>)
    requires ValidHandles(objects, hs)
    ensures multiset(PinnedOnly(objects, hs, true)) + multiset(PinnedOnly(objects, hs, false)) == multiset(hs)
  {
    if |hs| > 0 {
      PinnedOnlySplits(objects, hs[1..]);
      assert hs == [hs[0]] + hs[1..];
    }
  }

  lemma {:induction false} PinnedOnlyAppend(objects: seq<Row>, a: seq<nat>, b: seq<nat>, pinned: bool)
    ensures PinnedOnly(objects, a + b, pinned) == PinnedOnly(objects, a, pinned) + PinnedOnly(objects, b, pinned)
  {
    if |a| == 0 {
      assert a + b == b;
    } else {
      assert (a + b)[1..] == a[1..] + b;
      PinnedOnlyAppend(objects, a[1..], b, pinned);
    }
  }

  /** A list whose rows all have the flag keeps all of them and none under the other flag. */
  lemma {:induction false} PinnedOnlyUniform(objects: seq<Row>, hs: seq<nat>, pinned: bool)
    requires forall i :: 0 <= i < |hs| ==> hs[i] < |objects| && objects[hs[i]].isPinned == pinned
    ensures PinnedOnly(objects, hs, pinned) == hs
    ensures PinnedOnly(objects, hs, !pinned) == []
  {
    if |hs| > 0 {
      PinnedOnlyUniform(objects, hs[1..], pinned);
      assert hs == [hs[0]] + hs[1..];
    }
  }

  lemma PinnedFirstPermutes<K>(objects: seq<Row>, hs: seq<nat>, key: nat -> K, lt: (K, K) -> bool)
    requires ValidHandles(objects, hs)
    ensures multiset(PinnedFirst(objects, hs, key, lt)) == multiset(hs)
  {
    PinnedOnlySplits(objects, hs);
  }

  /** Every handle is valid and no unpinned row comes before a pinned one. */
  ghost predicate PinnedBeforeUnpinned(objects: seq<Row>, r: seq<nat>) {
    && ValidHandles(objects, r)
    && forall i, j :: 0 <= i < j < |r| && objects[r[j]].isPinned ==> objects[r[i]].isPinned
  }

  lemma PartsPinnedFirst(objects: seq<Row>, p: seq<nat>, u: seq<nat>)
    requires forall i :: 0 <= i < |p| ==> p[i] < |objects| && objects[p[i]].isPinned
    requires forall i :: 0 <= i < |u| ==> u[i] < |objects| && !objects[u[i]].isPinned
    ensures PinnedBeforeUnpinned(objects, p + u)
  {
    var r := p + u;
    assert forall k :: 0 <= k < |r| ==> r[k] < |objects| && (objects[r[k]].isPinned <==> k < |p|) by {
      forall k | 0 <= k < |r|
        ensures r[k] < |objects| && (objects[r[k]].isPinned <==> k < |p|)
      {
        if k < |p| {
          assert r[k] == p[k];
        } else {
          assert r[k] == u[k - |p|];
        }
      }
    }
  }

  /** The pinned-first order is a permutation of the handles with every pinned row before every
      unpinned one. */
  lemma PinnedFirstPartitions<K>(objects: seq<Row>, hs: seq<nat>, key: nat -> K, lt: (K, K) -> bool)
    requires ValidHandles(objects, hs)
    ensures var r := PinnedFirst(objects, hs, key, lt);
            multiset(r) == multiset(hs) && PinnedBeforeUnpinned(objects, r)
  {
    PinnedOnlySplits(objects, hs);
    PartsPinnedFirst(objects, Part(objects, hs, key, lt, true), Part(objects, hs, key, lt, false));
  }

  /** Within each part the rows are sorted by the key. */
  lemma PinnedFirstSortsParts<K(!new)>(objects: seq<Row>, hs: seq<nat>, key: nat -> K, lt: (K, K) -> bool)
    requires ValidHandles(objects, hs)
    requires StrictWeakOrder(lt)
    ensures var r := PinnedFirst(objects, hs, key, lt);
            forall i, j :: 0 <= i < j < |r| && objects[r[i]].isPinned == objects[r[j]].isPinned ==>
              !lt(key(r[j]), key(r[i]))
  {
    var sp, su := Part(objects, hs, key, lt, true), Part(objects, hs, key, lt, false);
    var r := sp + su;
    PinnedFirstPartitions(objects, hs, key, lt);
    SortSorted<nat, K>(PinnedOnly(objects, hs, true), key, lt);
    SortSorted<nat, K>(PinnedOnly(objects, hs, false), key, lt);
    forall i, j | 0 <= i < j < |r| && objects[r[i]].isPinned == objects[r[j]].isPinned
      ensures !lt(key(r[j]), key(r[i]))
    {
      if j < |sp| {
        assert r[i] == sp[i] && r[j] == sp[j];
      } else if i >= |sp| {
        assert r[i] == su[i - |sp|] && r[j] == su[j - |sp|];
      }
    }
  }

  /** Within each part, rows whose keys the order does not separate keep their former order. */
  lemma PinnedFirstStable<K(!new)>(objects: seq<Row>, hs: seq<nat>, key: nat -> K, lt: (K, K) -> bool, pinned: bool, c: K)
    requires StrictWeakOrder(lt)
    ensures Class<nat, K>(PinnedOnly(objects, PinnedFirst(objects, hs, key, lt), pinned), key, lt, c) ==
            Class<nat, K>(PinnedOnly(objects, hs, pinned), key, lt, c)
  {
    var sp, su := Part(objects, hs, key, lt, true), Part(objects, hs, key, lt, false);
    var part := if pinned then sp else su;
    assert PinnedFirst(objects, hs, key, lt) == sp + su;
    assert PinnedOnly(objects, sp + su, pinned) == part by {
      PinnedOnlyUniform(objects, sp, true);
      PinnedOnlyUniform(objects, su, false);
      PinnedOnlyAppend(objects, sp, su, pinned);
      if pinned {
        assert sp + [] == sp;
      } else {
        assert [] + su == su;
      }
    }
    assert part == Sort<nat, K>(PinnedOnly(objects, hs, pinned), key, lt);
    SortStable<nat, K>(PinnedOnly(objects, hs, pinned), key, lt, c);
  }

  /** The columns `sortColumnItems` sorts by; any other column only puts pinned rows first. */
  datatype SortColumn = DisplayNameColumn | MailColumn | PresenceColumn | OtherColumn

  /** What the name sort compares: the display name lower-cased, so the sort ignores case. */
  function SortName(row: Row): string {
    Lower(row.displayName.GetOr(""))
  }

  function NameKey(objects: seq<Row>): nat -> string {
    (h: nat) => if h < |objects| then SortName(objects[h]) else ""
  }

  /** The mail key as written: the empty string whenever the mail is non-empty, and the lower-cased
      mail (the empty string again) when it is empty. */
  function MailKey(objects: seq<Row>): nat -> string {
    (h: nat) => ""
  }

  function SortOrderKey(objects: seq<Row>): nat -> int {
    (h: nat) => if h < |objects| then objects[h].sortOrder else 0
  }

  /** Some shown row lacks a display name: lower-casing it throws and the sort does not happen. */
  predicate SomeNameMissing(v: View) {
    exists i :: 0 <= i < |v.current| && v.current[i] < |v.objects| && v.objects[v.current[i]].displayName.None?
  }

  predicate SomeMailMissing(v: View) {
    exists i :: 0 <= i < |v.current| && v.current[i] < |v.objects| && v.objects[v.current[i]].mail.None?
  }

  /** `sortColumnItems`: reorder the shown rows pinned first, each part by the column, ascending or
      descending. Only the order of the shown list changes. */
  function SortColumnItems(v: View, column: SortColumn, ascending: bool): (r: View)
    ensures r == v.(current := r.current)
    ensures SomeNameMissing(v) && column == DisplayNameColumn ==> r == v
    ensures SomeMailMissing(v) && column == MailColumn ==> r == v
  {
    match column
    case DisplayNameColumn =>
      if SomeNameMissing(v) then v
      else v.(current := PinnedFirst(v.objects, v.current, NameKey(v.objects), Direction(TextLess, ascending)))
    case MailColumn =>
      if SomeMailMissing(v) then v
      else v.(current := PinnedFirst(v.objects, v.current, MailKey(v.objects), Direction(TextLess, ascending)))
    case PresenceColumn =>
      v.(current := PinnedFirst(v.objects, v.current, SortOrderKey(v.objects), Direction(IntLess, ascending)))
    case OtherColumn =>
      v.(current := PinnedOnly(v.objects, v.current, true) + PinnedOnly(v.objects, v.current, false))
  }

  /** The sort throws before reordering anything: a missing name or mail under its column. */
  predicate SortThrows(v: View, column: SortColumn) {
    || (column == DisplayNameColumn && SomeNameMissing(v))
    || (column == MailColumn && SomeMailMissing(v))
  }

  /** Every column's sort keeps the shown rows and, unless it throws, puts the pinned ones first. */
  lemma SortColumnItemsPinnedFirst(v: View, column: SortColumn, ascending: bool)
    requires WellFormed(v)
    ensures var r := SortColumnItems(v, column, ascending);
            && WellFormed(r)
            && multiset(r.current) == multiset(v.current)
            && (SortThrows(v, column) ==> r == v)
            && (!SortThrows(v, column) ==> PinnedBeforeUnpinned(v.objects, r.current))
  {
    var r := SortColumnItems(v, column, ascending);
    assert multiset(r.current) == multiset(v.current) &&
           (!SortThrows(v, column) ==> PinnedBeforeUnpinned(v.objects, r.current)) by {
      SortColumnItemsReorders(v, column, ascending);
    }
    assert ValidHandles(r.objects, r.current) by {
      forall i | 0 <= i < |r.current|
        ensures r.current[i] < |r.objects|
      {
        assert r.current[i] in multiset(v.current);
      }
    }
    DistinctPermutation(v.current, r.current);
  }

  lemma SortColumnItemsReorders(v: View, column: SortColumn, ascending: bool)
    requires ValidHandles(v.objects, v.current)
    ensures var r := SortColumnItems(v, column, ascending);
            && multiset(r.current) == multiset(v.current)
            && (!SortThrows(v, column) ==> PinnedBeforeUnpinned(v.objects, r.current))
  {
    var r := SortColumnItems(v, column, ascending);
    if SortThrows(v, column) {
      assert r == v;
    } else {
      match column
      case DisplayNameColumn =>
        assert r.current == PinnedFirst(v.objects, v.current, NameKey(v.objects), Direction(TextLess, ascending));
        PinnedFirstPartitions(v.objects, v.current, NameKey(v.objects), Direction(TextLess, ascending));
      case MailColumn =>
        assert r.current == PinnedFirst(v.objects, v.current, MailKey(v.objects), Direction(TextLess, ascending));
        PinnedFirstPartitions(v.objects, v.current, MailKey(v.objects), Direction(TextLess, ascending));
      case PresenceColumn =>
        assert r.current == PinnedFirst(v.objects, v.current, SortOrderKey(v.objects), Direction(IntLess, ascending));
        PinnedFirstPartitions(v.objects, v.current, SortOrderKey(v.objects), Direction(IntLess, ascending));
      case OtherColumn =>
        PinnedOnlySplits(v.objects, v.current);
        PinnedOnlyIndexed(v.objects, v.current, true);
        PinnedOnlyIndexed(v.objects, v.current, false);
        PartsPinnedFirst(v.objects, PinnedOnly(v.objects, v.current, true), PinnedOnly(v.objects, v.current, false));
    }
  }

  /** The name sort orders each part by the lower-cased display name, ascending or descending. */
  lemma SortByNameOrders(v: View, ascending: bool)
    requires WellFormed(v) && !SomeNameMissing(v)
    ensures var r := SortColumnItems(v, DisplayNameColumn, ascending).current;
            forall i, j :: 0 <= i < j < |r| && v.objects[r[i]].isPinned == v.objects[r[j]].isPinned ==>
              var a, b := SortName(v.objects[r[i]]), SortName(v.objects[r[j]]);
              if ascending then !TextLess(b, a) else !TextLess(a, b)
  {
    assert SortColumnItems(v, DisplayNameColumn, ascending).current ==
           PinnedFirst(v.objects, v.current, NameKey(v.objects), Direction(TextLess, ascending));
    TextLessIsStrictWeakOrder();
    DirectionIsStrictWeakOrder(TextLess, ascending);
    PinnedFirstPartitions(v.objects, v.current, NameKey(v.objects), Direction(TextLess, ascending));
    PinnedFirstSortsParts(v.objects, v.current, NameKey(v.objects), Direction(TextLess, ascending));
  }

  /** The presence sort orders each part by the presence's sort order, ascending or descending. */
  lemma SortByPresenceOrders(v: View, ascending: bool)
    requires WellFormed(v)
    ensures var r := SortColumnItems(v, PresenceColumn, ascending).current;
            forall i, j :: 0 <= i < j < |r| && v.objects[r[i]].isPinned == v.objects[r[j]].isPinned ==>
              var a, b := v.objects[r[i]].sortOrder, v.objects[r[j]].sortOrder;
              if ascending then a <= b else b <= a
  {
    IntLessIsStrictWeakOrder();
    DirectionIsStrictWeakOrder(IntLess, ascending);
    PinnedFirstPartitions(v.objects, v.current, SortOrderKey(v.objects), Direction(IntLess, ascending));
    PinnedFirstSortsParts(v.objects, v.current, SortOrderKey(v.objects), Direction(IntLess, ascending));
  }

  /** A permutation of a list without repeats has no repeats. */
  lemma DistinctPermutation(a: seq<nat>, b: seq<nat>)
    requires Distinct(a) && multiset(a) == multiset(b)
    ensures Distinct(b)
  {
    forall i, j | 0 <= i < j < |b|
      ensures b[i] != b[j]
    {
      if b[i] == b[j] {
        assert multiset(b)[b[i]] >= 2 by {
          assert b == b[..i] + [b[i]] + b[i + 1..j] + [b[j]] + b[j + 1..];
        }
        DistinctCount(a, b[i]);
      }
    }
  }

  lemma {:induction false} DistinctCount(a: seq<nat>, x: nat)
    requires Distinct(a)
    ensures multiset(a)[x] <= 1
  {
    if |a| > 0 {
      assert a == [a[0]] + a[1..];
      assert Distinct(a[1..]);
      DistinctCount(a[1..], x);
      if a[0] == x {
        assert x !in a[1..];
      }
    }
  }

  /** The mail sort never reorders: its key is the same for every row, so each part keeps the
      order it had and the result only moves pinned rows to the front. */
  lemma MailSortOnlyPinsFirst(v: View, ascending: bool)
    requires !SomeMailMissing(v)
    ensures SortColumnItems(v, MailColumn, ascending).current ==
            PinnedOnly(v.objects, v.current, true) + PinnedOnly(v.objects, v.current, false)
  {
    var lt := Direction(TextLess, ascending);
    TextLessIsStrictWeakOrder();
    DirectionIsStrictWeakOrder(TextLess, ascending);
    SortOfEquivalentKeys<nat, string>(PinnedOnly(v.objects, v.current, true), MailKey(v.objects), lt);
    SortOfEquivalentKeys<nat, string>(PinnedOnly(v.objects, v.current, false), MailKey(v.objects), lt);
  }

  /** Two unpinned members whose mails the written sort leaves out of order. */
  const Bob: Row := Row("b", Some("Bob"), "", Some("bob@contoso.com"), Some("bob@contoso.com"), false, NotYetFetched, false, false, InitialSortOrder, None)
  const Ann: Row := Row("a", Some("Ann"), "", Some("ann@contoso.com"), Some("ann@contoso.com"), false, NotYetFetched, false, false, InitialSortOrder, None)

  /** The shown list "bob@, ann@", nobody pinned. */
  const BobAnn: View := View([Bob, Ann], [0, 1], [0, 1], [], 0, false)

  /** Sorting "bob@, ann@" by mail, ascending, keeps Bob first. */
  lemma MailSortCounterexample()
    ensures SortColumnItems(BobAnn, MailColumn, true).current == [0, 1] &&
            TextLess(SortMail(Ann), SortMail(Bob))
  {
    MailSortKeepsBobFirst();
    AnnMailBeforeBob();
  }

  lemma MailSortKeepsBobFirst()
    ensures SortColumnItems(BobAnn, MailColumn, true).current == [0, 1]
  {
    BobAnnHaveMails();
    MailSortOnlyPinsFirst(BobAnn, true);
    BobAnnUnpinned();
    var none, all := PinnedOnly(BobAnn.objects, [0, 1], true), PinnedOnly(BobAnn.objects, [0, 1], false);
    assert none == [] && all == [0, 1];
    assert none + all == [0, 1];
  }

  lemma BobAnnHaveMails()
    ensures !SomeMailMissing(BobAnn)
  {
    forall i | 0 <= i < |BobAnn.current| && BobAnn.current[i] < |BobAnn.objects|
      ensures BobAnn.objects[BobAnn.current[i]].mail.Some?
    {
      assert BobAnn.objects[0].mail.Some? && BobAnn.objects[1].mail.Some?;
    }
  }

  lemma BobAnnUnpinned()
    ensures PinnedOnly(BobAnn.objects, [0, 1], true) == []
    ensures PinnedOnly(BobAnn.objects, [0, 1], false) == [0, 1]
  {
    var objects, hs := BobAnn.objects, [0, 1];
    assert !objects[0].isPinned && !objects[1].isPinned;
    PinnedOnlyUniform(objects, hs, false);
  }

  lemma AnnMailBeforeBob()
    ensures TextLess(SortMail(Ann), SortMail(Bob))
  {
    assert SortMail(Ann)[0] == 'a' && SortMail(Bob)[0] == 'b';
  }

  /** What the mail sort evidently means to compare: the mail lower-cased, a missing one as empty. */
  function SortMail(row: Row): string {
    Lower(row.mail.GetOr(""))
  }

  function IntendedMailKey(objects: seq<Row>): nat -> string {
    (h: nat) => if h < |objects| then SortMail(objects[h]) else ""
  }

  /** The mail sort with the intended key. */
  function CorrectedMailSort(v: View, ascending: bool): (r: View)
    ensures r == v.(current := r.current)
  {
    v.(current := PinnedFirst(v.objects, v.current, IntendedMailKey(v.objects), Direction(TextLess, ascending)))
  }

  /** The corrected mail sort keeps the shown rows, puts pinned ones first and orders each part by
      lower-cased mail. */
  lemma CorrectedMailSortOrders(v: View, ascending: bool)
    requires WellFormed(v)
    ensures var r := CorrectedMailSort(v, ascending);
            && WellFormed(r) && multiset(r.current) == multiset(v.current)
            && PinnedBeforeUnpinned(v.objects, r.current)
            && forall i, j :: 0 <= i < j < |r.current| && v.objects[r.current[i]].isPinned == v.objects[r.current[j]].isPinned ==>
                 var a, b := SortMail(v.objects[r.current[i]]), SortMail(v.objects[r.current[j]]);
                 if ascending then !TextLess(b, a) else !TextLess(a, b)
  {
    var lt := Direction(TextLess, ascending);
    var r := CorrectedMailSort(v, ascending);
    TextLessIsStrictWeakOrder();
    DirectionIsStrictWeakOrder(TextLess, ascending);
    PinnedFirstPartitions(v.objects, v.current, IntendedMailKey(v.objects), lt);
    PinnedFirstSortsParts(v.objects, v.current, IntendedMailKey(v.objects), lt);
    DistinctPermutation(v.current, r.current);
  }

  // ---------------------------------------------------------------------------------------
  // `search`

  /** Whether a handle's display name contains the query, both lower-cased. */
  function NameMatches(objects: seq<Row>, query: string): nat -> bool {
    (h: nat) => h < |objects| && ContainsSub(Lower(objects[h].displayName.GetOr("")), Lower(query))
  }

  /** The shown handles whose display name contains the query, both lower-cased, in order. */
  function Matching(objects: seq<Row>, hs: seq<nat>, query: string): (r: seq<nat>)
    ensures |r| <= |hs|
    ensures forall h :: h in r <==> h in hs && h < |objects| &&
                                    ContainsSub(Lower(objects[h].displayName.GetOr("")), Lower(query))
  {
    Filter(NameMatches(objects, query), hs)
  }

  predicate SomeMasterNameMissing(v: View) {
    exists i :: 0 <= i < |v.master| && v.master[i] < |v.objects| && v.objects[v.master[i]].displayName.None?
  }

  /** `search`: an empty query shows the whole listing again; any other query shows the rows of the
      listing whose name contains it ignoring case and goes back to the first page. A row without
      a display name makes the filter throw, and nothing changes. */
  function Search(v: View, query: string): (r: View)
    ensures r.objects == v.objects && r.master == v.master && r.chat == v.chat
    ensures |query| == 0 ==> r == v.(current := v.master)
    ensures |query| > 0 && SomeMasterNameMissing(v) ==> r == v
    ensures |query| > 0 && !SomeMasterNameMissing(v) ==>
              && r.activePage == 0
              && forall h :: h in r.current <==>
                   h in v.master && h < |v.objects| &&
                   ContainsSub(Lower(v.objects[h].displayName.value), Lower(query))
  {
    if |query| == 0 then v.(current := v.master)
    else if SomeMasterNameMissing(v) then v
    else v.(current := Matching(v.objects, v.master, query), activePage := 0)
  }

  /** The filter goes handle by handle and keeps the listing's order and repeats: a concatenation
      filters to the two parts' results in turn, and one handle stays exactly when its name matches. */
  lemma MatchingAppend(objects: seq<Row>, a: seq<nat>, b: seq<nat>, query: string)
    ensures Matching(objects, a + b, query) == Matching(objects, a, query) + Matching(objects, b, query)
    ensures forall h: nat :: Matching(objects, [h], query) ==
              if h < |objects| && ContainsSub(Lower(objects[h].displayName.GetOr("")), Lower(query)) then [h] else []
  {
    FilterAppend(NameMatches(objects, query), a, b);
  }

  /** A search shows the matching rows in the listing's order: searching a listing made of two
      parts shows the first part's matches, then the second's. */
  lemma SearchKeepsOrder(v: View, a: seq<nat>, b: seq<nat>, query: string)
    requires |query| > 0 && !SomeMasterNameMissing(v.(master := a + b))
    ensures !SomeMasterNameMissing(v.(master := a)) && !SomeMasterNameMissing(v.(master := b))
    ensures Search(v.(master := a + b), query).current ==
            Search(v.(master := a), query).current + Search(v.(master := b), query).current
  {
    forall i | 0 <= i < |a|
      ensures (a + b)[i] == a[i]
    {
    }
    forall i | 0 <= i < |b|
      ensures (a + b)[|a| + i] == b[i]
    {
    }
    MatchingAppend(v.objects, a, b, query);
  }

  /** Searching for what every name contains, such as the empty string after lower-casing, keeps
      the listing's order: the filter never reorders. */
  lemma MatchingKeepsOrder(objects: seq<Row>, hs: seq<nat>, query: string)
    requires forall i :: 0 <= i < |hs| ==> hs[i] < |objects| &&
                                           ContainsSub(Lower(objects[hs[i]].displayName.GetOr("")), Lower(query))
    ensures Matching(objects, hs, query) == hs
  {
    FilterKeepsAll(NameMatches(objects, query), hs);
  }


  // ---------------------------------------------------------------------------------------
  // Paging window in `render`

  /** The rows from index `start`, at most `size` of them, cut at the end of the list. */
  function WindowFrom(rows: seq<nat>, start: nat, size: nat): (r: seq<nat>)
    ensures |r| <= size
    ensures forall i :: 0 <= i < |r| ==> start + i < |rows| && r[i] == rows[start + i]
    ensures start < |rows| ==> |r| == Min(size, |rows| - start)
    ensures start >= |rows| ==> r == []
  {
    if start >= |rows| then [] else rows[start..Min(start + size, |rows|)]
  }

  /** The rows of page `page` for a page size: from index `page * size`. */
  function Window(rows: seq<nat>, page: nat, size: nat): seq<nat> {
    WindowFrom(rows, page * size, size)
  }

  /** The loop in `render`: from `page * size`, at most `size` rows, stopping at the end. */
  method RenderedRows(rows: seq<nat>, page: nat, size: nat) returns (items: seq<nat>)
    ensures items == Window(rows, page, size)
  {
    items := [];
    var start := page * size;
    var j := start;
    while j < start + size
      invariant start <= j <= start + size
      invariant j <= |rows| || j == start
      invariant start <= |rows| ==> items == rows[start..Min(j, |rows|)]
      invariant start > |rows| ==> items == []
      decreases start + size - j
    {
      if j >= |rows| {
        break;
      }
      items := items + [rows[j]];
      j := j + 1;
    }
    if start >= |rows| {
      assert items == [];
    } else {
      assert j == start + size || j >= |rows|;
    }
  }

  lemma MulStep(page: nat, size: nat)
    requires page > 0
    ensures page * size == (page - 1) * size + size
  {
  }

  /** Page `page` shows exactly the `page`-th batch that `SplitList` would cut, and a page past the
      last batch shows nothing; so the pages in order show every row once. */
  lemma {:induction false} WindowIsChunk(rows: seq<nat>, page: nat, size: nat)
    requires size > 0
    ensures page < |Chunks(rows, size)| ==> Window(rows, page, size) == Chunks(rows, size)[page]
    ensures page >= |Chunks(rows, size)| ==> Window(rows, page, size) == []
  {
    PageStartIsProduct(page, size);
    WindowFromIsChunk(rows, page, size);
  }

  /** The first row of page `page`, counted page by page. */
  function PageStart(page: nat, size: nat): nat {
    if page == 0 then 0 else PageStart(page - 1, size) + size
  }

  lemma {:induction false} PageStartIsProduct(page: nat, size: nat)
    ensures PageStart(page, size) == page * size
  {
    if page > 0 {
      PageStartIsProduct(page - 1, size);
      MulStep(page, size);
    }
  }

  lemma {:induction false} WindowFromIsChunk(rows: seq<nat>, page: nat, size: nat)
    requires size > 0
    ensures page < |Chunks(rows, size)| ==> WindowFrom(rows, PageStart(page, size), size) == Chunks(rows, size)[page]
    ensures page >= |Chunks(rows, size)| ==> WindowFrom(rows, PageStart(page, size), size) == []
    decreases |rows|
  {
    var start := PageStart(page, size);
    if |rows| == 0 {
    } else if |rows| <= size {
      assert Chunks(rows, size) == [rows];
    } else if page == 0 {
      assert Chunks(rows, size) == [rows[..size]] + Chunks(rows[size..], size);
    } else {
      var rest := rows[size..];
      var before := PageStart(page - 1, size);
      WindowFromIsChunk(rest, page - 1, size);
      assert Chunks(rows, size) == [rows[..size]] + Chunks(rest, size);
      WindowFromShift(rows, size, before, size);
    }
  }

  /** Dropping `d` rows moves every window `d` places to the left. */
  lemma WindowFromShift(rows: seq<nat>, d: nat, start: nat, size: nat)
    requires d <= |rows|
    ensures WindowFrom(rows[d..], start, size) == WindowFrom(rows, start + d, size)
  {
    var a, b := WindowFrom(rows[d..], start, size), WindowFrom(rows, start + d, size);
    assert |a| == |b|;
    forall i | 0 <= i < |a|
      ensures a[i] == b[i]
    {
      assert a[i] == rows[d..][start + i] == rows[start + d + i];
    }
  }

  // ---------------------------------------------------------------------------------------
  // `getAllUserPresenceAsync`

  /** One entry of a presence request (`IPresenceData`). */
  datatype PresenceQuery = PresenceQuery(userPrincipalName: Option<string>, availability: string, availabilitySortOrder: int, id: string)

  /** A request entry for each listed row still waiting for its presence, in listing order. */
  function PresenceRequests(objects: seq<Row>, hs: seq<nat>): (r: seq<PresenceQuery>)
    ensures |r| <= |hs|
    ensures forall q :: q in r ==>
              (exists i :: 0 <= i < |hs| && hs[i] < |objects| &&
                 objects[hs[i]].presence == NotYetFetched &&
                 q == PresenceQuery(objects[hs[i]].userPrincipalName, "", 0, objects[hs[i]].id))
  {
    if |hs| == 0 then []
    else
      var rest := PresenceRequests(objects, hs[1..]);
      assert forall i :: 1 <= i < |hs| ==> hs[i] == hs[1..][i - 1];
      (if hs[0] < |objects| && objects[hs[0]].presence == NotYetFetched
       then [PresenceQuery(objects[hs[0]].userPrincipalName, "", 0, objects[hs[0]].id)] else []) + rest
  }

  /** Each row waiting for its presence is asked about exactly once. */
  lemma {:induction false} PresenceRequestsCount(objects: seq<Row>, hs: seq<nat>)
    requires ValidHandles(objects, hs)
    ensures |PresenceRequests(objects, hs)| == |Waiting(objects, hs)|
  {
    if |hs| > 0 {
      PresenceRequestsCount(objects, hs[1..]);
    }
  }

  /** The listed rows still waiting for their presence. */
  function Waiting(objects: seq<Row>, hs: seq<nat>): (r: seq<nat>)
    ensures forall h :: h in r <==> h in hs && h < |objects| && objects[h].presence == NotYetFetched
  {
    if |hs| == 0 then []
    else
      var rest := Waiting(objects, hs[1..]);
      assert forall i :: 1 <= i < |hs| ==> hs[i] == hs[1..][i - 1];
      (if hs[0] < |objects| && objects[hs[0]].presence == NotYetFetched then [hs[0]] else []) + rest
  }

  /** The requests as sent: batches of at most forty, in order. */
  function PresenceBatches(v: View): (r: seq<seq<PresenceQuery>>)
    ensures Flatten(r) == PresenceRequests(v.objects, v.master)
    ensures forall b :: 0 <= b < |r| ==> 0 < |r[b]| <= PresenceBatchLimit
  {
    ChunksFlatten(PresenceRequests(v.objects, v.master), PresenceBatchLimit);
    ChunksWellShaped(PresenceRequests(v.objects, v.master), PresenceBatchLimit);
    Chunks(PresenceRequests(v.objects, v.master), PresenceBatchLimit)
  }

  /** Right after a load, nested groups are never asked about and every user member is. */
  lemma LoadedGroupsNeverRequested(members: seq<DistributionListMember>)
    ensures var v := Load(members);
            && (forall q :: q in Flatten(PresenceBatches(v)) ==>
                  exists i :: 0 <= i < |members| && members[i].odataType != Some(GroupType) &&
                              q.id == members[i].id && q.userPrincipalName == Some(members[i].userPrincipalName))
            && (forall h :: h in Waiting(v.objects, v.master) <==>
                  0 <= h < |members| && members[h].odataType != Some(GroupType))
  {
    var v := Load(members);
    LoadedRequestsAreUsers(members, v.objects, v.master);
    LoadedWaitingAreUsers(members, v.objects, v.master);
  }

  /** The requests made over freshly loaded rows name user members only. */
  lemma LoadedRequestsAreUsers(members: seq<DistributionListMember>, objects: seq<Row>, master: seq<nat>)
    requires |objects| == |members|
    requires forall i :: 0 <= i < |members| ==> objects[i] == LoadRow(members[i])
    ensures forall q :: q in Flatten(Chunks(PresenceRequests(objects, master), PresenceBatchLimit)) ==>
              exists i :: 0 <= i < |members| && members[i].odataType != Some(GroupType) &&
                          q.id == members[i].id && q.userPrincipalName == Some(members[i].userPrincipalName)
  {
    ChunksFlatten(PresenceRequests(objects, master), PresenceBatchLimit);
    forall q | q in PresenceRequests(objects, master)
      ensures exists i :: 0 <= i < |members| && members[i].odataType != Some(GroupType) &&
                          q.id == members[i].id && q.userPrincipalName == Some(members[i].userPrincipalName)
    {
      var k :| 0 <= k < |master| && master[k] < |objects| && objects[master[k]].presence == NotYetFetched &&
               q == PresenceQuery(objects[master[k]].userPrincipalName, "", 0, objects[master[k]].id);
      var h := master[k];
      assert objects[h] == LoadRow(members[h]);
    }
  }

  /** Over freshly loaded rows listing every handle, the rows waiting are the user members. */
  lemma LoadedWaitingAreUsers(members: seq<DistributionListMember>, objects: seq<Row>, master: seq<nat>)
    requires |objects| == |members|
    requires forall i :: 0 <= i < |members| ==> objects[i] == LoadRow(members[i])
    requires multiset(master) == multiset(Handles(|members|))
    ensures forall h :: h in Waiting(objects, master) <==> 0 <= h < |members| && members[h].odataType != Some(GroupType)
  {
    forall h | 0 <= h < |members|
      ensures h in master
    {
      assert Handles(|members|)[h] == h;
      assert h in multiset(Handles(|members|));
    }
    forall h | h in Waiting(objects, master)
      ensures 0 <= h < |members| && members[h].odataType != Some(GroupType)
    {
      assert objects[h] == LoadRow(members[h]);
    }
    forall h | 0 <= h < |members| && members[h].odataType != Some(GroupType)
      ensures h in Waiting(objects, master)
    {
      assert objects[h] == LoadRow(members[h]);
    }
  }

  // ---------------------------------------------------------------------------------------
  // `getUserPresenceAsync`

  /** One entry of a presence reply. */
  datatype PresenceRecord = PresenceRecord(userPrincipalName: string, availability: string, availabilitySortOrder: int, id: string)

  /** The first entry of a reply for a user, comparing names lower-cased. */
  function RecordFor(records: seq<PresenceRecord>, upn: string): (r: Option<PresenceRecord>)
    ensures r.Some? ==> r.value in records && Lower(r.value.userPrincipalName) == Lower(upn)
    ensures r.None? <==> forall i :: 0 <= i < |records| ==> Lower(records[i].userPrincipalName) != Lower(upn)
  {
    FindFirst(records, (p: PresenceRecord) => Lower(p.userPrincipalName) == Lower(upn))
  }

  /** A row after a reply: a row with a user name found in the reply takes the entry's
      availability, sort order and id; every other row is left as it was. */
  function ApplyPresence(row: Row, records: seq<PresenceRecord>): (r: Row)
    ensures r == row.(presence := r.presence, sortOrder := r.sortOrder, id := r.id)
    ensures row.userPrincipalName.None? || RecordFor(records, row.userPrincipalName.value).None? ==> r == row
    ensures row.userPrincipalName.Some? && RecordFor(records, row.userPrincipalName.value).Some? ==>
              var p := RecordFor(records, row.userPrincipalName.value).value;
              r.presence == p.availability && r.sortOrder == p.availabilitySortOrder && r.id == p.id
  {
    if row.userPrincipalName.None? then row
    else match RecordFor(records, row.userPrincipalName.value)
      case None => row
      case Some(p) => row.(presence := p.availability, sortOrder := p.availabilitySortOrder, id := p.id)
  }

  /** Merging the same reply twice is merging it once, which is why updating the listing's rows
      and then the shown rows (the same objects) is one update. */
  lemma ApplyPresenceIdempotent(row: Row, records: seq<PresenceRecord>)
    ensures ApplyPresence(ApplyPresence(row, records), records) == ApplyPresence(row, records)
  {
  }

  /** Replies about different users can arrive in either order: merging them gives the same row. */
  lemma ApplyPresenceCommutes(row: Row, a: seq<PresenceRecord>, b: seq<PresenceRecord>)
    requires forall i, j :: 0 <= i < |a| && 0 <= j < |b| ==>
               Lower(a[i].userPrincipalName) != Lower(b[j].userPrincipalName)
    ensures ApplyPresence(ApplyPresence(row, a), b) == ApplyPresence(ApplyPresence(row, b), a)
  {
    if row.userPrincipalName.Some? {
      var upn := row.userPrincipalName.value;
      if RecordFor(a, upn).Some? {
        var p := RecordFor(a, upn).value;
        var i :| 0 <= i < |a| && a[i] == p;
        assert RecordFor(b, upn).None?;
      }
    }
  }

  /** `getUserPresenceAsync` on a reply: every row of the listing or of the grid takes its
      presence from the reply, then the grid is sorted by presence, ascending. */
  function MergePresence(v: View, records: seq<PresenceRecord>): (r: View)
    ensures r.master == v.master && r.chat == v.chat && |r.objects| == |v.objects|
    ensures forall h :: 0 <= h < |v.objects| ==>
              r.objects[h] == (if h in v.master || h in v.current then ApplyPresence(v.objects[h], records) else v.objects[h])
    ensures ValidHandles(v.objects, v.current) ==>
              multiset(r.current) == multiset(v.current) && PinnedBeforeUnpinned(r.objects, r.current)
    ensures WellFormed(v) ==>
              forall i, j :: 0 <= i < j < |r.current| && r.objects[r.current[i]].isPinned == r.objects[r.current[j]].isPinned ==>
                r.objects[r.current[i]].sortOrder <= r.objects[r.current[j]].sortOrder
  {
    var objects := seq(|v.objects|, h requires 0 <= h < |v.objects| =>
      if h as nat in v.master || h as nat in v.current then ApplyPresence(v.objects[h], records) else v.objects[h]);
    var merged := v.(objects := objects);
    assert ValidHandles(v.objects, v.current) ==> ValidHandles(objects, v.current);
    assert WellFormed(v) ==> WellFormed(merged);
    PresenceSortFacts(merged);
    SortColumnItems(merged, PresenceColumn, true)
  }

  /** The presence sort after a reply: a permutation of valid shown rows, pinned first, each part
      by sort order, ascending. */
  lemma PresenceSortFacts(v: View)
    ensures var r := SortColumnItems(v, PresenceColumn, true);
            && (ValidHandles(v.objects, v.current) ==>
                  multiset(r.current) == multiset(v.current) && PinnedBeforeUnpinned(r.objects, r.current))
            && (WellFormed(v) ==>
                  forall i, j :: 0 <= i < j < |r.current| && r.objects[r.current[i]].isPinned == r.objects[r.current[j]].isPinned ==>
                    r.objects[r.current[i]].sortOrder <= r.objects[r.current[j]].sortOrder)
  {
    if ValidHandles(v.objects, v.current) {
      SortColumnItemsReorders(v, PresenceColumn, true);
    }
    if WellFormed(v) {
      SortByPresenceOrders(v, true);
    }
  }
}

=== FILE: page_size.dfy ===
/** The page size each user chose for the list of favourites and for a list's members:
    `UserPageSizeChoiceDataRepository` and the GET of `UserPageSizeController`. One row per
    user, under the partition key "default" and the lower-cased user principal name. */
module PageSize {
  import opened Wrappers
  import opened Text
  import opened TableStore

  /** The partition every choice row lives in. */
  const DefaultPartition: string := "default"

  lemma DefaultPartitionIsLowerCase()
    ensures Lower(DefaultPartition) == DefaultPartition
  {
    LowerOfLowerCase(DefaultPartition);
  }

  /** A choice row (`UserPageSizeChoiceTableEntity`): partition key `defaultValue`, row key
      `userPrincipalName`, and the two page sizes. */
  datatype ChoiceEntity = ChoiceEntity(
    defaultValue: string,
    userPrincipalName: string,
    distributionListPageSize: int,
    distributionListMemberPageSize: int)

  function EntityKey(e: ChoiceEntity): Key {
    Key(e.defaultValue, e.userPrincipalName)
  }

  type ChoiceTable = Table<ChoiceEntity>

  ghost predicate TableWellFormed(table: ChoiceTable) {
    forall k :: k in table ==> EntityKey(table[k]) == k
  }

  /** Which page a size is for (`PageType`). */
  datatype PageType = DistributionList | DistributionListMember

  /** A new row, before its fields are set: sizes default to 0. */
  const NewEntity: ChoiceEntity := ChoiceEntity("", "", 0, 0)

  /** The GET: the caller's row, or none. */
  function GetChoice(table: ChoiceTable, caller: string): (r: Option<ChoiceEntity>)
    ensures r.Some? <==> Key(DefaultPartition, Lower(caller)) in table
  {
    DefaultPartitionIsLowerCase();
    Get(table, DefaultPartition, caller)
  }

  /** The row a save writes: the row read (or a new one) with its keys set and the chosen page's
      size replaced. */
  function Chosen(e: ChoiceEntity, caller: string, pageSize: int, pageType: PageType): (r: ChoiceEntity)
    ensures EntityKey(r) == Key(DefaultPartition, Lower(caller))
  {
    var keyed := e.(defaultValue := DefaultPartition, userPrincipalName := Lower(caller));
    match pageType
    case DistributionList => keyed.(distributionListPageSize := pageSize)
    case DistributionListMember => keyed.(distributionListMemberPageSize := pageSize)
  }

  /** `CreateOrUpdateUserPageSizeChoiceDataAsync`: read the caller's row (or start a new one), set
      its keys, set the size of the given page and write it back. */
  function SaveChoice(table: ChoiceTable, caller: string, pageSize: int, pageType: PageType): (r: ChoiceTable)
    ensures Key(DefaultPartition, Lower(caller)) in r
  {
    var updated := Chosen(GetChoice(table, caller).GetOr(NewEntity), caller, pageSize, pageType);
    CreateOrUpdate(table, EntityKey(updated), updated)
  }

  /** A save is an upsert of the caller's row only: every other row is as it was, and a table
      whose rows sit under their own keys stays so. */
  lemma SaveChoiceOnlyCaller(table: ChoiceTable, caller: string, pageSize: int, pageType: PageType)
    ensures var r := SaveChoice(table, caller, pageSize, pageType);
            && (TableWellFormed(table) ==> TableWellFormed(r))
            && (forall k :: k != Key(DefaultPartition, Lower(caller)) ==> (k in r <==> k in table))
            && (forall k :: k != Key(DefaultPartition, Lower(caller)) && k in table ==> r[k] == table[k])
  {
  }

  /** The caller's key as the lookup computes it. */
  lemma CallerKey(caller: string)
    ensures LookupKey(DefaultPartition, caller) == Key(DefaultPartition, Lower(caller))
  {
    DefaultPartitionIsLowerCase();
  }

  /** A save as a map update of the caller's key: an unfolding of `SaveChoice`'s body used by the
      proofs of `SaveTwice` and `SaveIdempotent`, not a contract. */
  lemma SaveChoiceUpdates(table: ChoiceTable, caller: string, pageSize: int, pageType: PageType)
    ensures SaveChoice(table, caller, pageSize, pageType) ==
            table[Key(DefaultPartition, Lower(caller)) := Chosen(GetChoice(table, caller).GetOr(NewEntity), caller, pageSize, pageType)]
  {
  }

  /** A table the caller's row is stored in reads that row back. */
  lemma GetStored(table: ChoiceTable, caller: string, e: ChoiceEntity)
    requires Key(DefaultPartition, Lower(caller)) in table && table[Key(DefaultPartition, Lower(caller))] == e
    ensures GetChoice(table, caller) == Some(e)
  {
    CallerKey(caller);
  }

  /** The size saved for a page is read back for that page; the other page keeps the size it had
      (0 for a user without a row). */
  lemma SaveThenGet(table: ChoiceTable, caller: string, pageSize: int, pageType: PageType)
    ensures var before := GetChoice(table, caller).GetOr(NewEntity);
            var after := GetChoice(SaveChoice(table, caller, pageSize, pageType), caller);
            && after.Some?
            && after.value.defaultValue == DefaultPartition
            && after.value.userPrincipalName == Lower(caller)
            && (pageType == DistributionList ==>
                  after.value.distributionListPageSize == pageSize &&
                  after.value.distributionListMemberPageSize == before.distributionListMemberPageSize)
            && (pageType == DistributionListMember ==>
                  after.value.distributionListMemberPageSize == pageSize &&
                  after.value.distributionListPageSize == before.distributionListPageSize)
  {
    DefaultPartitionIsLowerCase();
    LowerIdempotent(caller);
  }

  lemma ChosenIdempotent(e: ChoiceEntity, caller: string, pageSize: int, pageType: PageType)
    ensures Chosen(Chosen(e, caller, pageSize, pageType), caller, pageSize, pageType) == Chosen(e, caller, pageSize, pageType)
  {
  }

  lemma ChosenCommute(e: ChoiceEntity, caller: string, listSize: int, memberSize: int)
    ensures Chosen(Chosen(e, caller, listSize, DistributionList), caller, memberSize, DistributionListMember)
            == Chosen(Chosen(e, caller, memberSize, DistributionListMember), caller, listSize, DistributionList)
  {
  }

  /** Writing a key twice keeps only the second write. */
  lemma UpdateTwice(table: ChoiceTable, k: Key, a: ChoiceEntity, b: ChoiceEntity)
    ensures table[k := a][k := b] == table[k := b]
  {
  }

  /** A second save reads the row the first one wrote. */
  lemma SaveTwice(table: ChoiceTable, caller: string, size1: int, type1: PageType, size2: int, type2: PageType)
    ensures var e := Chosen(GetChoice(table, caller).GetOr(NewEntity), caller, size1, type1);
            SaveChoice(SaveChoice(table, caller, size1, type1), caller, size2, type2) ==
            table[Key(DefaultPartition, Lower(caller)) := Chosen(e, caller, size2, type2)]
  {
    var k := Key(DefaultPartition, Lower(caller));
    var e := Chosen(GetChoice(table, caller).GetOr(NewEntity), caller, size1, type1);
    var once := SaveChoice(table, caller, size1, type1);
    SaveChoiceUpdates(table, caller, size1, type1);
    assert once == table[k := e];
    GetStored(once, caller, e);
    assert GetChoice(once, caller).GetOr(NewEntity) == e;
    SaveChoiceUpdates(once, caller, size2, type2);
    assert SaveChoice(once, caller, size2, type2) == once[k := Chosen(e, caller, size2, type2)];
    UpdateTwice(table, k, e, Chosen(e, caller, size2, type2));
  }

  /** Saving the same choice twice is saving it once. */
  lemma SaveIdempotent(table: ChoiceTable, caller: string, pageSize: int, pageType: PageType)
    ensures SaveChoice(SaveChoice(table, caller, pageSize, pageType), caller, pageSize, pageType)
            == SaveChoice(table, caller, pageSize, pageType)
  {
    var before := GetChoice(table, caller).GetOr(NewEntity);
    SaveTwice(table, caller, pageSize, pageType, pageSize, pageType);
    ChosenIdempotent(before, caller, pageSize, pageType);
    SaveChoiceUpdates(table, caller, pageSize, pageType);
  }

  /** Sizes for the two pages are independent: saving them in either order gives the same table. */
  lemma SavesCommute(table: ChoiceTable, caller: string, listSize: int, memberSize: int)
    ensures SaveChoice(SaveChoice(table, caller, listSize, DistributionList), caller, memberSize, DistributionListMember)
            == SaveChoice(SaveChoice(table, caller, memberSize, DistributionListMember), caller, listSize, DistributionList)
  {
    var before := GetChoice(table, caller).GetOr(NewEntity);
    SaveTwice(table, caller, listSize, DistributionList, memberSize, DistributionListMember);
    SaveTwice(table, caller, memberSize, DistributionListMember, listSize, DistributionList);
    ChosenCommute(before, caller, listSize, memberSize);
  }
}

=== FILE: people_presence.dfy ===
/** `PeoplePresenceData`: a member's presence record and the sort order derived from its availability. */
module PeoplePresence {
  import opened Wrappers
  import opened Text

  /** A presence record: availability (null until fetched), the member's user principal name
      and the member's directory (AAD) object id. */
  datatype PeoplePresenceData = PeoplePresenceData(
    availability: Option<string>,
    userPrincipalName: string,
    id: Option<string>)

  /** The availability values that get their own rank, in rank order. */
  const RankedAvailabilities: seq<string> := ["online", "busy", "donotdisturb", "berightback", "away", "offline"]

  /** Rank given to a null, empty or unrecognised availability. */
  const UnrankedSortOrder: nat := 6

  /** The `AvailabilitySortOrder` getter: the availability's rank, compared without regard to case. */
  function AvailabilitySortOrder(availability: Option<string>): (r: nat)
    ensures r <= UnrankedSortOrder
    ensures availability.None? || availability.value == "" ==> r == UnrankedSortOrder
    ensures availability.Some? && r < UnrankedSortOrder ==>
              Lower(availability.value) == RankedAvailabilities[r]
    ensures r == UnrankedSortOrder ==>
              availability.None? || Lower(availability.value) !in RankedAvailabilities
  {
    var key := if availability.Some? && availability.value != "" then Lower(availability.value) else "";
    if key == "online" then 0
    else if key == "busy" then 1
    else if key == "donotdisturb" then 2
    else if key == "berightback" then 3
    else if key == "away" then 4
    else if key == "offline" then 5
    else UnrankedSortOrder
  }

  /** Every ranked availability gets its rank, whatever its letter case. */
  lemma SortOrderOfRanked(availability: string, k: nat)
    requires k < |RankedAvailabilities| && Lower(availability) == RankedAvailabilities[k]
    ensures AvailabilitySortOrder(Some(availability)) == k
  {
  }

  /** The sort order depends only on the lower-case form of the availability. */
  lemma SortOrderIgnoresCase(a: string, b: string)
    requires EqualsIgnoreCase(a, b)
    ensures AvailabilitySortOrder(Some(a)) == AvailabilitySortOrder(Some(b))
  {
    if a == "" || b == "" {
      assert |a| == |Lower(a)| == |Lower(b)| == |b|;
    }
  }
}

=== FILE: presence_repository.dfy ===
/** `PresenceDataRepository`: presence of many members at once, served from a cache where
    possible and otherwise fetched from Microsoft Graph in JSON batches; and the count of a
    distribution list's members who are online. The cache is a map without expiry; Graph is a
    function from a batch payload to what `CallGraphApiPostOnBehalfOfUser` hands back. */
module PresenceRepository {
  import opened Wrappers
  import opened Text
  import opened ListExtensions
  import opened PeoplePresence
  import opened GraphBatchRequests
  import opened DirectoryData
  import opened GraphCalls

  /** The presence cache: records by lower-cased user principal name. */
  type Cache = map<string, PeoplePresenceData>

  /** Graph accepts at most 20 sub-requests per batch; the repository sends 19. */
  const PresenceBatchSize: nat := 19

  /** The presence sub-request URL, with `{0}` standing for the member's directory id. */
  const PresenceQuery: string := "/users/{0}/presence"

  const GetMethod: string := "GET"

  /** What the cache holds when only this repository writes it: each record under its own
      (lower-case) user principal name, with an availability. */
  ghost predicate CacheWellFormed(cache: Cache) {
    forall k :: k in cache ==> cache[k].userPrincipalName == k && IsLowerCase(k) && cache[k].availability.Some?
  }

  // ---------------------------------------------------------------------------------------
  // Cache partition

  /** The key a member is looked up under. */
  function CacheKey(member: PeoplePresenceData): string {
    Lower(member.userPrincipalName)
  }

  predicate IsCached(cache: Cache, member: PeoplePresenceData) {
    CacheKey(member) in cache
  }

  /** The record queued for Graph for a member that missed the cache: its user principal name and
      directory id, with no availability yet. */
  function Fresh(member: PeoplePresenceData): PeoplePresenceData {
    PeoplePresenceData(None, member.userPrincipalName, member.id)
  }

  /** The cached records of the members found in the cache, in member order. */
  function Hits(cache: Cache, members: seq<PeoplePresenceData>): seq<PeoplePresenceData> {
    if |members| == 0 then []
    else (if IsCached(cache, members[0]) then [cache[CacheKey(members[0])]] else []) + Hits(cache, members[1..])
  }

  /** The fresh records of the members the cache misses, in member order. */
  function Misses(cache: Cache, members: seq<PeoplePresenceData>): seq<PeoplePresenceData> {
    if |members| == 0 then []
    else (if IsCached(cache, members[0]) then [] else [Fresh(members[0])]) + Misses(cache, members[1..])
  }

  /** Every member lands in exactly one place: the cached records or the records to fetch. */
  lemma {:induction false} PartitionIsExact(cache: Cache, members: seq<PeoplePresenceData>)
    ensures |Hits(cache, members)| + |Misses(cache, members)| == |members|
    ensures forall x :: x in Hits(cache, members) <==>
              exists i :: 0 <= i < |members| && IsCached(cache, members[i]) && x == cache[CacheKey(members[i])]
    ensures forall x :: x in Misses(cache, members) <==>
              exists i :: 0 <= i < |members| && !IsCached(cache, members[i]) && x == Fresh(members[i])
  {
    PartitionSizes(cache, members);
    HitsAreCached(cache, members);
    MissesAreFresh(cache, members);
  }

  lemma {:induction false} PartitionSizes(cache: Cache, members: seq<PeoplePresenceData>)
    ensures |Hits(cache, members)| + |Misses(cache, members)| == |members|
  {
    if |members| > 0 {
      PartitionSizes(cache, members[1..]);
    }
  }

  /** The hits are the cached records of the members the cache holds. */
  lemma {:induction false} HitsAreCached(cache: Cache, members: seq<PeoplePresenceData>)
    ensures forall x :: x in Hits(cache, members) <==>
              exists i :: 0 <= i < |members| && IsCached(cache, members[i]) && x == cache[CacheKey(members[i])]
  {
    if |members| > 0 {
      HitsAreCached(cache, members[1..]);
      var rest := members[1..];
      forall x | x in Hits(cache, members)
        ensures exists i :: 0 <= i < |members| && IsCached(cache, members[i]) && x == cache[CacheKey(members[i])]
      {
        if !(IsCached(cache, members[0]) && x == cache[CacheKey(members[0])]) {
          assert x in Hits(cache, rest);
          var i :| 0 <= i < |rest| && IsCached(cache, rest[i]) && x == cache[CacheKey(rest[i])];
          assert members[i + 1] == rest[i];
        }
      }
      forall x | exists i :: 0 <= i < |members| && IsCached(cache, members[i]) && x == cache[CacheKey(members[i])]
        ensures x in Hits(cache, members)
      {
        var i :| 0 <= i < |members| && IsCached(cache, members[i]) && x == cache[CacheKey(members[i])];
        if i > 0 {
          assert rest[i - 1] == members[i];
        }
      }
    }
  }

  /** The misses are the fresh records of the members the cache lacks. */
  lemma {:induction false} MissesAreFresh(cache: Cache, members: seq<PeoplePresenceData>)
    ensures forall x :: x in Misses(cache, members) <==>
              exists i :: 0 <= i < |members| && !IsCached(cache, members[i]) && x == Fresh(members[i])
  {
    if |members| > 0 {
      MissesAreFresh(cache, members[1..]);
      var rest := members[1..];
      forall x | x in Misses(cache, members)
        ensures exists i :: 0 <= i < |members| && !IsCached(cache, members[i]) && x == Fresh(members[i])
      {
        if !(!IsCached(cache, members[0]) && x == Fresh(members[0])) {
          assert x in Misses(cache, rest);
          var i :| 0 <= i < |rest| && !IsCached(cache, rest[i]) && x == Fresh(rest[i]);
          assert members[i + 1] == rest[i];
        }
      }
      forall x | exists i :: 0 <= i < |members| && !IsCached(cache, members[i]) && x == Fresh(members[i])
        ensures x in Misses(cache, members)
      {
        var i :| 0 <= i < |members| && !IsCached(cache, members[i]) && x == Fresh(members[i]);
        if i > 0 {
          assert rest[i - 1] == members[i];
        }
      }
    }
  }

  /** With no member missing from the cache there is nothing to fetch, and conversely. */
  lemma {:induction false} NoMissesWhenAllCached(cache: Cache, members: seq<PeoplePresenceData>)
    ensures |Misses(cache, members)| == 0 <==> forall i :: 0 <= i < |members| ==> IsCached(cache, members[i])
  {
    if |members| > 0 {
      NoMissesWhenAllCached(cache, members[1..]);
      assert forall i :: 1 <= i < |members| ==> members[i] == members[1..][i - 1];
    }
  }

  // ---------------------------------------------------------------------------------------
  // Reading a batch reply

  /** Graph reports a free user as `available`; the backend reports that as `Online` and keeps
      every other status as it is. */
  function Normalise(status: string): (r: string)
    ensures r == status || r == "Online"
    ensures Lower(status) == "available" <==> r != status
    ensures Lower(r) != "available"
  {
    if Lower(status) == "available" then "Online" else status
  }

  /** One presence sub-response read into a record, or nothing when reading it throws: a missing
      body, availability or id makes the string operations throw. The record is keyed by the
      response id (the member's user principal name) lower-cased. */
  function ParsePresence(response: BatchResponse): (r: Option<PeoplePresenceData>)
    ensures r.Some? <==> response.id.Some? && response.body.Some? && response.body.value.availability.Some?
    ensures r.Some? ==> r.value.userPrincipalName == Lower(response.id.value) && IsLowerCase(r.value.userPrincipalName)
    ensures r.Some? ==> r.value.id == response.body.value.id
    ensures r.Some? ==> r.value.availability == Some(Normalise(response.body.value.availability.value))
  {
    if response.id.None? || response.body.None? || response.body.value.availability.None? then None
    else
      LowerIsLowerCase(response.id.value);
      Some(PeoplePresenceData(
        Some(Normalise(response.body.value.availability.value)),
        Lower(response.id.value),
        response.body.value.id))
  }

  /** The records read from a list of sub-responses, in order, skipping those that throw. */
  function ParseAll(responses: seq<BatchResponse>): seq<PeoplePresenceData> {
    if |responses| == 0 then []
    else
      var here := ParsePresence(responses[0]);
      (if here.Some? then [here.value] else []) + ParseAll(responses[1..])
  }

  /** The records read from one batch: none when the call failed (its text is not a list) or
      the reply had no `responses`. */
  function BatchRecords(outcome: PostOutcome): seq<PeoplePresenceData> {
    match outcome
    case ErrorText(_) => []
    case Responses(None) => []
    case Responses(Some(responses)) => ParseAll(responses)
  }

  /** A record read from Graph: keyed by a lower-case name, with an availability that is not
      `available` in any case. */
  ghost predicate FromGraph(record: PeoplePresenceData) {
    && IsLowerCase(record.userPrincipalName)
    && record.availability.Some?
    && Lower(record.availability.value) != "available"
  }

  /** The records read are exactly the readable responses' records: an unreadable response is
      skipped without costing the others theirs. */
  lemma {:induction false} ParseAllFromGraph(responses: seq<BatchResponse>)
    ensures |ParseAll(responses)| <= |responses|
    ensures forall x :: x in ParseAll(responses) ==> FromGraph(x)
    ensures forall x :: x in ParseAll(responses) <==> exists i :: 0 <= i < |responses| && ParsePresence(responses[i]) == Some(x)
  {
    if |responses| > 0 {
      ParseAllFromGraph(responses[1..]);
      var rest := responses[1..];
      forall x | x in ParseAll(responses)
        ensures exists i :: 0 <= i < |responses| && ParsePresence(responses[i]) == Some(x)
      {
        if ParsePresence(responses[0]) != Some(x) {
          assert x in ParseAll(rest);
          var i :| 0 <= i < |rest| && ParsePresence(rest[i]) == Some(x);
          assert responses[i + 1] == rest[i];
        }
      }
      forall x | exists i :: 0 <= i < |responses| && ParsePresence(responses[i]) == Some(x)
        ensures x in ParseAll(responses)
      {
        var i :| 0 <= i < |responses| && ParsePresence(responses[i]) == Some(x);
        if i > 0 {
          assert rest[i - 1] == responses[i];
        }
      }
    }
  }

  // ---------------------------------------------------------------------------------------
  // The batch fetch

  /** The payload sent for one batch of members. */
  function BatchPayload(batch: seq<PeoplePresenceData>): seq<BatchRequest> {
    PresencePayload(PresenceQuery, GetMethod, batch)
  }

  /** The payloads sent, one per batch, in batch order. */
  function Payloads(batches: seq<seq<PeoplePresenceData>>): (r: seq<seq<BatchRequest>>)
    ensures |r| == |batches|
  {
    seq(|batches|, b requires 0 <= b < |batches| => BatchPayload(batches[b]))
  }

  /** The records read from the replies to the batches, batch by batch. */
  function Fetched(graph: seq<BatchRequest> -> PostOutcome, batches: seq<seq<PeoplePresenceData>>): seq<PeoplePresenceData> {
    if |batches| == 0 then []
    else BatchRecords(graph(BatchPayload(batches[0]))) + Fetched(graph, batches[1..])
  }

  lemma {:induction false} FetchedFromGraph(graph: seq<BatchRequest> -> PostOutcome, batches: seq<seq<PeoplePresenceData>>)
    ensures forall x :: x in Fetched(graph, batches) ==> FromGraph(x)
  {
    if |batches| > 0 {
      FetchedFromGraph(graph, batches[1..]);
      var outcome := graph(BatchPayload(batches[0]));
      if outcome.Responses? && outcome.responses.Some? {
        ParseAllFromGraph(outcome.responses.value);
      }
    }
  }

  /** `memoryCache.Set` for each record in turn, under its user principal name. */
  function CacheAll(cache: Cache, records: seq<PeoplePresenceData>): (r: Cache)
    ensures forall k :: k in r <==> k in cache || exists i :: 0 <= i < |records| && records[i].userPrincipalName == k
    ensures forall k :: k in cache && (forall i :: 0 <= i < |records| ==> records[i].userPrincipalName != k) ==> r[k] == cache[k]
    decreases |records|
  {
    if |records| == 0 then cache
    else
      var r := CacheAll(cache[records[0].userPrincipalName := records[0]], records[1..]);
      assert forall i :: 1 <= i < |records| ==> records[i] == records[1..][i - 1];
      r
  }

  /** The last record written for a name is the one the cache keeps. */
  lemma {:induction false} CacheAllKeepsLast(cache: Cache, records: seq<PeoplePresenceData>, i: nat)
    requires i < |records|
    requires forall j :: i < j < |records| ==> records[j].userPrincipalName != records[i].userPrincipalName
    ensures CacheAll(cache, records)[records[i].userPrincipalName] == records[i]
    decreases |records|
  {
    var next := cache[records[0].userPrincipalName := records[0]];
    if i > 0 {
      assert forall j :: i - 1 < j < |records| - 1 ==> records[1..][j] == records[j + 1];
      CacheAllKeepsLast(next, records[1..], i - 1);
    } else {
      assert forall j :: 0 <= j < |records| - 1 ==> records[1..][j].userPrincipalName != records[0].userPrincipalName;
    }
  }

  /** Under each name written, the cache holds one of the records written with that name. */
  lemma {:induction false} CacheAllHoldsWritten(cache: Cache, records: seq<PeoplePresenceData>)
    ensures forall i :: 0 <= i < |records| ==>
              && records[i].userPrincipalName in CacheAll(cache, records)
              && CacheAll(cache, records)[records[i].userPrincipalName] in records
              && CacheAll(cache, records)[records[i].userPrincipalName].userPrincipalName == records[i].userPrincipalName
    decreases |records|
  {
    if |records| > 0 {
      var next := cache[records[0].userPrincipalName := records[0]];
      var rest := records[1..];
      CacheAllHoldsWritten(next, rest);
      var r := CacheAll(cache, records);
      assert r == CacheAll(next, rest);
      forall i | 0 <= i < |records|
        ensures && records[i].userPrincipalName in r
                && r[records[i].userPrincipalName] in records
                && r[records[i].userPrincipalName].userPrincipalName == records[i].userPrincipalName
      {
        var k := records[i].userPrincipalName;
        if j :| 0 <= j < |rest| && rest[j].userPrincipalName == k {
          assert r[rest[j].userPrincipalName] in rest;
          assert forall x :: x in rest ==> x in records;
        } else {
          assert k == records[0].userPrincipalName;
          assert r[k] == next[k];
        }
      }
    }
  }

  /** Caching records read from Graph keeps the cache well formed. */
  lemma {:induction false} CacheAllWellFormed(cache: Cache, records: seq<PeoplePresenceData>)
    ensures CacheWellFormed(cache) && (forall x :: x in records ==> FromGraph(x)) ==>
              CacheWellFormed(CacheAll(cache, records))
    decreases |records|
  {
    if |records| > 0 && CacheWellFormed(cache) && (forall x :: x in records ==> FromGraph(x)) {
      assert records[0] in records;
      var next := cache[records[0].userPrincipalName := records[0]];
      assert CacheWellFormed(next);
      assert forall x :: x in records[1..] ==> x in records;
      CacheAllWellFormed(next, records[1..]);
    }
  }

  /** The outcome of a presence lookup: the records returned, the cache afterwards and the batch
      payloads sent to Graph. */
  datatype PresenceLookup = PresenceLookup(records: seq<PeoplePresenceData>, cache: Cache, payloads: seq<seq<BatchRequest>>)

  /** `GetBatchUserPresenceAsync`: the cached records of the members the cache holds, then the
      records Graph returns for the others, fetched in order-preserving batches of at most 19;
      Graph is called only when some member missed the cache, and every record it returns is
      cached under its lower-cased name. */
  function GetBatchUserPresence(cache: Cache, members: seq<PeoplePresenceData>, graph: seq<BatchRequest> -> PostOutcome): (r: PresenceLookup)
    ensures r.payloads == [] <==> |Misses(cache, members)| == 0
    ensures |r.records| >= |Hits(cache, members)|
    ensures |Misses(cache, members)| == 0 ==> r.records == Hits(cache, members) && r.cache == cache
    ensures forall b :: 0 <= b < |r.payloads| ==> 0 < |r.payloads[b]| <= PresenceBatchSize
    ensures Flatten(r.payloads) == PresencePayload(PresenceQuery, GetMethod, Misses(cache, members))
    ensures r.records[..|Hits(cache, members)|] == Hits(cache, members)
    ensures |Misses(cache, members)| > 0 ==>
              var fetched := Fetched(graph, Chunks(Misses(cache, members), PresenceBatchSize));
              r.records == Hits(cache, members) + fetched && r.cache == CacheAll(cache, fetched)
    ensures forall x :: x in r.records[|Hits(cache, members)|..] ==>
              && FromGraph(x)
              && x.userPrincipalName in r.cache
              && r.cache[x.userPrincipalName] in r.records[|Hits(cache, members)|..]
              && r.cache[x.userPrincipalName].userPrincipalName == x.userPrincipalName
    ensures CacheWellFormed(cache) ==> CacheWellFormed(r.cache)
  {
    var hits := Hits(cache, members);
    var misses := Misses(cache, members);
    if |misses| == 0 then
      PresenceLookup(hits, cache, [])
    else
      var batches := Chunks(misses, PresenceBatchSize);
      var fetched := Fetched(graph, batches);
      ChunksWellShaped(misses, PresenceBatchSize);
      ChunksFlatten(misses, PresenceBatchSize);
      FlattenPayloads(batches);
      FetchedFromGraph(graph, batches);
      CacheAllWellFormed(cache, fetched);
      CacheAllHoldsWritten(cache, fetched);
      var r := PresenceLookup(hits + fetched, CacheAll(cache, fetched), Payloads(batches));
      assert r.records[..|hits|] == hits;
      assert r.records[|hits|..] == fetched;
      r
  }

  /** A record read from the reply to any one batch is among the records fetched. */
  lemma {:induction false} FetchedHasBatch(graph: seq<BatchRequest> -> PostOutcome, batches: seq<seq<PeoplePresenceData>>, b: nat, x: PeoplePresenceData)
    requires b < |batches| && x in BatchRecords(graph(BatchPayload(batches[b])))
    ensures x in Fetched(graph, batches)
  {
    if b > 0 {
      assert batches[1..][b - 1] == batches[b];
      FetchedHasBatch(graph, batches[1..], b - 1, x);
    }
  }

  /** Whatever Graph answers for a batch of misses, every sub-response the repository can read
      comes back as a record, and the cache then holds a record for that member's name. */
  lemma GetBatchUserPresenceReadsGraph(cache: Cache, members: seq<PeoplePresenceData>, graph: seq<BatchRequest> -> PostOutcome,
                                       b: nat, responses: seq<BatchResponse>, i: nat)
    requires var batches := Chunks(Misses(cache, members), PresenceBatchSize);
             b < |batches| && graph(BatchPayload(batches[b])) == Responses(Some(responses))
    requires i < |responses| && ParsePresence(responses[i]).Some?
    ensures var r := GetBatchUserPresence(cache, members, graph);
            var x := ParsePresence(responses[i]).value;
            && x in r.records
            && x.userPrincipalName in r.cache
            && r.cache[x.userPrincipalName].userPrincipalName == x.userPrincipalName
  {
    var misses := Misses(cache, members);
    var batches := Chunks(misses, PresenceBatchSize);
    var x := ParsePresence(responses[i]).value;
    ParseAllFromGraph(responses);
    assert x in BatchRecords(graph(BatchPayload(batches[b])));
    FetchedHasBatch(graph, batches, b, x);
    var fetched := Fetched(graph, batches);
    var hits := Hits(cache, members);
    assert |misses| > 0;
    var r := GetBatchUserPresence(cache, members, graph);
    assert r.records == hits + fetched;
    assert r.records[|hits|..] == fetched;
  }

  /** Sending the batches one payload each sends the payload of all of them. */
  lemma {:induction false} FlattenPayloads(batches: seq<seq<PeoplePresenceData>>)
    ensures Flatten(Payloads(batches)) == PresencePayload(PresenceQuery, GetMethod, Flatten(batches))
  {
    if |batches| > 0 {
      FlattenPayloads(batches[1..]);
      assert Payloads(batches) == [BatchPayload(batches[0])] + Payloads(batches[1..]);
      assert Payloads(batches)[0] == BatchPayload(batches[0]);
      assert Payloads(batches)[1..] == Payloads(batches[1..]);
      PresencePayloadAppend(batches[0], Flatten(batches[1..]));
    } else {
      assert Flatten(batches) == [];
    }
  }

  lemma PresencePayloadAppend(a: seq<PeoplePresenceData>, b: seq<PeoplePresenceData>)
    ensures PresencePayload(PresenceQuery, GetMethod, a + b) ==
            PresencePayload(PresenceQuery, GetMethod, a) + PresencePayload(PresenceQuery, GetMethod, b)
  {
    var lhs := PresencePayload(PresenceQuery, GetMethod, a + b);
    var rhs := PresencePayload(PresenceQuery, GetMethod, a) + PresencePayload(PresenceQuery, GetMethod, b);
    assert |lhs| == |rhs|;
    forall i | 0 <= i < |lhs|
      ensures lhs[i] == rhs[i]
    {
      if i < |a| {
        assert (a + b)[i] == a[i];
      } else {
        assert (a + b)[i] == b[i - |a|];
      }
    }
  }

  // ---------------------------------------------------------------------------------------
  // Online count

  /** The upper-cased availabilities counted as online. */
  const OnlinePresenceOptions: seq<string> := ["BUSY", "DONOTDISTURB", "ONLINE"]

  predicate IsOnline(availability: string) {
    Upper(availability) in OnlinePresenceOptions
  }

  /** The number of records whose availability counts as online. */
  function CountOnline(records: seq<PeoplePresenceData>): (n: nat)
    ensures n <= |records|
  {
    if |records| == 0 then 0
    else
      (if records[0].availability.Some? && IsOnline(records[0].availability.value) then 1 else 0)
      + CountOnline(records[1..])
  }

  lemma {:induction false} CountOnlineAppend(a: seq<PeoplePresenceData>, b: seq<PeoplePresenceData>)
    ensures CountOnline(a + b) == CountOnline(a) + CountOnline(b)
  {
    if |a| == 0 {
      assert a + b == b;
    } else {
      assert (a + b)[1..] == a[1..] + b;
      CountOnlineAppend(a[1..], b);
    }
  }

  /** `GetMembersList`: the members that are users of the tenant, keeping their order. */
  predicate IsCountedMember(m: DistributionListMember) {
    MatchesIgnoreCase(m.userType, MemberUserType) && MatchesIgnoreCase(m.odataType, UserType)
  }

  function MembersList(members: seq<DistributionListMember>): (r: seq<DistributionListMember>)
    ensures |r| <= |members|
    ensures forall x :: x in r <==> x in members && IsCountedMember(x)
  {
    if |members| == 0 then []
    else (if IsCountedMember(members[0]) then [members[0]] else []) + MembersList(members[1..])
  }

  /** The filter keeps order and repeats: it works member by member, and a listing split in two
      is filtered as the two halves one after the other. */
  lemma {:induction false} MembersListAppend(a: seq<DistributionListMember>, b: seq<DistributionListMember>)
    ensures MembersList(a + b) == MembersList(a) + MembersList(b)
    ensures forall m :: MembersList([m]) == if IsCountedMember(m) then [m] else []
  {
    forall m
      ensures MembersList([m]) == if IsCountedMember(m) then [m] else []
    {
      assert [m][1..] == [];
    }
    if |a| == 0 {
      assert a + b == b;
    } else {
      assert (a + b)[1..] == a[1..] + b;
      MembersListAppend(a[1..], b);
    }
  }

  /** The presence record a listed member is looked up with. */
  function AsPresence(m: DistributionListMember): PeoplePresenceData {
    PeoplePresenceData(None, m.userPrincipalName, Some(m.id))
  }

  function AsPresenceAll(members: seq<DistributionListMember>): (r: seq<PeoplePresenceData>)
    ensures |r| == |members|
  {
    seq(|members|, i requires 0 <= i < |members| => AsPresence(members[i]))
  }

  /** The scan over the members in the cache: the online count so far, and whether the scan got
      through. A cached record without availability makes `ToUpper` throw, which ends the
      whole count with what was counted until then. */
  function CountCached(cache: Cache, members: seq<PeoplePresenceData>): (nat, bool) {
    if |members| == 0 then (0, true)
    else if !IsCached(cache, members[0]) then CountCached(cache, members[1..])
    else
      var rec := cache[CacheKey(members[0])];
      if rec.availability.None? then (0, false)
      else
        var rest := CountCached(cache, members[1..]);
        ((if IsOnline(rec.availability.value) then 1 else 0) + rest.0, rest.1)
  }

  /** Over a well-formed cache the scan gets through and counts the online cached records. */
  lemma {:induction false} CountCachedWellFormed(cache: Cache, members: seq<PeoplePresenceData>)
    requires CacheWellFormed(cache)
    ensures CountCached(cache, members) == (CountOnline(Hits(cache, members)), true)
  {
    if |members| > 0 {
      CountCachedWellFormed(cache, members[1..]);
      if IsCached(cache, members[0]) {
        var rec := cache[CacheKey(members[0])];
        CountOnlineAppend([rec], Hits(cache, members[1..]));
      } else {
        assert [] + Hits(cache, members[1..]) == Hits(cache, members[1..]);
        assert Hits(cache, members) == Hits(cache, members[1..]);
        assert CountCached(cache, members) == CountCached(cache, members[1..]);
      }
    }
  }

  /** The outcome of an online count: the count, the cache afterwards and the payloads sent. */
  datatype OnlineCount = OnlineCount(count: nat, cache: Cache, payloads: seq<seq<BatchRequest>>)

  /** `GetDistributionListMembersOnlineCountAsync` for a member listing (`None` when the listing
      call failed, which makes the filter throw and the count 0). The cache changes only when
      Graph is called. */
  function GetDistributionListMembersOnlineCount(cache: Cache, listing: Option<seq<DistributionListMember>>, graph: seq<BatchRequest> -> PostOutcome): (r: OnlineCount)
    ensures listing.None? ==> r == OnlineCount(0, cache, [])
    ensures r.payloads == [] ==> r.cache == cache
  {
    if listing.None? then OnlineCount(0, cache, [])
    else
      var people := AsPresenceAll(MembersList(listing.value));
      var (cached, complete) := CountCached(cache, people);
      if !complete then OnlineCount(cached, cache, [])
      else
        var misses := Misses(cache, people);
        if |misses| == 0 then OnlineCount(cached, cache, [])
        else
          var batches := Chunks(misses, PresenceBatchSize);
          var fetched := Fetched(graph, batches);
          OnlineCount(cached + CountOnline(fetched), CacheAll(cache, fetched), Payloads(batches))
  }

  /** Over a well-formed cache the online count is the number of online records the presence
      lookup returns for the listed users, and both calls send the same batches and leave the
      same cache. */
  lemma OnlineCountMatchesLookup(cache: Cache, listing: seq<DistributionListMember>, graph: seq<BatchRequest> -> PostOutcome)
    requires CacheWellFormed(cache)
    ensures var people := AsPresenceAll(MembersList(listing));
            var lookup := GetBatchUserPresence(cache, people, graph);
            GetDistributionListMembersOnlineCount(cache, Some(listing), graph) ==
              OnlineCount(CountOnline(lookup.records), lookup.cache, lookup.payloads)
  {
    var people := AsPresenceAll(MembersList(listing));
    var hits := Hits(cache, people);
    var misses := Misses(cache, people);
    CountCachedWellFormed(cache, people);
    LookupUnfolds(cache, people, graph);
    CountUnfolds(cache, listing, graph);
    if |misses| > 0 {
      CountOnlineAppend(hits, Fetched(graph, Chunks(misses, PresenceBatchSize)));
    }
  }

  /** The presence lookup, case by case: an unfolding of `GetBatchUserPresence`'s body used by
      the proof of `OnlineCountMatchesLookup` to keep that proof small, not a contract. */
  lemma LookupUnfolds(cache: Cache, members: seq<PeoplePresenceData>, graph: seq<BatchRequest> -> PostOutcome)
    ensures var misses := Misses(cache, members);
            var batches := Chunks(misses, PresenceBatchSize);
            GetBatchUserPresence(cache, members, graph) ==
              if |misses| == 0 then PresenceLookup(Hits(cache, members), cache, [])
              else PresenceLookup(Hits(cache, members) + Fetched(graph, batches), CacheAll(cache, Fetched(graph, batches)), Payloads(batches))
  {
  }

  /** The online count over a listing whose cached records all count, case by case: an unfolding
      of `GetDistributionListMembersOnlineCount`'s body used by the proof of
      `OnlineCountMatchesLookup`, not a contract. */
  lemma CountUnfolds(cache: Cache, listing: seq<DistributionListMember>, graph: seq<BatchRequest> -> PostOutcome)
    requires CountCached(cache, AsPresenceAll(MembersList(listing))).1
    ensures var people := AsPresenceAll(MembersList(listing));
            var cached := CountCached(cache, people).0;
            var misses := Misses(cache, people);
            var batches := Chunks(misses, PresenceBatchSize);
            GetDistributionListMembersOnlineCount(cache, Some(listing), graph) ==
              if |misses| == 0 then OnlineCount(cached, cache, [])
              else OnlineCount(cached + CountOnline(Fetched(graph, batches)), CacheAll(cache, Fetched(graph, batches)), Payloads(batches))
  {
  }
}

=== FILE: stable_sort.dfy ===
/** lodash `orderBy` on one key: a stable sort, ascending or descending, and the key orders the
    client sorts by (numbers, strings with JavaScript's `<`, and nullable strings with nulls
    after every string). */
module StableSort {

  /** A strict weak order: irreflexive, transitive, and whatever separates `a` from `c` separates
      one of them from any `b` (so keys it does not separate form classes). */
  ghost predicate StrictWeakOrder<K(!new)>(lt: (K, K) -> bool) {
    && (forall a :: !lt(a, a))
    && (forall a, b, c :: lt(a, b) && lt(b, c) ==> lt(a, c))
    && (forall a, b, c :: lt(a, c) ==> lt(a, b) || lt(b, c))
  }

  /** Keys the order does not separate. */
  predicate Equivalent<K>(lt: (K, K) -> bool, a: K, b: K) {
    !lt(a, b) && !lt(b, a)
  }

  /** `desc`: the same order turned around. */
  function Reversed<K(!new)>(lt: (K, K) -> bool): (r: (K, K) -> bool)
    ensures forall a, b :: r(a, b) == lt(b, a)
  {
    (a, b) => lt(b, a)
  }

  lemma ReversedIsStrictWeakOrder<K(!new)>(lt: (K, K) -> bool)
    requires StrictWeakOrder(lt)
    ensures StrictWeakOrder(Reversed(lt))
  {
  }

  /** `asc` or `desc`. */
  function Direction<K(!new)>(lt: (K, K) -> bool, ascending: bool): (K, K) -> bool {
    if ascending then lt else Reversed(lt)
  }

  lemma DirectionIsStrictWeakOrder<K(!new)>(lt: (K, K) -> bool, ascending: bool)
    requires StrictWeakOrder(lt)
    ensures StrictWeakOrder(Direction(lt, ascending))
  {
    if !ascending {
      ReversedIsStrictWeakOrder(lt);
    }
  }

  /** No later element's key is below an earlier one's. */
  ghost predicate Sorted<T, K>(xs: seq<T>, key: T -> K, lt: (K, K) -> bool) {
    forall i, j :: 0 <= i < j < |xs| ==> !lt(key(xs[j]), key(xs[i]))
  }

  /** Insert `x` after every element whose key is not above its own, scanning from the back. */
  function Insert<T, K>(xs: seq<T>, x: T, key: T -> K, lt: (K, K) -> bool): (r: seq<T>)
    ensures |r| == |xs| + 1
  {
    if |xs| == 0 then [x]
    else
      var init, last := xs[..|xs| - 1], xs[|xs| - 1];
      assert xs == init + [last];
      if lt(key(x), key(last)) then Insert(init, x, key, lt) + [last]
      else xs + [x]
  }

  /** Stable insertion sort by `key` under `lt`. */
  function Sort<T, K>(xs: seq<T>, key: T -> K, lt: (K, K) -> bool): (r: seq<T>)
    ensures |r| == |xs|
  {
    if |xs| == 0 then []
    else Insert(Sort(xs[..|xs| - 1], key, lt), xs[|xs| - 1], key, lt)
  }

  lemma {:induction false} InsertPermutes<T, K>(xs: seq<T>, x: T, key: T -> K, lt: (K, K) -> bool)
    ensures multiset(Insert(xs, x, key, lt)) == multiset(xs) + multiset{x}
  {
    if |xs| > 0 {
      var init, last := xs[..|xs| - 1], xs[|xs| - 1];
      assert xs == init + [last];
      if lt(key(x), key(last)) {
        InsertPermutes(init, x, key, lt);
      }
    }
  }

  /** The sort is a permutation. */
  lemma {:induction false} SortPermutes<T, K>(xs: seq<T>, key: T -> K, lt: (K, K) -> bool)
    ensures multiset(Sort(xs, key, lt)) == multiset(xs)
  {
    if |xs| > 0 {
      var init, last := xs[..|xs| - 1], xs[|xs| - 1];
      assert xs == init + [last];
      SortPermutes(init, key, lt);
      InsertPermutes(Sort(init, key, lt), last, key, lt);
    }
  }

  /** Appending an element no key of `ys` is above keeps `ys` sorted. */
  lemma AppendSorted<T, K>(ys: seq<T>, y: T, key: T -> K, lt: (K, K) -> bool)
    requires Sorted(ys, key, lt)
    requires forall i :: 0 <= i < |ys| ==> !lt(key(y), key(ys[i]))
    ensures Sorted(ys + [y], key, lt)
  {
    var zs := ys + [y];
    forall i, j | 0 <= i < j < |zs|
      ensures !lt(key(zs[j]), key(zs[i]))
    {
      assert zs[i] == ys[i];
      if j < |ys| {
        assert zs[j] == ys[j];
      }
    }
  }

  /** A key no element is below stays so after an insertion of one more such element. */
  lemma {:induction false} InsertKeepsBound<T, K>(xs: seq<T>, x: T, key: T -> K, lt: (K, K) -> bool, b: K)
    requires forall i :: 0 <= i < |xs| ==> !lt(b, key(xs[i]))
    requires !lt(b, key(x))
    ensures forall i :: 0 <= i < |Insert(xs, x, key, lt)| ==> !lt(b, key(Insert(xs, x, key, lt)[i]))
  {
    if |xs| > 0 {
      var init, last := xs[..|xs| - 1], xs[|xs| - 1];
      if lt(key(x), key(last)) {
        assert forall i :: 0 <= i < |init| ==> init[i] == xs[i];
        InsertKeepsBound(init, x, key, lt, b);
        var ins := Insert(init, x, key, lt);
        assert Insert(xs, x, key, lt) == ins + [last];
        forall i | 0 <= i < |ins| + 1
          ensures !lt(b, key((ins + [last])[i]))
        {
          if i < |ins| {
            assert (ins + [last])[i] == ins[i];
          }
        }
      } else {
        forall i | 0 <= i < |xs| + 1
          ensures !lt(b, key((xs + [x])[i]))
        {
          if i < |xs| {
            assert (xs + [x])[i] == xs[i];
          }
        }
      }
    }
  }

  lemma {:induction false} InsertSorted<T, K(!new)>(xs: seq<T>, x: T, key: T -> K, lt: (K, K) -> bool)
    requires StrictWeakOrder(lt)
    requires Sorted(xs, key, lt)
    ensures Sorted(Insert(xs, x, key, lt), key, lt)
  {
    if |xs| > 0 {
      var init, last := xs[..|xs| - 1], xs[|xs| - 1];
      if lt(key(x), key(last)) {
        assert Sorted(init, key, lt);
        InsertSorted(init, x, key, lt);
        forall i | 0 <= i < |init|
          ensures !lt(key(last), key(init[i]))
        {
          assert init[i] == xs[i];
        }
        InsertKeepsBound(init, x, key, lt, key(last));
        AppendSorted(Insert(init, x, key, lt), last, key, lt);
      } else {
        forall i | 0 <= i < |xs|
          ensures !lt(key(x), key(xs[i]))
        {
          assert !lt(key(last), key(xs[i]));
        }
        AppendSorted(xs, x, key, lt);
      }
    }
  }

  /** The result is sorted. */
  lemma {:induction false} SortSorted<T, K(!new)>(xs: seq<T>, key: T -> K, lt: (K, K) -> bool)
    requires StrictWeakOrder(lt)
    ensures Sorted(Sort(xs, key, lt), key, lt)
  {
    if |xs| > 0 {
      SortSorted(xs[..|xs| - 1], key, lt);
      InsertSorted(Sort(xs[..|xs| - 1], key, lt), xs[|xs| - 1], key, lt);
    }
  }

  /** The elements whose key is equivalent to `c`, in order. */
  function Class<T, K>(xs: seq<T>, key: T -> K, lt: (K, K) -> bool, c: K): (r: seq<T>)
    ensures |r| <= |xs|
  {
    if |xs| == 0 then []
    else Class(xs[..|xs| - 1], key, lt, c) + (if Equivalent(lt, key(xs[|xs| - 1]), c) then [xs[|xs| - 1]] else [])
  }

  lemma {:induction false} ClassAppend<T, K>(xs: seq<T>, ys: seq<T>, key: T -> K, lt: (K, K) -> bool, c: K)
    ensures Class(xs + ys, key, lt, c) == Class(xs, key, lt, c) + Class(ys, key, lt, c)
    decreases |ys|
  {
    if |ys| > 0 {
      var zs := xs + ys;
      assert zs[..|zs| - 1] == xs + ys[..|ys| - 1];
      ClassAppend(xs, ys[..|ys| - 1], key, lt, c);
    } else {
      assert xs + ys == xs;
    }
  }

  lemma {:induction false} InsertStable<T, K(!new)>(xs: seq<T>, x: T, key: T -> K, lt: (K, K) -> bool, c: K)
    requires StrictWeakOrder(lt)
    ensures Class(Insert(xs, x, key, lt), key, lt, c) ==
            Class(xs, key, lt, c) + (if Equivalent(lt, key(x), c) then [x] else [])
  {
    if |xs| == 0 {
      assert Class([x], key, lt, c) == Class([], key, lt, c) + (if Equivalent(lt, key(x), c) then [x] else []);
    } else {
      var init, last := xs[..|xs| - 1], xs[|xs| - 1];
      if lt(key(x), key(last)) {
        InsertStable(init, x, key, lt, c);
        ClassAppend(Insert(init, x, key, lt), [last], key, lt, c);
        assert Class([last], key, lt, c) == Class([], key, lt, c) + (if Equivalent(lt, key(last), c) then [last] else []);
        assert !(Equivalent(lt, key(x), c) && Equivalent(lt, key(last), c));
      } else {
        ClassAppend(xs, [x], key, lt, c);
        assert Class([x], key, lt, c) == Class([], key, lt, c) + (if Equivalent(lt, key(x), c) then [x] else []);
      }
    }
  }

  /** The sort is stable: elements with equivalent keys keep their relative order. */
  lemma {:induction false} SortStable<T, K(!new)>(xs: seq<T>, key: T -> K, lt: (K, K) -> bool, c: K)
    requires StrictWeakOrder(lt)
    ensures Class(Sort(xs, key, lt), key, lt, c) == Class(xs, key, lt, c)
  {
    if |xs| > 0 {
      SortStable(xs[..|xs| - 1], key, lt, c);
      InsertStable(Sort(xs[..|xs| - 1], key, lt), xs[|xs| - 1], key, lt, c);
    }
  }

  /** When no key is below another, the sort changes nothing. */
  lemma {:induction false} SortOfEquivalentKeys<T, K>(xs: seq<T>, key: T -> K, lt: (K, K) -> bool)
    requires forall i, j :: 0 <= i < |xs| && 0 <= j < |xs| ==> !lt(key(xs[i]), key(xs[j]))
    ensures Sort(xs, key, lt) == xs
  {
    forall i | 0 < i < |xs|
      ensures !lt(key(xs[i]), key(xs[i - 1]))
    {
    }
    SortOfAscending(xs, key, lt);
  }

  /** A sequence in which no key is below the one before it is left as it is. */
  lemma {:induction false} SortOfAscending<T, K>(xs: seq<T>, key: T -> K, lt: (K, K) -> bool)
    requires forall i :: 0 < i < |xs| ==> !lt(key(xs[i]), key(xs[i - 1]))
    ensures Sort(xs, key, lt) == xs
  {
    if |xs| > 0 {
      var init, x := xs[..|xs| - 1], xs[|xs| - 1];
      assert forall i :: 0 <= i < |init| ==> init[i] == xs[i];
      SortOfAscending(init, key, lt);
      InsertAtEnd(init, x, key, lt);
      assert xs == init + [x];
    }
  }

  /** An element whose key is not below the last one's goes at the end. */
  lemma InsertAtEnd<T, K>(xs: seq<T>, x: T, key: T -> K, lt: (K, K) -> bool)
    requires |xs| > 0 ==> !lt(key(x), key(xs[|xs| - 1]))
    ensures Insert(xs, x, key, lt) == xs + [x]
  {
  }

  // ---------------------------------------------------------------------------------------
  // Key orders

  function IntLess(a: int, b: int): bool {
    a < b
  }

  lemma IntLessIsStrictWeakOrder()
    ensures StrictWeakOrder(IntLess)
  {
  }

  /** The UTF-16 code units of a character: the character itself below U+10000, otherwise its
      surrogate pair (a high surrogate in U+D800 to U+DBFF, then a low one in U+DC00 to U+DFFF). */
  function CodeUnits(c: char): (r: seq<int>)
    ensures 1 <= |r| <= 2
  {
    if c as int < 0x1_0000 then [c as int]
    else [0xD800 + (c as int - 0x1_0000) / 0x400, 0xDC00 + (c as int - 0x1_0000) % 0x400]
  }

  /** A string as JavaScript holds it: the code units of its characters in turn. */
  function Utf16(s: string): seq<int> {
    if |s| == 0 then [] else CodeUnits(s[0]) + Utf16(s[1..])
  }

  /** Lexicographic order on code-unit sequences, a proper prefix first. */
  function UnitsLess(a: seq<int>, b: seq<int>): bool {
    if |a| == 0 then |b| > 0
    else if |b| == 0 then false
    else a[0] < b[0] || (a[0] == b[0] && UnitsLess(a[1..], b[1..]))
  }

  /** JavaScript's `<` on strings: lexicographic on UTF-16 code units, not on code points. */
  function TextLess(a: string, b: string): bool {
    UnitsLess(Utf16(a), Utf16(b))
  }

  /** How JavaScript orders two different characters: by code point when both are below U+10000
      or both above; otherwise by the high surrogate, which puts a character above U+FFFF after
      those below U+D800 and before those from U+E000 to U+FFFF. */
  predicate CharLess(c: char, d: char) {
    var small, large := c as int < 0x1_0000, d as int < 0x1_0000;
    if small == large then c < d
    else if small then c as int < 0xD800
    else d as int >= 0xE000
  }

  lemma {:induction false} UnitsLessIrreflexive(a: seq<int>)
    ensures !UnitsLess(a, a)
  {
    if |a| > 0 {
      UnitsLessIrreflexive(a[1..]);
    }
  }

  lemma {:induction false} UnitsLessTransitive(a: seq<int>, b: seq<int>, c: seq<int>)
    requires UnitsLess(a, b) && UnitsLess(b, c)
    ensures UnitsLess(a, c)
  {
    if |a| > 0 && |b| > 0 && |c| > 0 && a[0] == b[0] && b[0] == c[0] {
      UnitsLessTransitive(a[1..], b[1..], c[1..]);
    }
  }

  /** Two different unit sequences are ordered one way or the other. */
  lemma {:induction false} UnitsLessTotal(a: seq<int>, b: seq<int>)
    requires a != b
    ensures UnitsLess(a, b) || UnitsLess(b, a)
  {
    if |a| > 0 && |b| > 0 && a[0] == b[0] {
      assert a == [a[0]] + a[1..] && b == [b[0]] + b[1..];
      UnitsLessTotal(a[1..], b[1..]);
    }
  }

  /** A common prefix does not decide the order. */
  lemma {:induction false} UnitsLessCommonPrefix(p: seq<int>, x: seq<int>, y: seq<int>)
    ensures UnitsLess(p + x, p + y) == UnitsLess(x, y)
  {
    if |p| > 0 {
      assert (p + x)[0] == p[0] && (p + y)[0] == p[0];
      assert (p + x)[1..] == p[1..] + x && (p + y)[1..] == p[1..] + y;
      UnitsLessCommonPrefix(p[1..], x, y);
    } else {
      assert p + x == x && p + y == y;
    }
  }

  /** Different characters are decided by their own code units, whatever follows them. */
  lemma CodeUnitsDecide(c: char, d: char, x: seq<int>, y: seq<int>)
    requires c != d
    ensures UnitsLess(CodeUnits(c) + x, CodeUnits(d) + y) == CharLess(c, d)
  {
  }


  /** The partner of `TextLess`: the empty string is below every other string, and two strings
      that start with characters `c` and `d` are ordered by the rest when `c == d` and by
      `CharLess(c, d)` otherwise. */
  lemma TextLessByCharacter(c: char, d: char, a: string, b: string)
    ensures TextLess("", b) <==> |b| > 0
    ensures !TextLess(a, "")
    ensures TextLess([c] + a, [d] + b) <==> if c == d then TextLess(a, b) else CharLess(c, d)
  {
    assert ([c] + a)[0] == c && ([c] + a)[1..] == a;
    assert ([d] + b)[0] == d && ([d] + b)[1..] == b;
    assert Utf16([c] + a) == CodeUnits(c) + Utf16(a);
    assert Utf16([d] + b) == CodeUnits(d) + Utf16(b);
    if c == d {
      UnitsLessCommonPrefix(CodeUnits(c), Utf16(a), Utf16(b));
    } else {
      CodeUnitsDecide(c, d, Utf16(a), Utf16(b));
    }
    if |a| > 0 {
      assert |Utf16(a)| > 0;
    }
  }

  /** An emoji sorts before a fullwidth letter in JavaScript, though its code point is higher. */
  lemma EmojiBeforeFullwidth()
    ensures TextLess("\U{1F600}", "\U{FF21}") && !TextLess("\U{FF21}", "\U{1F600}")
  {
  }


  lemma TextLessIsStrictWeakOrder()
    ensures StrictWeakOrder(TextLess)
  {
    forall a | true
      ensures !TextLess(a, a)
    {
      UnitsLessIrreflexive(Utf16(a));
    }
    forall a, b, c | TextLess(a, b) && TextLess(b, c)
      ensures TextLess(a, c)
    {
      UnitsLessTransitive(Utf16(a), Utf16(b), Utf16(c));
    }
    forall a, b, c | TextLess(a, c)
      ensures TextLess(a, b) || TextLess(b, c)
    {
      var x, y, z := Utf16(a), Utf16(b), Utf16(c);
      if !UnitsLess(x, y) && !UnitsLess(y, z) {
        if x != y {
          UnitsLessTotal(x, y);
          UnitsLessTransitive(y, x, z);
          if y != z {
            UnitsLessTotal(y, z);
          }
          UnitsLessIrreflexive(y);
        }
      }
    }
  }
}

=== FILE: string_extensions.dfy ===
/** `StringExtensions.Truncate`: cut a string to at most `maxLength` characters. */
module StringExtensions {
  import opened Wrappers

  /** `value.Truncate(maxLength)`, with `None` for a null string. Null and empty strings come
      back as they are; a string no longer than the bound comes back unchanged; otherwise the
      result is its first `maxLength` characters. `Substring(0, maxLength)` throws for a negative
      bound, which only a non-empty string reaches, so such a call is excluded. */
  function Truncate(value: Option<string>, maxLength: int): (r: Option<string>)
    requires value.None? || |value.value| == 0 || maxLength >= 0
    ensures value.None? ==> r.None?
    ensures value.Some? ==> r.Some?
    ensures value.Some? && |value.value| <= maxLength ==> r == value
    ensures value.Some? && maxLength >= 0 ==>
              |r.value| == (if |value.value| < maxLength then |value.value| else maxLength)
    ensures value.Some? ==> r.value <= value.value
  {
    match value
    case None => None
    case Some(s) =>
      if |s| == 0 then value
      else if |s| <= maxLength then value
      else Some(s[..maxLength])
  }

  /** Truncating twice with the same bound is truncating once. */
  lemma TruncateIdempotent(value: Option<string>, maxLength: int)
    requires value.None? || |value.value| == 0 || maxLength >= 0
    ensures Truncate(Truncate(value, maxLength), maxLength) == Truncate(value, maxLength)
  {
  }
}

=== FILE: table_store.dfy ===
/** `BaseRepository<T>`: an Azure table seen as a map from (partition key, row key) to entity,
    and the segmented query loop that reads a partition. */
module TableStore {
  import opened Wrappers
  import opened Text

  /** The two keys that identify an entity in a table. */
  datatype Key = Key(partition: string, row: string)

  /** A table: at most one entity per key. */
  type Table<E> = map<Key, E>

  /** `CreateOrUpdateAsync` (`InsertOrReplace`): afterwards the key holds the entity, whether or
      not it held one before, and every other key is as it was. */
  function CreateOrUpdate<E>(table: Table<E>, key: Key, entity: E): (r: Table<E>)
    ensures key in r && r[key] == entity
    ensures forall k :: k != key ==> (k in r <==> k in table)
    ensures forall k :: k != key && k in table ==> r[k] == table[k]
  {
    table[key := entity]
  }

  /** `DeleteAsync`: removes the entity under the key. The table service rejects the delete of an
      entity it does not hold, so that case is an error (`None`). */
  function Delete<E>(table: Table<E>, key: Key): (r: Option<Table<E>>)
    ensures r.None? <==> key !in table
    ensures r.Some? ==> key !in r.value
    ensures r.Some? ==> forall k :: k != key ==> (k in r.value <==> k in table)
    ensures r.Some? ==> forall k :: k != key && k in table ==> r.value[k] == table[k]
  {
    if key in table then Some(table - {key}) else None
  }

  /** Writing then deleting the same key restores a table that did not hold it. */
  lemma DeleteUndoesCreate<E>(table: Table<E>, key: Key, entity: E)
    requires key !in table
    ensures Delete(CreateOrUpdate(table, key, entity), key) == Some(table)
  {
    assert CreateOrUpdate(table, key, entity) - {key} == table;
  }

  /** The key `GetAsync` retrieves: both keys lower-cased. */
  function LookupKey(partitionKey: string, rowKey: string): (k: Key)
    ensures IsLowerCase(k.partition) && IsLowerCase(k.row)
    ensures |k.partition| == |partitionKey| && |k.row| == |rowKey|
  {
    LowerIsLowerCase(partitionKey);
    LowerIsLowerCase(rowKey);
    Key(Lower(partitionKey), Lower(rowKey))
  }

  /** `GetAsync`: the entity under the lower-cased keys, or null. */
  function Get<E>(table: Table<E>, partitionKey: string, rowKey: string): (r: Option<E>)
    ensures r.Some? <==> LookupKey(partitionKey, rowKey) in table
    ensures r.Some? ==> r.value == table[LookupKey(partitionKey, rowKey)]
  {
    var k := LookupKey(partitionKey, rowKey);
    if k in table then Some(table[k]) else None
  }

  /** An entity stored under a key with an upper-case letter in it cannot be read back by
      `GetAsync`, whatever keys the caller passes. */
  lemma GetMissesMixedCaseKeys(stored: Key, partitionKey: string, rowKey: string)
    requires !IsLowerCase(stored.partition) || !IsLowerCase(stored.row)
    ensures LookupKey(partitionKey, rowKey) != stored
  {
  }

  /** An entity stored under lower-case keys is read back by any keys equal to them ignoring case. */
  lemma GetFindsLowerCaseKeys<E>(table: Table<E>, stored: Key, partitionKey: string, rowKey: string)
    requires stored in table
    requires IsLowerCase(stored.partition) && IsLowerCase(stored.row)
    requires Lower(partitionKey) == stored.partition && Lower(rowKey) == stored.row
    ensures Get(table, partitionKey, rowKey) == Some(table[stored])
  {
  }

  /** `GetPartitionKeyFilter`: the partition key a query matches. A null or blank argument falls
      back to the repository's default partition key, which no constructor assigns, so it stays
      null (`None`); any other argument is lower-cased. */
  function PartitionFilter(partition: Option<string>): (r: Option<string>)
    ensures r.None? <==> partition.None? || IsBlank(partition.value)
    ensures r.Some? ==> r.value == Lower(partition.value) && IsLowerCase(r.value)
  {
    LowerIsLowerCase(partition.GetOr(""));
    if partition.None? || IsBlank(partition.value) then None else Some(Lower(partition.value))
  }

  /** A partition of Unicode spaces only is blank and falls back to the default, while a
      partition with a zero-width space is lower-cased and read. */
  lemma UnicodeSpacePartitionFallsBack()
    ensures PartitionFilter(Some("\U{00A0}\U{3000}")) == None
    ensures PartitionFilter(Some("\U{200B}")) == Some("\U{200B}")
  {
    assert !IsWhiteSpace("\U{200B}"[0]);
    LowerOfLowerCase("\U{200B}");
  }

  /** The keys `GetAllAsync(partition)` asks for: those in the partition the filter names. For a
      blank partition the filter is built from the unset default; what the table SDK makes of a
      null comparison value is outside the model, which takes that filter to match nothing. */
  function GetAll<E>(table: Table<E>, partition: Option<string>): (r: set<Key>)
    ensures forall k :: k in r <==> k in table && PartitionFilter(partition) == Some(k.partition)
    ensures partition.None? || IsBlank(partition.value) ==> r == {}
  {
    var filter := PartitionFilter(partition);
    if filter.None? then {} else set k | k in table && k.partition == filter.value
  }

  // ---------------------------------------------------------------------------------------
  // `ExecuteQueryAsync`

  /** One segment of a query's answer: its entities and whether a continuation token follows. */
  datatype Segment<E> = Segment(entities: seq<E>, hasContinuation: bool)

  /** The segments the table service returns for successive requests of one query: every
      segment but the last carries a continuation token. */
  ghost predicate SegmentChain<E>(segments: seq<Segment<E>>) {
    && |segments| > 0
    && (forall i :: 0 <= i < |segments| - 1 ==> segments[i].hasContinuation)
    && !segments[|segments| - 1].hasContinuation
  }

  /** The entities of the given segments, in segment order. */
  function Collect<E>(segments: seq<Segment<E>>): seq<E> {
    if |segments| == 0 then [] else Collect(segments[..|segments| - 1]) + segments[|segments| - 1].entities
  }

  /** The loop goes on after reading `read` segments: a token follows, the query is not
      cancelled and fewer than `count` entities are collected. */
  ghost predicate Continues<E>(segments: seq<Segment<E>>, cancelled: nat -> bool, count: Option<int>, read: nat)
    requires 0 < read <= |segments|
  {
    && segments[read - 1].hasContinuation
    && !cancelled(read)
    && (count.None? || |Collect(segments[..read])| < count.value)
  }

  /** `ExecuteQueryAsync`: request segments one after another, appending each segment's entities,
      until there is no continuation token, the query is cancelled (`cancelled(n)` is the state of
      the cancellation token after `n` segments) or at least `count` entities are collected.
      The result is the entities of the first `read` segments. */
  method ExecuteQuery<E>(segments: seq<Segment<E>>, cancelled: nat -> bool, count: Option<int>)
    returns (result: seq<E>, read: nat)
    requires SegmentChain(segments)
    ensures 0 < read <= |segments|
    ensures result == Collect(segments[..read])
    ensures forall m :: 0 < m < read ==> Continues(segments, cancelled, count, m)
    ensures !Continues(segments, cancelled, count, read)
    ensures count.None? && (forall m :: 0 < m < |segments| ==> !cancelled(m)) ==>
              read == |segments| && result == Collect(segments)
  {
    result := [];
    read := 0;
    var more := true;
    while more
      invariant read <= |segments|
      invariant more ==> read < |segments|
      invariant !more ==> 0 < read && !Continues(segments, cancelled, count, read)
      invariant result == Collect(segments[..read])
      invariant forall m :: 0 < m < read ==> Continues(segments, cancelled, count, m)
      invariant more && 0 < read ==> Continues(segments, cancelled, count, read)
      decreases |segments| - read, more
    {
      var seg := segments[read];
      assert segments[..read + 1][..read] == segments[..read];
      result := result + seg.entities;
      read := read + 1;
      more := seg.hasContinuation && !cancelled(read) && (count.None? || |result| < count.value);
    }
    if count.None? && (forall m :: 0 < m < |segments| ==> !cancelled(m)) {
      assert segments[..read] == segments;
    }
  }
}

=== FILE: text.dfy ===
/** String helpers shared by the backend and the client: ASCII case mapping,
    ignore-case comparison, substring search, `{0}` formatting and decimal digits. */
module Text {

  predicate IsUpperAscii(c: char) {
    'A' <= c <= 'Z'
  }

  predicate IsLowerAscii(c: char) {
    'a' <= c <= 'z'
  }

  function LowerChar(c: char): char {
    if IsUpperAscii(c) then (c as int + 32) as char else c
  }

  function UpperChar(c: char): char {
    if IsLowerAscii(c) then (c as int - 32) as char else c
  }

  /** `string.ToLower()` / `toLowerCase()` on the ASCII range. */
  function Lower(s: string): (r: string)
    ensures |r| == |s|
    ensures forall i :: 0 <= i < |s| ==> r[i] == LowerChar(s[i])
  {
    if |s| == 0 then "" else [LowerChar(s[0])] + Lower(s[1..])
  }

  /** `string.ToUpper()` on the ASCII range. */
  function Upper(s: string): (r: string)
    ensures |r| == |s|
    ensures forall i :: 0 <= i < |s| ==> r[i] == UpperChar(s[i])
  {
    if |s| == 0 then "" else [UpperChar(s[0])] + Upper(s[1..])
  }

  /** A string that lower-casing leaves unchanged. */
  predicate IsLowerCase(s: string) {
    forall i :: 0 <= i < |s| ==> !IsUpperAscii(s[i])
  }

  lemma LowerIsLowerCase(s: string)
    ensures IsLowerCase(Lower(s))
  {
  }

  lemma LowerIdempotent(s: string)
    ensures Lower(Lower(s)) == Lower(s)
  {
  }

  lemma LowerOfLowerCase(s: string)
    requires IsLowerCase(s)
    ensures Lower(s) == s
  {
  }

  lemma LowerAppend(a: string, b: string)
    ensures Lower(a + b) == Lower(a) + Lower(b)
  {
  }

  /** `string.Equals(a, b, StringComparison.OrdinalIgnoreCase)`, with null never equal to a string. */
  predicate EqualsIgnoreCase(a: string, b: string) {
    Lower(a) == Lower(b)
  }

  /** `sub` occurs in `s` starting at index `i`. */
  predicate OccursAt(s: string, sub: string, i: int) {
    0 <= i && i + |sub| <= |s| && s[i..i + |sub|] == sub
  }

  /** `sub` occurs somewhere in `s` (`includes` / `Contains`). */
  predicate ContainsSub(s: string, sub: string) {
    exists i :: 0 <= i <= |s| && OccursAt(s, sub, i)
  }

  /** `char.IsWhiteSpace`: the Unicode space, line and paragraph separators, the
      controls U+0009 to U+000D, and U+0085. */
  predicate IsWhiteSpace(c: char) {
    '\U{0009}' <= c <= '\U{000D}' || c == ' ' || c == '\U{0085}' || c == '\U{00A0}'
    || c == '\U{1680}' || '\U{2000}' <= c <= '\U{200A}' || c == '\U{2028}' || c == '\U{2029}'
    || c == '\U{202F}' || c == '\U{205F}' || c == '\U{3000}'
  }

  /** `string.IsNullOrWhiteSpace` on a non-null string. */
  predicate IsBlank(s: string) {
    forall i :: 0 <= i < |s| ==> IsWhiteSpace(s[i])
  }

  /** No-break and ideographic spaces are blank, as `IsNullOrWhiteSpace` has it; the
      zero-width space is not white space to .NET. */
  lemma NoBreakSpaceIsBlank()
    ensures IsBlank("\U{00A0}") && IsBlank("\U{3000}") && !IsBlank("\U{200B}")
  {
    assert !IsWhiteSpace("\U{200B}"[0]);
  }

  /** Lower-casing neither makes nor unmakes a blank string. */
  lemma LowerKeepsBlank(s: string)
    ensures IsBlank(Lower(s)) <==> IsBlank(s)
  {
  }

  /** The placeholder `string.Format` substitutes. */
  const Placeholder: string := "{0}"

  /** `string.Format(format, arg)` for a format whose only item is `{0}`:
      every occurrence of `{0}` is replaced by `arg`, everything else is copied. */
  function Format(format: string, arg: string): string
    decreases |format|
  {
    if |format| >= 3 && format[..3] == Placeholder then
      arg + Format(format[3..], arg)
    else if |format| == 0 then
      ""
    else
      [format[0]] + Format(format[1..], arg)
  }

  /** Decimal digit of `d`. */
  function DigitChar(d: nat): char
    requires d < 10
  {
    "0123456789"[d]
  }

  /** The decimal representation C# string concatenation gives a non-negative int. */
  function NatToString(n: nat): (r: string)
    ensures |r| > 0
    ensures forall i :: 0 <= i < |r| ==> '0' <= r[i] <= '9'
    decreases n
  {
    if n < 10 then [DigitChar(n)] else NatToString(n / 10) + [DigitChar(n % 10)]
  }
}

=== FILE: wrappers.dfy ===
/** Option and Result: the model's stand-ins for C# null and for exceptions. */
module Wrappers {

  /** `None` plays the part of a C# or JavaScript null/undefined. */
  datatype Option<+T> = None | Some(value: T) {

    function GetOr(default: T): T {
      match this
      case Some(v) => v
      case None => default
    }
  }

  /** `Failure` plays the part of an exception that escapes an operation. */
  datatype Result<+R, +E> = Success(value: R) | Failure(error: E)
}
